=== FILE: README.md ===
# M4B audiobook creator — a verified model

The system turns a folder of audio files into one M4B audiobook: one chapter
per file, the book's tags, and a cover picture. It does this by handing
`ffmpeg` three things:
- a concat list naming the files in order;
- an FFMETADATA document holding the global tags and the chapter
  boundaries;
- an optional cover image.

It exists twice:
- **Electron desktop app.** A back end (`electron/main.js`) scans folders,
  probes files with `ffprobe` and runs the `create-m4b` job. A React editor
  (`src/App.tsx`) keeps the folder list, lets the user reorder, delete and
  rename chapters, and runs every folder in turn.
- **Tkinter program** (`m4b_creator.py`). It loads folders
  (`FolderData`), probes files (`AudioFile`), edits metadata for one folder
  or for all of them (`BatchMetadataDialog`), and runs the batch
  (`M4BCreator.create_m4b`).

The model is split into Dafny modules:

| module | file | what it holds |
|---|---|---|
| `Text` | text.dfy | trimming with Python's and JavaScript's whitespace, splitting, the quote escaping of concat lines, decimal integers |
| `FileTree`, `PathOrder` | fs.dfy, order.dfy | a directory tree as a value, audio extensions, and the two string orders used when sorting: code points for Python's `sorted()`, UTF-16 code units for JavaScript's `sort()` |
| `Probe` | probe.dfy | what `ffprobe` reports and how the Electron back end reads it |
| `PyDict` | py_dict.dfy | Python's insertion-ordered `dict` as a list of pairs |
| `ElectronScan` | electron_scan.dfy | `get-audio-files`, as a class that collects paths and sorts them |
| `CreatorFiles` | py_files.dfy | `AudioFile` and `FolderData`, as classes |
| `ConcatList`, `FfMetadata`, `Chapters` | concat_list.dfy, ffmetadata.dfy, chapters.dfy | the two text files given to `ffmpeg`, with parsers that read them back (the metadata reader unescapes backslashes, as `ffmpeg`'s does), and the chapter boundaries |
| `ElectronMetadata` | electron_metadata.dfy | the Electron writer of the metadata document |
| `FfmpegCommand` | ffmpeg_command.dfy | the `ffmpeg` argument vector, with a decoder and an independent option table |
| `ShellCommand` | shell_command.dfy | the Electron handler's one-line shell command, with the splitting of a line into arguments at unquoted spaces |
| `Workspace` | workspace.dfy | the disk as a mutable map from path to content, the temporary file names, cleanup |
| `ElectronCreate` | electron_create.dfy | the `create-m4b` handler |
| `CreatorRun` | py_create.dfy | `M4BCreator.create_m4b` |
| `CreatorBatch` | py_batch.dfy | the batch metadata dialog, saving one folder's fields, and the batch run |
| `Editor` | editor.dfy | the React editor's state and handlers, and its loop over folders |

Some parts are results of programs the system runs: `ffprobe`'s JSON, the
directory listing, and whether `ffmpeg` can write, extract a picture or
transcode. These enter as parameters:
- `ProbeOutcome`;
- `Listing`;
- `Tools(canWrite, picturesIn, transcodes)`.

A file the transcoder writes is the value `Audiobook(arguments)`: the model
records the command the file was made from, not the audio.

Optional strings are modelled as the empty string standing for "absent".
This covers JavaScript's `undefined` fields and Python's `None`, which the
source treats like an empty string wherever it tests them.

## Model

| member | source | states |
|---|---|---|
| `Text.Trim` | m4b_creator.py:362 | `str.strip()` or `trim()`, each with its own language's whitespace: the result is no longer than the input and neither starts nor ends with whitespace |
| `Text.TrimSlice` | m4b_creator.py:362 | the result is the slice of the input that starts where the leading whitespace ends |
| `Text.TrimDropsWhitespace` | src/App.tsx:346 | every character dropped before or after that slice is whitespace in the language doing the trimming |
| `Text.NoBreakSpaceTrimmedByBoth` | m4b_creator.py:1018 | U+00A0 is stripped by Python and trimmed by JavaScript |
| `Text.NextLineTrimmedByPythonOnly` | m4b_creator.py:362 | U+0085 is stripped by Python's `strip()` but kept by JavaScript's `trim()` |
| `Text.ByteOrderMarkTrimmedByJavaScriptOnly` | src/App.tsx:346 | U+FEFF is trimmed by JavaScript's `trim()` but kept by Python's `strip()` |
| `Text.WhiteCharTrimmed` | m4b_creator.py:362 | a lone whitespace character trims to nothing |
| `Text.SolidCharKept` | src/App.tsx:346 | a lone character that is not whitespace is kept |
| `Text.TrimIdempotent` | m4b_creator.py:362 | stripping twice is stripping once |
| `Text.TrimEmptyIffBlank` | src/App.tsx:346 | the trimmed text is empty exactly when every character is whitespace |
| `Text.BeforeFirst` | electron/main.js:314 | `split('-')[0]`: the longest prefix without the separator; the whole string when it has none |
| `Text.IndexOf` | electron/main.js:314 | the first position of the character, with no earlier occurrence; -1 exactly when it is absent |
| `Text.AfterLast` | src/App.tsx:167 | `split(sep).pop()`: the longest suffix without the separator, which is the whole string when it has none |
| `Text.JoinSplit` | electron/main.js:314 | joining the pieces of a split gives back the string |
| `Text.SplitJoin` | electron/main.js:267 | splitting a join of separator-free pieces gives back the pieces |
| `Text.Slashed` | electron/main.js:265 | every backslash becomes '/', the length is kept, and no backslash remains |
| `Text.ReplaceChar` | m4b_creator.py:148 | every occurrence of one character becomes the other and all other characters are kept |
| `Text.UnescapeEscape` | electron/main.js:265 | the `'` → `'\''` escaping is undone by the reader of concat lines |
| `Text.EscapeWellFormed` | m4b_creator.py:148 | an escaped backslash-free path contains no lone quote |
| `Text.ToLower` | electron/main.js:180 | ASCII lower-casing, which keeps the length; it decides membership in the all-ASCII extension list (electron/main.js:166, m4b_creator.py:81) as the Unicode `toLowerCase()`/`lower()` does |
| `Text.NatToString` | m4b_creator.py:209-210 | the decimal text of a natural number: at least one digit and nothing but digits |
| `Text.IntToStringRoundTrip` | electron/main.js:327-328 | the decimal text of a START/END value reads back as the same integer |
| `Text.ParseNatToString` | m4b_creator.py:209-210 | the decimal text of a natural number reads back as that number |
| `FileTree.Suffix` | m4b_creator.py:87 | `Path(file).suffix`: empty, or a final dot-suffix of at least two characters that is not the whole name |
| `FileTree.LastNameOfJoin` | electron/main.js:174 | the last path component of `join(dir, name)` is `name` |
| `PathOrder.LessEqTotal` | electron/main.js:192 | each of the two string orders, code points and UTF-16 code units, is total |
| `PathOrder.LessEqTransitive` | electron/main.js:192 | each string order is transitive |
| `PathOrder.LessEqAntisymmetric` | m4b_creator.py:96 | each string order is antisymmetric, so there are no ties between distinct paths |
| `PathOrder.Insert` | m4b_creator.py:96 | inserting into a sorted list keeps it sorted and adds exactly one element |
| `PathOrder.Sort` | electron/main.js:192 | under either order, the result is sorted and a permutation of the input |
| `PathOrder.SortedUnique` | m4b_creator.py:96 | two lists sorted under the same order and holding the same paths are equal |
| `PathOrder.SortIdempotent` | electron/main.js:192 | sorting a list already sorted under the same order changes nothing |
| `PathOrder.SortIsSortedPermutation` | m4b_creator.py:96 | any sorted rearrangement of a list is exactly what sorting it returns |
| `PathOrder.SortPair` | electron/main.js:192 | two paths come out in the order the collation puts them |
| `PathOrder.CodeUnitIsUtf16` | electron/main.js:192 | the code-unit order is the order of the strings' UTF-16 encodings compared unit by unit, as `sort()` compares |
| `PathOrder.CollationsAgreeInBmp` | m4b_creator.py:96 | on strings of Basic Multilingual Plane characters the code-point and code-unit orders agree |
| `PathOrder.SortsAgreeInBmp` | electron/main.js:192 | on such paths `sorted()` and `sort()` give the same list |
| `PathOrder.CollationsDisagree` | electron/main.js:192 | `\u{1F600}.mp3` sorts before `\uE000.mp3` under `sort()` and after it under `sorted()` |
| `Probe.FirstCover` | m4b_creator.py:55-60 | the index of the first video, mjpeg, png or jpg stream, and none exactly when there is no such stream |
| `Probe.ElectronHasCoverIff` | electron/main.js:218-225 | `hasCover` holds exactly when some stream is a cover stream |
| `Probe.ElectronFormatFields` | electron/main.js:204-231 | duration and tags come from `format` when present; otherwise they are 0 and `{}` |
| `PyDict.GetPresent` | m4b_creator.py:104-108 | `dict.get` finds a value exactly when the key is among the keys |
| `PyDict.SetGet` | m4b_creator.py:1015 | after `d[key] = value`, `key` reads `value` and every other key reads as before |
| `PyDict.SetKeys` | m4b_creator.py:1015 | assigning keeps the key order; a new key goes at the end |
| `PyDict.SetKeepsDistinct` | m4b_creator.py:1015 | assigning never duplicates a key |
| `PyDict.SetAllOverwrites` | m4b_creator.py:1037-1038 | after assigning every pair of `b`, a key of `b` reads `b`'s value and any other key reads as before |
| `PyDict.SetAllGet` | m4b_creator.py:1037-1038 | after assigning every pair of `b`, a key reads its last value in `b`, else its old value |
| `PyDict.SetAllFixed` | m4b_creator.py:1037-1038 | assigning pairs the dict already holds changes nothing |
| `PyDict.SetAllKeys` | m4b_creator.py:1037-1038 | assigning all pairs keeps the old keys in order at the front and adds only keys of `b` |
| `PyDict.SetAllIdempotent` | m4b_creator.py:1037-1038 | applying the same batch twice is applying it once |
| `ElectronScan.AudioFileScan.constructor` | electron/main.js:166-167 | the scan starts with no files |
| `ElectronScan.AudioFileScan.ScanDirectory` | electron/main.js:169-189 | `files` gains exactly the reference walk `Scanned` of the directory, in listing order, recursing only when asked |
| `ElectronScan.AudioFileScan.SortFiles` | electron/main.js:192 | `files` becomes its old value sorted by UTF-16 code units |
| `ElectronScan.GetAudioFiles` | electron/main.js:165-195 | the result is sorted by UTF-16 code units and a permutation of the walk, and every name it holds has an audio extension |
| `ElectronScan.ScannedAccepted` | electron/main.js:179-183 | every path found ends in an accepted file name |
| `ElectronScan.ShallowScanStaysInFolder` | electron/main.js:177 | without recursion, every path found is `join(dir, name)` for an entry of the folder |
| `ElectronScan.AcceptedFileFound` | electron/main.js:173-183 | an audio file listed before any stat failure is found |
| `ElectronScan.StatFailureKeepsEarlier` | electron/main.js:170-188 | a stat failure ends the folder's scan, and what was found before it is kept |
| `CreatorFiles.AudioFile.constructor` | m4b_creator.py:22-28 | a new file holds its path and the state extracted from one probe of it |
| `CreatorFiles.AudioFile.ExtractMetadata` | m4b_creator.py:30-63 | the state becomes `Extracted` of the old state and the probe: a failed probe changes nothing; a success sets the duration and tags present and marks the first cover stream |
| `CreatorFiles.ProbeReadingsAgree` | m4b_creator.py:42-60 | the Python reading of a probe matches the Electron one in duration, cover and tags, and the cover index is the first cover stream |
| `CreatorFiles.FolderData.constructor` | m4b_creator.py:69-76 | a new folder is empty, named after its last path component, and its output name is that name |
| `CreatorFiles.FolderData.LoadFiles` | m4b_creator.py:79-109 | raises exactly when the folder cannot be listed; otherwise the files are the sorted audio paths found, each freshly probed, and the tags come from the first file |
| `CreatorFiles.FolderData.TakeFirstTags` | m4b_creator.py:100-109 | with at least one file, the metadata becomes the first file's initial metadata; otherwise it is unchanged |
| `CreatorFiles.FolderData.AddFiles` | m4b_creator.py:96-98 | one freshly probed `AudioFile` per path, in the given order |
| `CreatorFiles.FolderData.MoveFileUp` | m4b_creator.py:111-115 | the files become `MovedUp` of the old files; nothing else changes |
| `CreatorFiles.FolderData.MoveFileDown` | m4b_creator.py:117-121 | the files become `MovedDown` of the old files; nothing else changes |
| `CreatorFiles.SortedPaths` | m4b_creator.py:96 | `sorted(file_paths)`: sorted and a permutation |
| `CreatorFiles.FindFiles` | m4b_creator.py:84-93 | the paths found by `os.walk` or by `listdir`, and none when `listdir` fails |
| `CreatorFiles.CollectWalked` | m4b_creator.py:85-88 | the audio files of every directory of the walk, in walk order |
| `CreatorFiles.AppendMatching` | m4b_creator.py:86-88 | appends `join(root, file)` for every audio name, in order |
| `CreatorFiles.CollectListed` | m4b_creator.py:90-93 | the audio regular files of the folder, in listing order |
| `CreatorFiles.OpenFolder` | m4b_creator.py:69-77 | the constructor fails exactly on an unreadable folder without recursion; otherwise it yields a fresh, loaded folder |
| `CreatorFiles.ListedIff` | m4b_creator.py:90-93 | a path is listed exactly when some entry is a regular file with an audio name that joins to it |
| `CreatorFiles.ListedMatchesShallowScan` | m4b_creator.py:90-93 | without stat failures, the Python listing equals the Electron scan without recursion |
| `CreatorFiles.RecursiveFindsShallow` | m4b_creator.py:84-93 | the recursive walk finds every file the plain listing finds |
| `CreatorFiles.WalkFindsScanned` | m4b_creator.py:85-88 | on a tree without failures, the walk finds the same paths as the Electron recursive scan |
| `CreatorFiles.LoadMatchesElectronScan` | m4b_creator.py:79-98 | the Python loader and the Electron scan yield the same paths; when every path lies in the Basic Multilingual Plane, the same list in the same order |
| `CreatorFiles.GatheredAccepted` | m4b_creator.py:87 | every walked path ends in an audio name |
| `CreatorFiles.InitialMetadataValues` | m4b_creator.py:101-109 | the five keys in order; title is the album tag, else the title tag, else the folder name; the others are tags or '' |
| `CreatorFiles.InitialMetadataKeys` | m4b_creator.py:103-109 | the keys are title, artist, album, date, genre, without repeats |
| `CreatorFiles.MoveUpPermutes` | m4b_creator.py:111-115 | moving up is a permutation that swaps `index-1` and `index` when `0 < index < len`, and otherwise changes nothing |
| `CreatorFiles.MoveDownPermutes` | m4b_creator.py:117-121 | moving down is a permutation that swaps `index` and `index+1` when `0 <= index < len-1` |
| `CreatorFiles.MoveUpThenDown` | m4b_creator.py:111-121 | moving down undoes moving up, and moving up undoes moving down |
| `CreatorFiles.MoveUpIsMoveDown` | m4b_creator.py:111-121 | moving `index` up is moving `index-1` down |
| `ConcatList.ConcatLines` | electron/main.js:264-266 | one `file '<path>'` line per file, in order |
| `ConcatList.SlashedPaths` | electron/main.js:265 | each path with its backslashes turned into slashes, in order |
| `ConcatList.WritePythonConcat` | m4b_creator.py:146-149 | the text written is the newline-terminated concat list |
| `ConcatList.ParseConcatLine` | electron/main.js:265-266 | the reader of one line recovers the slash-normalised path |
| `ConcatList.ElectronConcatRoundTrip` | electron/main.js:264-269 | the reader recovers the files' slash-normalised paths, in order |
| `ConcatList.ElectronConcatLineCount` | electron/main.js:264-267 | the list has one line per file |
| `ConcatList.PythonIsElectronPlusNewline` | m4b_creator.py:146-149 | the Python list is the Electron list with a final newline |
| `ConcatList.PythonConcatRoundTrip` | m4b_creator.py:146-149 | the reader recovers the files' slash-normalised paths, in order |
| `ConcatList.SafePathWellEscaped` | electron/main.js:265 | an escaped path has every quote inside a `'\''` group |
| `FfMetadata.AllChapterLines` | electron/main.js:325-329 | six lines per chapter |
| `FfMetadata.RenderIsText` | electron/main.js:307-332 | the document is its header and tags, followed by one block per chapter |
| `FfMetadata.RenderAppendChapter` | electron/main.js:321-332 | one more chapter appends exactly its block |
| `FfMetadata.ChapterBlockText` | electron/main.js:325-329 | a chapter's lines render as its block |
| `FfMetadata.AppendChapterBlock` | m4b_creator.py:207-211 | the content gains exactly one chapter's block |
| `FfMetadata.ReadTagLine` | electron/main.js:310 | `key=value` reads back as that tag when the key holds no '=' and neither holds a backslash |
| `FfMetadata.ReadChapterLines` | electron/main.js:320-332 | the chapter blocks read back as the chapters when no title holds a backslash |
| `FfMetadata.ReadRender` | electron/main.js:307-334 | a document whose keys, values and titles hold no newline and no backslash, and whose keys hold no '=', reads back as itself |
| `FfMetadata.SplitLinesPlain` | electron/main.js:334 | text without backslashes is read as its newline-separated lines |
| `FfMetadata.PlainKeyTag` | electron/main.js:310 | as written, a tag line reads back with its key and its value unescaped |
| `FfMetadata.BackslashDropped` | electron/main.js:310 | as written, the title `AC\DC` reads back as `ACDC` |
| `FfMetadata.EscapedNewlineJoins` | m4b_creator.py:202 | as written, a value ending in a backslash joins the next line onto its own |
| `FfMetadata.UnescapeEscaped` | m4b_creator.py:202 | unescaping undoes the escaping of `=`, `;`, `#`, backslash and newline |
| `FfMetadata.EscapedTagReadsBack` | electron/main.js:310 | with escaping, any key and value read back as written |
| `FfMetadata.EscapedTagOneLine` | m4b_creator.py:202 | with escaping, a tag line stays one line whatever its value holds |
| `FfMetadata.SplitRender` | electron/main.js:307-332 | the rendered text is its lines, each ended by a newline |
| `FfMetadata.ChapterMarkerCount` | electron/main.js:325 | the chapter lines hold one `[CHAPTER]` per chapter |
| `FfMetadata.MarkerCountIsChapterCount` | electron/main.js:325 | the document holds exactly one `[CHAPTER]` line per chapter |
| `ElectronMetadata.YearOnly` | electron/main.js:313-316 | the text before the first '-', which is the whole text when it has none |
| `ElectronMetadata.YearOnlyOfDate` | electron/main.js:314 | `2011-05-03` gives its year |
| `ElectronMetadata.AppendTagIf` | electron/main.js:310-312 | the content gains `key=value` exactly when the value is non-empty |
| `ElectronMetadata.AppendDate` | electron/main.js:313-316 | the content gains `date=<year only>` exactly when the year is non-empty |
| `ElectronMetadata.WriteGlobals` | electron/main.js:307-317 | the header followed by the non-empty tags title, artist, album, date, genre in that order |
| `ElectronMetadata.ChapterAtCursor` | electron/main.js:321-331 | the chapter written at `i` is the `i`-th of `ElectronChapters`, and the running time advances by its duration |
| `ElectronMetadata.WriteChapter` | electron/main.js:322-331 | one loop turn appends the `i`-th chapter's block and advances the running time |
| `ElectronMetadata.AppendChapters` | electron/main.js:320-332 | the loop appends every chapter's block in order |
| `ElectronMetadata.BuildMetadata` | electron/main.js:307-332 | the content is the rendered document of the book's tags and the files' chapters |
| `ElectronMetadata.TagIfValue` | electron/main.js:310 | a conditional tag holds the value exactly when it is non-empty |
| `ElectronMetadata.ElectronTagValues` | electron/main.js:310-317 | the written document holds each of the five tags as its field, or as the year only, exactly when it is non-empty, and no other key |
| `ElectronMetadata.ElectronMetadataWellFormed` | electron/main.js:307-332 | fields without newlines and backslashes make a well-formed document |
| `ElectronMetadata.ElectronMetadataReadsBack` | electron/main.js:307-334 | the written document reads back as itself, with one `[CHAPTER]` per file, when no field holds a newline or a backslash |
| `Chapters.ElectronChapters` | electron/main.js:320-332 | one chapter per file |
| `Chapters.PythonChapters` | m4b_creator.py:204-212 | one chapter per file |
| `Chapters.ElectronChaptersContiguous` | electron/main.js:327-328 | the first chapter starts at 0, each ends where the next starts, and the last ends at the floor of the total in ms |
| `Chapters.PythonChaptersContiguous` | m4b_creator.py:209-210 | the same, with `int()` truncation of the total |
| `Chapters.CumMonotone` | electron/main.js:331 | with non-negative durations, the running time never decreases |
| `Chapters.FloorMillisMonotone` | electron/main.js:327-328 | with non-negative durations, the millisecond boundaries never decrease |
| `Chapters.ElectronChaptersOrdered` | electron/main.js:320-332 | with non-negative durations, each chapter has start ≤ end, and later chapters start and end no earlier |
| `Chapters.BoundariesAgree` | m4b_creator.py:209-210 | with non-negative durations, the Python and Electron boundaries are equal |
| `Chapters.ChapterTitles` | electron/main.js:323 | Python titles are `Chapter k`; Electron titles are `chapterName`, else `Chapter k` |
| `Chapters.ThreeFileExample` | electron/main.js:320-332 | durations 600, 725.5 and 400.25 s give the boundaries 0, 600000, 1325500 and 1725750 |
| `Chapters.NegativeDurationDisagreement` | m4b_creator.py:209-210 | a duration of -0.0005 s ends at -1 in Electron (floor) but at 0 in Python (truncation) |
| `FfmpegCommand.CoverCopyValues` | m4b_creator.py:230-238 | with a cover and copied audio: maps `0:a` and `2:v`, metadata from input 1, `-c:a copy -c:v copy`, attached picture |
| `FfmpegCommand.CoverEncodeValues` | m4b_creator.py:239-243 | with a cover and re-encoded audio: `-c:a aac -b:a 128k -c:v copy`, attached picture |
| `FfmpegCommand.PlainCopyValues` | m4b_creator.py:244-248 | without a cover and with copied audio: no mapping, `-c copy` |
| `FfmpegCommand.PlainEncodeValues` | m4b_creator.py:244-250 | without a cover and with re-encoded audio: `-c:a aac -b:a 128k` |
| `FfmpegCommand.MappingValues` | electron/main.js:341-359 | the options of the mapping part agree with the independent table |
| `FfmpegCommand.FixedValues` | m4b_creator.py:221-264 | the fixed options: formats concat and mp4, `-safe 0`, media_type=2 and track=1, brand `M4A `, `+faststart` |
| `FfmpegCommand.CommandValues` | electron/main.js:339-362 | for every option, the values the command carries are those of the independent option table |
| `FfmpegCommand.CommandInputs` | electron/main.js:339-342 | the inputs are the concat list, the metadata file and, when present, the cover, in that order |
| `FfmpegCommand.CoverStreams` | electron/main.js:341-352 | streams are mapped and the picture attached exactly when there is a cover; metadata always comes from input 1 |
| `FfmpegCommand.AudioCodec` | electron/main.js:344-358 | aac at 128k when re-encoding; stream copy otherwise |
| `FfmpegCommand.StreamCopy` | electron/main.js:344-358 | video is copied exactly with a cover, and `-c copy` appears exactly without a cover when copying |
| `FfmpegCommand.CommandCopies` | m4b_creator.py:236-250 | the command copies audio exactly when `copy_audio` is set |
| `FfmpegCommand.ContainerOptions` | electron/main.js:361-362 | the Plex options, the mp4 container, and `-y <output>` at the end |
| `FfmpegCommand.ArgumentsTokens` | m4b_creator.py:221-264 | the argument vector token by token |
| `FfmpegCommand.DecodeArguments` | electron/main.js:339-362 | decoding the command gives back the inputs, the cover, the copy flag and the output |
| `FfmpegCommand.BuildArguments` | m4b_creator.py:221-264 | the list built by the `extend` calls is the argument vector |
| `ShellCommand.QuotedToken` | electron/main.js:339 | inside double quotes an argument runs to the closing quote, spaces included |
| `ShellCommand.TokensLine` | electron/main.js:339-362 | a line of well-formed words, bare words without spaces or quotes and quoted words without quotes, splits back into the words' texts |
| `ShellCommand.CommandOptionsOk` | electron/main.js:339-362 | every option word the handler writes is well formed when no input path holds a double quote |
| `ShellCommand.CommandLineArguments` | electron/main.js:339-367 | when no path holds a double quote, the handler's command line splits into exactly `FfmpegCommand.Arguments`, the vector the Python tool passes |
| `ShellCommand.QuoteInPathSplits` | electron/main.js:339 | a path holding `" "` is split into two arguments, so the double-quote condition is needed |
| `Workspace.DirName` | m4b_creator.py:137 | the parent: the prefix before the last separator |
| `Workspace.LastDot` | electron/main.js:283 | the position of the last '.', for `extname` |
| `Workspace.TempFilesDistinct` | electron/main.js:249-251 | distinct names give distinct temporary files |
| `Workspace.TempFilesApart` | electron/main.js:249-283 | the concat list, the metadata file and the cover never share a path |
| `Workspace.Unlinked` | electron/main.js:371-373 | unlinking removes exactly that path |
| `Workspace.Cleanup` | electron/main.js:369-376 | the disk loses the concat list, the metadata file and the cover, if present |
| `Workspace.CleanedFrame` | m4b_creator.py:274-280 | cleanup removes exactly those three paths and keeps every other file as it was |
| `ElectronCreate.WordRun` | electron/main.js:279 | the longest prefix of `\w` characters |
| `ElectronCreate.StripDataUrl` | electron/main.js:279 | the result is the input or a proper suffix of it |
| `ElectronCreate.StripDataUrlPayload` | electron/main.js:279 | `data:image/<kind>;base64,<payload>` gives the payload |
| `ElectronCreate.FirstPicture` | electron/main.js:289-301 | the first file probed with a cover from which a picture can be extracted |
| `ElectronCreate.ExtractCover` | electron/main.js:288-301 | `cover.png` is named whenever some file was probed with a cover; its picture is written only if an extraction succeeds |
| `ElectronCreate.ResolveCover` | electron/main.js:273-302 | the cover file and disk after are those of `CoverStep`: a decoded data URL, a copied file, nothing, or extraction |
| `ElectronCreate.Stage` | electron/main.js:264-334 | the disk holds the concat list, the cover and the metadata file, as `Staged` |
| `ElectronCreate.CreateM4b` | electron/main.js:247-387 | the outcome and the disk after are those of `ElectronRun` |
| `ElectronCreate.CoverStepKeeps` | electron/main.js:273-302 | the cover step writes only its target |
| `ElectronCreate.CoverTargetIn` | electron/main.js:273-302 | the cover file named is `cover.png` or `cover<ext>` in the output directory |
| `ElectronCreate.ListSurvivesCover` | electron/main.js:264-302 | the cover step leaves the concat list already written untouched |
| `ElectronCreate.StagedInputs` | electron/main.js:269-334 | the concat list and the metadata file hold exactly what was built |
| `ElectronCreate.StagedInputsReadBack` | electron/main.js:264-334 | `ffmpeg` reads back the files' paths in order, and the tags and one chapter per file, when no path holds a newline and no field a newline or a backslash |
| `ElectronCreate.StagedKeeps` | electron/main.js:264-334 | staging changes nothing but the three temporary files |
| `ElectronCreate.SuccessfulRun` | electron/main.js:367-380 | success: the output holds the command's audiobook, the temporary files are gone, and no other file changes |
| `ElectronCreate.CustomCover` | electron/main.js:274-286 | a data URL is always embedded, decoded; an existing file is embedded as a copy; a missing path gives no cover |
| `ElectronCreate.ExtractedCover` | electron/main.js:287-302 | without a chosen cover, the first extractable picture is embedded; otherwise a stale `cover.png` is embedded if one exists |
| `CreatorRun.WrittenValue` | m4b_creator.py:199-201 | a date holding 'T' is cut before the first '-' |
| `CreatorRun.Tracks` | m4b_creator.py:146-212 | the path, duration and cover flag of each `AudioFile`, in order, as the run reads them |
| `CreatorRun.WriteItem` | m4b_creator.py:197-202 | one loop turn writes the item's line when its value is non-empty |
| `CreatorRun.WritePythonGlobals` | m4b_creator.py:194-202 | the header and one line per non-empty item, in dict order |
| `CreatorRun.PythonChapterAtCursor` | m4b_creator.py:205-212 | the chapter written at `index` is the `index-1`-th of `PythonChapters` |
| `CreatorRun.WritePythonChapter` | m4b_creator.py:206-212 | one loop turn appends that chapter's block and advances the running time |
| `CreatorRun.WriteBlock` | m4b_creator.py:207-211 | the five writes append exactly the chapter's block |
| `CreatorRun.WritePythonChapters` | m4b_creator.py:204-212 | the loop appends every chapter block in order |
| `CreatorRun.WritePythonMetadata` | m4b_creator.py:192-212 | the content is the rendered document of the dict and the tracks |
| `CreatorRun.ItemTagValue` | m4b_creator.py:197-202 | one item writes its key exactly when its value is non-empty |
| `CreatorRun.PythonTagValues` | m4b_creator.py:197-202 | the written document holds each key as its dict value, with the date rule, exactly when that value is non-empty |
| `CreatorRun.PythonMetadataReadsBack` | m4b_creator.py:192-212 | the written document reads back as itself, with one `[CHAPTER]` per file, when no key or value holds a newline or a backslash and no key an '=' |
| `CreatorRun.DateRules` | m4b_creator.py:200-201 | the Python date equals the Electron year exactly when the value holds a 'T' or no '-' |
| `CreatorRun.DateRuleExample` | m4b_creator.py:200-201 | `2011-05-03` stays whole in Python but becomes `2011` in Electron |
| `CreatorRun.FirstWithCover` | m4b_creator.py:170-171 | the first file probed with a cover |
| `CreatorRun.PythonResolveCover` | m4b_creator.py:154-186 | the cover file and the disk after are those of `PythonCoverStep` |
| `CreatorRun.PythonStage` | m4b_creator.py:145-212 | the disk holds the concat list, the cover and the metadata file, as `PythonStaged` |
| `CreatorRun.CreateM4b` | m4b_creator.py:130-290 | the result and the disk after are those of `PythonRun` |
| `CreatorRun.PythonStagedKeeps` | m4b_creator.py:145-212 | staging changes nothing but the three temporary files |
| `CreatorRun.PythonCoverStepKeeps` | m4b_creator.py:154-186 | the cover step writes nothing but `cover.png` in the output directory |
| `CreatorRun.PythonStagedInputs` | m4b_creator.py:146-212 | the concat list and the metadata file hold exactly what was built |
| `CreatorRun.PythonStagedInputsReadBack` | m4b_creator.py:146-212 | `ffmpeg` reads back the paths in order, and the tags and one chapter per file, under the same conditions |
| `CreatorRun.PythonRunResult` | m4b_creator.py:132-290 | True exactly when there are files, writing works and `ffmpeg` succeeds; with no files or a failed write the disk is unchanged |
| `CreatorRun.PythonSuccessfulRun` | m4b_creator.py:269-285 | success: the output holds the command's audiobook, the temporary files are gone, and no other file changes |
| `CreatorRun.PythonCoverChoice` | m4b_creator.py:154-186 | a custom artwork or the first file probed with a cover is converted; if that fails, only a stale `cover.png` is embedded |
| `CreatorRun.FallbackOrder` | m4b_creator.py:170-186 | Python stops at the first file probed with a cover, while Electron goes on to a later file |
| `CreatorRun.CoverFallbackDiffers` | m4b_creator.py:168-186 | when the first cover fails to extract, Python embeds none while Electron embeds a later file's |
| `CreatorRun.EmptyFolderDiffers` | m4b_creator.py:133-134 | a folder without files: Python returns false and writes nothing; Electron, once it can write, stages an empty concat list and reports the transcoder's outcome |
| `CreatorBatch.Trimmed` | m4b_creator.py:362 | each entry's text stripped with Python's whitespace |
| `CreatorBatch.KeptDistinct` | m4b_creator.py:360-364 | the dialog's dict never repeats a key |
| `CreatorBatch.KeptAbsent` | m4b_creator.py:360-364 | a key not among the fields is not in the dialog's dict |
| `CreatorBatch.KeptGet` | m4b_creator.py:361-364 | a field is in the dict exactly when its stripped text is non-empty, and then holds that text |
| `CreatorBatch.BatchFieldsDistinct` | m4b_creator.py:327-331 | the dialog's fields are artist, date and genre, never title or album |
| `CreatorBatch.BatchMetadataDialog.constructor` | m4b_creator.py:296-298 | an empty dict, and no result |
| `CreatorBatch.BatchMetadataDialog.Apply` | m4b_creator.py:358-370 | the dict keeps the non-empty stripped fields in order; the result is set exactly when something was kept |
| `CreatorBatch.Collect` | m4b_creator.py:360-364 | the loop builds the dict of non-empty values |
| `CreatorBatch.AssignAll` | m4b_creator.py:1037-1038 | the folder's metadata gains every pair of the batch |
| `CreatorBatch.ApplyBatchMetadata` | m4b_creator.py:1025-1041 | with folders and an applied, non-empty dialog, every folder gets the dialog's pairs and the count is the number of folders; otherwise nothing changes |
| `CreatorBatch.BatchOverwrites` | m4b_creator.py:1034-1039 | each filled field overwrites its key; title, album and all other keys are kept; the key order is extended |
| `CreatorBatch.SaveFolderMetadata` | m4b_creator.py:1006-1021 | only the selected folder gets the five field texts and the stripped output name, or its folder name when that is blank |
| `CreatorBatch.SavedValues` | m4b_creator.py:1014-1015 | each detail field reads its text and other keys are kept |
| `CreatorBatch.RunFolder` | m4b_creator.py:1089-1119 | one folder: skipped when empty, otherwise counted as success or failure as the run reports |
| `CreatorBatch.RunFolders` | m4b_creator.py:1088-1121 | the loop's counts and disk are those of `BatchRun` over the folders in order |
| `CreatorBatch.Jobs` | m4b_creator.py:1088-1109 | one run per folder, in list order, from that folder's files, metadata, artwork and names |
| `CreatorBatch.WithFiles` | m4b_creator.py:1093-1096 | at most the number of folders |
| `CreatorBatch.Succeeding` | m4b_creator.py:1109-1113 | at most the number of folders with files |
| `CreatorBatch.RunBatch` | m4b_creator.py:1062-1121 | nothing happens without folders; otherwise the folders run with the stripped output directory |
| `CreatorBatch.BatchCounts` | m4b_creator.py:1088-1127 | successful + failed equals the folders with files, and successful counts those whose run succeeds |
| `CreatorBatch.EmptyFoldersSkipped` | m4b_creator.py:1093-1096 | folders without files count as neither and leave the disk alone |
| `CreatorBatch.OutputPlacement` | m4b_creator.py:1101-1104 | the output is `<output name>.m4b` in the output directory, or in the folder when none is given |
| `Editor.FileName` | src/App.tsx:167 | a suffix of the path |
| `Editor.FolderName` | src/App.tsx:185 | the last component, or `Unknown` when it is empty; never empty |
| `Editor.FileNameOfJoin` | src/App.tsx:167 | the file name of `dir\name` is `name` |
| `Editor.FileNameWithoutBackslash` | src/App.tsx:167 | a path without backslashes is its own file name |
| `Editor.NewChapterTitle` | src/App.tsx:169-178 | a new file's chapter is titled by its title tag, else its file name, and `chapterName` is never empty |
| `Editor.InitialMetadataFields` | src/App.tsx:216-222 | the title is the album tag, else the title tag, else the folder name; the others are tags or '' |
| `Editor.ProbeFiles` | src/App.tsx:164-180 | one entry per audio file, in order, built from its probe |
| `Editor.RemovedShifts` | src/App.tsx:383 | `splice(i, 1)`: one shorter, earlier items kept, later items shifted down, and the multiset loses only `s[i]` |
| `Editor.InsertRemoved` | src/App.tsx:366-368 | taking an item out and putting it back at the same place changes nothing |
| `Editor.RemoveInserted` | src/App.tsx:367-368 | an inserted item sits at its index, and removing it restores the list |
| `Editor.MovedFacts` | src/App.tsx:365-369 | a move is a permutation that puts the dragged item at `index` |
| `Editor.MoveBack` | src/App.tsx:360-372 | dragging back undoes a move |
| `Editor.SpliceOut` | src/App.tsx:367 | the copy loop yields `Removed` |
| `Editor.SpliceIn` | src/App.tsx:368 | the copy loop yields `Inserted` |
| `Editor.RenamedFacts` | src/App.tsx:346-349 | only `customName` of the row at `index` changes, to the trimmed text; a blank text changes nothing |
| `Editor.RenameNotWritten` | src/App.tsx:345-354 | as written, a renamed chapter keeps its written and displayed title when it has a `chapterName` |
| `Editor.RenameNotWrittenExample` | src/App.tsx:348 | `x.mp3` without a title tag, renamed ` Intro `, is still written as `x.mp3` |
| `Editor.RenamedAsIntendedWritten` | src/App.tsx:345-354 | the corrected rename is written and shown under the trimmed name, and no other chapter changes |
| `Editor.Replaced` | src/App.tsx:336 | `map(f => f.id === updated.id ? updated : f)` keeps the length |
| `Editor.ReplacedFacts` | src/App.tsx:336 | ids are kept, only folders with the updated id change, and replacing twice is replacing once |
| `Editor.WithoutId` | src/App.tsx:239 | only folders of the list with another id remain |
| `Editor.WithoutIdKeeps` | src/App.tsx:239 | every folder with another id remains, and an absent id changes nothing |
| `Editor.AddThenRemove` | src/App.tsx:226-239 | removing a just-added folder restores the list |
| `Editor.ReplaceThenRemove` | src/App.tsx:239 | removing after an update is removing before it |
| `Editor.Find` | src/App.tsx:235 | a found folder is in the list and has the id; nothing is found exactly when the id is absent |
| `Editor.DefaultOutputPath` | src/App.tsx:286 | without an output path, the book goes to `<path>\<name>.m4b` |
| `Editor.PercentFacts` | src/App.tsx:280 | `Math.round(i/n*100)` starts at 0, reaches 100 at `n`, and never decreases |
| `Editor.ProgressMonotone` | src/App.tsx:267-311 | every progress value lies in 0..100, the values never decrease, and the last is 100 |
| `Editor.StartCounts` | src/App.tsx:275-309 | successes plus failures equal the number of folders, and the successes are the folders whose run succeeds |
| `Editor.StartTurn` | src/App.tsx:279-308 | one folder goes to `create-m4b` with its output path and `copyAudio: true`, and is counted |
| `Editor.StartLoop` | src/App.tsx:278-309 | the loop's counts and disk are those of `StartRun`, and the progress before folder `k` is `Percent(k, n)` |
| `Editor.App.constructor` | src/App.tsx:45-54 | the initial state: no folders, nothing selected, dragged or edited, progress 0, not loading |
| `Editor.App.AddFolder` | src/App.tsx:140-231 | nothing is added without a folder or files; otherwise one folder goes at the end, with one chapter per file and tags from the first |
| `Editor.App.UpdateFolder` | src/App.tsx:332-338 | the selection and its copy in the list are merged with the update; without a selection nothing changes |
| `Editor.App.RemoveFolder` | src/App.tsx:233-247 | the folder with the id, or the selected one, leaves the list; the selection is cleared if it was that folder |
| `Editor.App.ChapterDragOver` | src/App.tsx:360-372 | nothing happens with no drag or over the dragged row; otherwise the dragged chapter moves to `index` and becomes the dragged one |
| `Editor.App.DeleteChapter` | src/App.tsx:379-387 | the chapter at `index` leaves the selected folder |
| `Editor.App.DragStart` | src/App.tsx:356-358 | the chapter at `index` is being dragged |
| `Editor.App.DragEnd` | src/App.tsx:374-377 | no chapter is being dragged |
| `Editor.App.StartEditChapter` | src/App.tsx:340-343 | the edit box opens on the custom name, else the file name |
| `Editor.App.SaveChapterName` | src/App.tsx:345-354 | a non-blank edit renames the chapter as `Renamed`; the edit box is always closed and emptied |
| `Editor.App.Start` | src/App.tsx:260-316 | nothing happens without folders; otherwise progress runs from 0 to 100 without decreasing, loading ends, and the counts and disk are those of `StartRun` |

## Left out

- `CreatorRun.CreateM4b`: the cleanup `unlink` calls (m4b_creator.py:274-280) are inside the outer `try`. If one fails, the source returns False after a finished transcode (287-290). The model always returns true once the transcode succeeds, because the disk has no failing-unlink state.
- `ElectronCreate.CreateM4b`: the handler runs one command line through the shell (electron/main.js:339-367); the model hands the transcoder `FfmpegCommand.Arguments`, which `ShellCommand.CommandLineArguments` proves to be what the line splits into when no path holds a double quote. Expansion by the shell is not modelled: `%NAME%` for a defined variable is expanded by `cmd.exe` even inside double quotes, `/bin/sh` expands `$` and backquotes there and drops a backslash before `$`, a backquote, a double quote or another backslash, and the Windows C runtime reads backslashes that end a quoted path as escaping its closing quote. A path affected by any of these, or holding a double quote, reaches `ffmpeg` differently.
- `ElectronCreate.CreateM4b`: the single `Tools.canWrite` flag only expresses a failure before the first write. A later failure is not modelled: the data-URL write, `copyFileSync` or the metadata write failing after `concat_list.txt` exists. That case leaves some temporary files behind and returns `success: false` (electron/main.js:264-317, 379-386).
- `Workspace.Cleanup`: deletion errors in the Electron cleanup are swallowed (electron/main.js:370-376). A file that cannot be removed stays behind while the result remains `success: true`. The model's deletions always succeed.
- Durations are exact reals, not IEEE doubles. `Math.floor(t * 1000)` and `int(t * 1000)` are floor and truncation of an exact product. Rounding in the floating-point sum of durations is not modelled.
- `Editor.PercentFacts`: `Math.round(i / n * 100)` is computed exactly as `(200·i + n) div 2n`. A floating-point quotient that lands just below a .5 boundary is not modelled.
- Paths use a single separator. `FileTree.JoinPath`, `Workspace.DirName`, `ElectronScan.BaseName` and `CreatorFiles.FolderName` use only '\\' and do no normalisation. `Editor.FileName` also falls back to '/', as the editor does. The model therefore does not capture:
  - POSIX separators;
  - a directory that already ends in a separator;
  - the `./` prefix that Node's `path.join` drops;
  - `os.walk`'s own joining.
- The `get-file-metadata` probe is the parameter `ProbeOutcome`. JSON parsing and `parseFloat`/`float` of the duration text are not modelled.
- `Editor.App.AddFolder`:
  - the cover loading through `extract-cover`, `read-file-as-base64` and `delete-file` (src/App.tsx:187-209) is not modelled; its result is the parameter `coverArt`;
  - `Date.now()` is the parameter `id`;
  - the folder dialog's answer is the parameter `folderPath`.
- `Editor.App.ChapterDragOver`, `Editor.App.DeleteChapter` and `Editor.App.SaveChapterName` require the row indices to be within the chapter list. The handlers are only called from rendered rows. `splice` past the end is not modelled.
- `Editor.App.Start`:
  - a `createM4B` call that throws (src/App.tsx:304-308) is folded into the failed outcome;
  - the log listener and log messages are not modelled.
- `ElectronCreate.ExtractCover`: the `ffmpeg` extraction commands are represented by the set of paths whose picture can be extracted (`Tools.picturesIn`). The same holds for the Python conversion `subprocess.run`.
- `CreatorFiles.FolderData.LoadFiles`: it requires the file list to be empty. Its only caller is `__init__` (m4b_creator.py:77), which calls it on an empty list. A second call that appends to files already loaded is not modelled.
- `Editor.App.SaveChapterName`: it models the handler as written, so it sets only `customName`. The rename the handler evidently intends is `Editor.RenamedAsIntended`, described under Findings. The handler itself is not replaced, so that the editor's state stays as the source leaves it.
- The dialog handlers `select-folder`, `select-cover-image` and `select-cover-save-path` (electron/main.js:55-100) only return the user's choice. Here that choice is a parameter.
- `read-file-as-base64`, `delete-file` and `extract-cover` (electron/main.js:102-124, 235-245) are only used by the editor's cover preview, which is left out with `handleAddFolder`'s cover loading.
- The drop handlers are not part of this model, because they only turn dropped paths into folders as the Add button does:
  - `process-dropped-path` and `is-directory` (electron/main.js:126-162);
  - `handleDrop` (src/App.tsx:389-);
  - `on_drop`/`on_drop_windnd` (m4b_creator.py:605-664).
- The following handlers are also not part of this model:
  - `handleClearList`, which empties the list after an animation;
  - the tab switches, language, dark mode and all rendering;
  - `src/MetadataTab.tsx`, whose edits reach the core through `handleUpdateFolder`;
  - the Tkinter widget code;
  - the artwork buttons (m4b_creator.py:871-1004).
- `Text.Trim`: the whitespace sets are those of Python's `str.isspace` and of ECMAScript's WhiteSpace and LineTerminator productions. They are fixed tables; a Unicode version that adds a space character is not modelled.
- `FfMetadata.Read` models `ffmpeg`'s FFMETADATA reader for the layout both writers emit: escape-aware lines, tags split at the first unescaped '=', unescaped keys, values and titles. Comment lines starting with ';' or '#', the skipping of empty lines, sections other than `[CHAPTER]` and `TIMEBASE` values other than `1/1000` are not modelled; the model reads the tags up to the first empty line. A key starting with ';' or '#' is therefore not excluded by `CreatorRun.DictWritable`, although `ffmpeg` would skip its line.
- `ElectronMetadata.ElectronMetadataReadsBack`: it requires fields without backslashes, because both writers write them unescaped and `ffmpeg` reads a backslash as an escape. What is read otherwise is stated by `FfMetadata.PlainKeyTag` and `FfMetadata.EscapedNewlineJoins` (see Findings).
- `CreatorRun.PythonMetadataReadsBack`: it requires fields without backslashes, because both writers write them unescaped and `ffmpeg` reads a backslash as an escape. What is read otherwise is stated by `FfMetadata.PlainKeyTag` and `FfMetadata.EscapedNewlineJoins` (see Findings).
- `ElectronCreate.StagedInputsReadBack`: it requires fields without backslashes, because both writers write them unescaped and `ffmpeg` reads a backslash as an escape. What is read otherwise is stated by `FfMetadata.PlainKeyTag` and `FfMetadata.EscapedNewlineJoins` (see Findings).
- `CreatorRun.PythonStagedInputsReadBack`: it requires fields without backslashes, because both writers write them unescaped and `ffmpeg` reads a backslash as an escape. What is read otherwise is stated by `FfMetadata.PlainKeyTag` and `FfMetadata.EscapedNewlineJoins` (see Findings).
- `ElectronMetadata.ElectronMetadataWellFormed`: it requires fields without backslashes, because both writers write them unescaped and `ffmpeg` reads a backslash as an escape. What is read otherwise is stated by `FfMetadata.PlainKeyTag` and `FfMetadata.EscapedNewlineJoins` (see Findings).
- `FfMetadata.ReadTagLine`: it requires fields without backslashes, because both writers write them unescaped and `ffmpeg` reads a backslash as an escape. What is read otherwise is stated by `FfMetadata.PlainKeyTag` and `FfMetadata.EscapedNewlineJoins` (see Findings).
- `FfMetadata.ReadChapterLines`: it requires fields without backslashes, because both writers write them unescaped and `ffmpeg` reads a backslash as an escape. What is read otherwise is stated by `FfMetadata.PlainKeyTag` and `FfMetadata.EscapedNewlineJoins` (see Findings).
- `FfMetadata.ReadRender`: it requires fields without backslashes, because both writers write them unescaped and `ffmpeg` reads a backslash as an escape. What is read otherwise is stated by `FfMetadata.PlainKeyTag` and `FfMetadata.EscapedNewlineJoins` (see Findings).
- `CreatorFiles.LoadMatchesElectronScan`: the two loaders always yield the same paths, but the same order is promised only when every path lies in the Basic Multilingual Plane. Above U+FFFF, `sorted()` and `sort()` disagree (`PathOrder.CollationsDisagree`).
- The writers themselves are modelled as written: neither escapes a backslash, newline, `=`, `;` or `#` in what it writes.
- Logging and progress callbacks, threads (`threading.Thread`) and `async`/`await` ordering are not modelled. Each folder's run is modelled as one atomic step.

## Findings

| source | as written | input that shows it | evidently intended | confidence | as-written member | corrected member |
|---|---|---|---|---|---|---|
| electron/main.js:310-330 | tag values and chapter titles are written with no escaping, while `ffmpeg` reads a backslash as an escape | an album `AC\DC`, which reads back as `ACDC`; a title ending in `\`, which swallows the newline and joins the next line | each written tag and title reads back as itself, which the escaping of `ffmpeg`'s own writer gives | high, not executed | `FfMetadata.BackslashDropped` | `FfMetadata.EscapedTagReadsBack` |
| m4b_creator.py:197-211 | the Python writer likewise writes keys and values with no escaping | a genre `Rock\`, whose line joins the first chapter's empty line | each written tag reads back as itself | high, not executed | `FfMetadata.EscapedNewlineJoins` | `FfMetadata.EscapedTagOneLine` |
| src/App.tsx:345-354 | renaming a chapter sets only `customName`, but the back end titles chapters by `chapterName` (electron/main.js:323) and the list shows `chapterName` first (src/App.tsx:798) | a file `x.mp3` without a title tag, renamed ` Intro ` | the renamed chapter is written and shown as `Intro` | medium, not executed | `Editor.RenameNotWrittenExample` | `Editor.RenamedAsIntendedWritten` |

=== FILE: chapters.dfy ===
/**
 * Chapter boundaries. Both writers keep a running sum of the durations
 * before the current file and write, per file, the sum so far and the sum
 * after it, scaled to milliseconds: the Electron back end rounds down
 * (`Math.floor`), the Python tool truncates toward zero (`int()`).
 * Durations are exact reals here.
 */
module Chapters {
  import opened Text
  import opened FfMetadata
  import opened Job

  /** The total duration of the first `i` files. */
  function Cum(ds: seq<real>, i: nat): real
    requires i <= |ds|
  {
    if i == 0 then 0.0 else Cum(ds, i - 1) + ds[i - 1]
  }

  /** `Math.floor(t * 1000)`. */
  function FloorMillis(t: real): int {
    (t * 1000.0).Floor
  }

  /** `int(x)`: truncation toward zero. */
  function Trunc(x: real): int {
    if x >= 0.0 then x.Floor else -((-x).Floor)
  }

  /** `int(t * 1000)`. */
  function TruncMillis(t: real): int {
    Trunc(t * 1000.0)
  }

  /** The fallback title: `Chapter 1`, `Chapter 2`, ... */
  function ChapterLabel(k: nat): string {
    "Chapter " + NatToString(k)
  }

  /** Electron: `chapterName` when set, the numbered label otherwise; boundaries rounded down. */
  function ElectronChapters(files: seq<AudioItem>): (r: seq<Chapter>)
    ensures |r| == |files|
  {
    seq(|files|, i requires 0 <= i < |files| => ElectronChapter(files, i))
  }

  function ElectronChapter(files: seq<AudioItem>, i: nat): Chapter
    requires i < |files|
  {
    var ds := Durations(files);
    Chapter(FloorMillis(Cum(ds, i)), FloorMillis(Cum(ds, i + 1)),
        if files[i].chapterName != [] then files[i].chapterName else ChapterLabel(i + 1))
  }

  /** Python: always the numbered label; boundaries truncated. */
  function PythonChapters(ds: seq<real>): (r: seq<Chapter>)
    ensures |r| == |ds|
  {
    seq(|ds|, i requires 0 <= i < |ds| => PythonChapter(ds, i))
  }

  function PythonChapter(ds: seq<real>, i: nat): Chapter
    requires i < |ds|
  {
    Chapter(TruncMillis(Cum(ds, i)), TruncMillis(Cum(ds, i + 1)), ChapterLabel(i + 1))
  }

  /** Every chapter ends where the next one starts, and the first one starts at zero. */
  lemma ElectronChaptersContiguous(files: seq<AudioItem>)
    ensures var cs := ElectronChapters(files);
      (cs != [] ==> cs[0].start == 0) &&
      (forall i :: 0 <= i < |cs| - 1 ==> cs[i].end == cs[i + 1].start) &&
      (cs != [] ==> cs[|cs| - 1].end == FloorMillis(Cum(Durations(files), |files|)))
  {
  }

  lemma PythonChaptersContiguous(ds: seq<real>)
    ensures var cs := PythonChapters(ds);
      (cs != [] ==> cs[0].start == 0) &&
      (forall i :: 0 <= i < |cs| - 1 ==> cs[i].end == cs[i + 1].start) &&
      (cs != [] ==> cs[|cs| - 1].end == TruncMillis(Cum(ds, |ds|)))
  {
  }

  predicate NonNegative(ds: seq<real>) {
    forall i :: 0 <= i < |ds| ==> ds[i] >= 0.0
  }

  /** With no negative duration the running sum never decreases. */
  lemma {:induction false} CumMonotone(ds: seq<real>, i: nat, j: nat)
    requires NonNegative(ds) && i <= j <= |ds|
    ensures Cum(ds, i) <= Cum(ds, j)
    decreases j - i
  {
    if i < j {
      CumMonotone(ds, i, j - 1);
    }
  }

  lemma FloorMonotone(x: real, y: real)
    requires x <= y
    ensures x.Floor <= y.Floor
  {
  }

  /** The running sum scaled to milliseconds never decreases either. */
  lemma FloorMillisMonotone(ds: seq<real>, i: nat, j: nat)
    requires NonNegative(ds) && i <= j <= |ds|
    ensures FloorMillis(Cum(ds, i)) <= FloorMillis(Cum(ds, j))
  {
    CumMonotone(ds, i, j);
    FloorMonotone(Cum(ds, i) * 1000.0, Cum(ds, j) * 1000.0);
  }

  lemma CumNonNegative(ds: seq<real>, i: nat)
    requires NonNegative(ds) && i <= |ds|
    ensures Cum(ds, i) >= 0.0
  {
    CumMonotone(ds, 0, i);
  }

  /** With no negative duration, chapter boundaries never go backwards: starts and ends rise with the index. */
  lemma ElectronChaptersOrdered(files: seq<AudioItem>, i: nat, j: nat)
    requires NonNegative(Durations(files))
    requires i <= j < |files|
    ensures var cs := ElectronChapters(files);
      cs[i].start <= cs[i].end && cs[i].start <= cs[j].start && cs[i].end <= cs[j].end
  {
    var ds := Durations(files);
    var cs := ElectronChapters(files);
    assert cs[i].start == FloorMillis(Cum(ds, i)) && cs[i].end == FloorMillis(Cum(ds, i + 1));
    assert cs[j].start == FloorMillis(Cum(ds, j)) && cs[j].end == FloorMillis(Cum(ds, j + 1));
    FloorMillisMonotone(ds, i, i + 1);
    FloorMillisMonotone(ds, i, j);
    FloorMillisMonotone(ds, i + 1, j + 1);
  }

  /**
   * With no negative duration the two writers put every boundary at the same
   * millisecond: truncation and rounding down agree on non-negative values.
   * Only the titles can differ.
   */
  lemma BoundariesAgree(files: seq<AudioItem>, i: nat)
    requires NonNegative(Durations(files))
    requires i < |files|
    ensures var e := ElectronChapters(files);
      var p := PythonChapters(Durations(files));
      e[i].start == p[i].start && e[i].end == p[i].end
  {
    CumNonNegative(Durations(files), i);
    CumNonNegative(Durations(files), i + 1);
  }

  /** The titles: Python numbers every chapter; Electron does so only where `chapterName` is empty. */
  lemma ChapterTitles(files: seq<AudioItem>)
    ensures forall i :: 0 <= i < |files| ==> PythonChapters(Durations(files))[i].title == ChapterLabel(i + 1)
    ensures forall i :: 0 <= i < |files| ==>
      ElectronChapters(files)[i].title == (if files[i].chapterName != [] then files[i].chapterName else ChapterLabel(i + 1))
  {
  }

  /** Three files of 600, 725.5 and 400.25 seconds. */
  lemma ThreeFileExample(files: seq<AudioItem>)
    requires Durations(files) == [600.0, 725.5, 400.25]
    ensures var cs := ElectronChapters(files);
      cs[0].start == 0 && cs[0].end == 600000 &&
      cs[1].start == 600000 && cs[1].end == 1325500 &&
      cs[2].start == 1325500 && cs[2].end == 1725750
  {
    var ds := Durations(files);
    assert Cum(ds, 1) == 600.0;
    assert Cum(ds, 2) == 1325.5;
    assert Cum(ds, 3) == 1725.75;
  }

  /** A negative duration makes the writers disagree: -0.0005 s ends at -1 ms in Electron and at 0 ms in Python. */
  lemma NegativeDurationDisagreement(files: seq<AudioItem>)
    requires Durations(files) == [-0.0005]
    ensures ElectronChapters(files)[0].end == -1
    ensures PythonChapters(Durations(files))[0].end == 0
  {
    var ds := Durations(files);
    assert Cum(ds, 1) == -0.0005;
  }
}

=== FILE: concat_list.dfy ===
/**
 * The concatenation list handed to the transcoder's concat demuxer: one
 * `file '<path>'` line per input, in list order, with backslashes turned
 * into slashes and every quote written as `'\''`.
 *
 * The Electron back end joins the lines with newlines; the Python tool
 * writes every line followed by a newline. The reading functions state how
 * the demuxer takes such a list apart, so that the serialisers can be
 * checked against their inverse.
 */
module ConcatList {
  import opened Text

  /** The quoted body of one line: slashes normalised, then quotes escaped. */
  function SafePath(path: string): string {
    EscapeQuotes(Slashed(path))
  }

  const LinePrefix: string := "file '"

  function ConcatLine(path: string): string {
    LinePrefix + SafePath(path) + "'"
  }

  function ConcatLines(paths: seq<string>): (r: seq<string>)
    ensures |r| == |paths|
    ensures forall i :: 0 <= i < |paths| ==> r[i] == ConcatLine(paths[i])
  {
    seq(|paths|, i requires 0 <= i < |paths| => ConcatLine(paths[i]))
  }

  function SlashedPaths(paths: seq<string>): (r: seq<string>)
    ensures |r| == |paths|
    ensures forall i :: 0 <= i < |paths| ==> r[i] == Slashed(paths[i])
  {
    seq(|paths|, i requires 0 <= i < |paths| => Slashed(paths[i]))
  }

  /** The Electron list: the lines joined by newlines, with no newline after the last one. */
  function ElectronConcat(paths: seq<string>): string {
    Join(ConcatLines(paths), '\n')
  }

  /** The Python list: every line followed by a newline. */
  function PythonConcat(paths: seq<string>): string {
    if paths == [] then [] else ConcatLine(paths[0]) + "\n" + PythonConcat(paths[1..])
  }

  /** The Python writer: one `write` per audio file, in list order. */
  method WritePythonConcat(paths: seq<string>) returns (text: string)
    ensures text == PythonConcat(paths)
  {
    text := [];
    var i := 0;
    while i < |paths|
      invariant 0 <= i <= |paths|
      invariant text + PythonConcat(paths[i..]) == PythonConcat(paths)
    {
      assert paths[i..][1..] == paths[i + 1..];
      text := text + ConcatLine(paths[i]) + "\n";
      i := i + 1;
    }
    assert paths[i..] == [];
  }

  /** The demuxer's reading of one line: the quoted body, un-escaped. */
  function ParseLine(line: string): Option<string> {
    if |line| >= |LinePrefix| + 1 && line[..|LinePrefix|] == LinePrefix && line[|line| - 1] == '\'' then
      UnescapeQuotes(line[|LinePrefix|..|line| - 1])
    else None
  }

  /** The demuxer's reading of the lines of a list: blank lines are skipped. */
  function ParseLines(lines: seq<string>): Option<seq<string>> {
    if lines == [] then Some([])
    else if lines[0] == [] then ParseLines(lines[1..])
    else
      match (ParseLine(lines[0]), ParseLines(lines[1..]))
      case (Some(p), Some(rest)) => Some([p] + rest)
      case _ => None
  }

  /** The demuxer's reading of a whole list: one path per line; an empty list names no file. */
  function ParseConcat(text: string): Option<seq<string>> {
    if text == [] then Some([]) else ParseLines(Split(text, '\n'))
  }

  /** A line reads back as the slash-normalised path it was written for. */
  lemma ParseConcatLine(path: string)
    ensures ParseLine(ConcatLine(path)) == Some(Slashed(path))
  {
    var line := ConcatLine(path);
    assert line[..|LinePrefix|] == LinePrefix;
    assert line[|LinePrefix|..|line| - 1] == SafePath(path);
    UnescapeEscape(Slashed(path));
  }

  /** A path without a newline gives a line without a newline. */
  lemma {:induction false} EscapeKeepsNewlineFree(s: string)
    requires '\n' !in s
    ensures '\n' !in EscapeQuotes(s)
  {
    if s != [] {
      EscapeKeepsNewlineFree(s[1..]);
    }
  }

  lemma ConcatLineNewlineFree(path: string)
    requires '\n' !in path
    ensures '\n' !in ConcatLine(path)
  {
    assert '\n' !in Slashed(path);
    EscapeKeepsNewlineFree(Slashed(path));
  }

  lemma {:induction false} ParseLinesOfConcatLines(paths: seq<string>)
    ensures ParseLines(ConcatLines(paths)) == Some(SlashedPaths(paths))
  {
    if paths != [] {
      ParseLinesOfConcatLines(paths[1..]);
      ParseConcatLine(paths[0]);
      assert ConcatLines(paths)[1..] == ConcatLines(paths[1..]);
      assert SlashedPaths(paths) == [Slashed(paths[0])] + SlashedPaths(paths[1..]);
    }
  }

  /**
   * Round trip of the Electron list: as long as no path holds a newline,
   * the demuxer reads back exactly the slash-normalised paths, one per file
   * and in list order.
   */
  lemma ElectronConcatRoundTrip(paths: seq<string>)
    requires forall i :: 0 <= i < |paths| ==> '\n' !in paths[i]
    ensures ParseConcat(ElectronConcat(paths)) == Some(SlashedPaths(paths))
  {
    var lines := ConcatLines(paths);
    ParseLinesOfConcatLines(paths);
    if paths != [] {
      forall k | 0 <= k < |lines| ensures '\n' !in lines[k] {
        ConcatLineNewlineFree(paths[k]);
      }
      SplitJoin(lines, '\n');
      assert ElectronConcat(paths) != [] by {
        assert |lines| == 1 ==> ElectronConcat(paths) == lines[0];
        assert |lines| > 1 ==> ElectronConcat(paths) == lines[0] + ['\n'] + Join(lines[1..], '\n');
      }
    }
  }

  /** Both lists have one line per file: Electron's has exactly as many newline-separated lines as paths. */
  lemma ElectronConcatLineCount(paths: seq<string>)
    requires paths != []
    requires forall i :: 0 <= i < |paths| ==> '\n' !in paths[i]
    ensures |Split(ElectronConcat(paths), '\n')| == |paths|
  {
    forall k | 0 <= k < |paths| ensures '\n' !in ConcatLines(paths)[k] {
      ConcatLineNewlineFree(paths[k]);
    }
    SplitJoin(ConcatLines(paths), '\n');
  }

  /** The two writers differ by one trailing newline, and only on a non-empty list. */
  lemma {:induction false} PythonIsElectronPlusNewline(paths: seq<string>)
    ensures paths != [] ==> PythonConcat(paths) == ElectronConcat(paths) + "\n"
    ensures paths == [] ==> PythonConcat(paths) == ElectronConcat(paths) == []
  {
    if |paths| > 1 {
      PythonIsElectronPlusNewline(paths[1..]);
      assert ConcatLines(paths)[1..] == ConcatLines(paths[1..]);
    }
  }

  lemma {:induction false} JoinBlankTail(parts: seq<string>, c: char)
    requires |parts| >= 1
    ensures Join(parts + [""], c) == Join(parts, c) + [c]
  {
    var whole := parts + [""];
    assert whole[1..] == parts[1..] + [""];
    if |parts| > 1 {
      JoinBlankTail(parts[1..], c);
    } else {
      assert whole == [parts[0], ""];
    }
  }

  lemma {:induction false} ParseLinesBlankTail(lines: seq<string>)
    ensures ParseLines(lines + [""]) == ParseLines(lines)
  {
    if lines != [] {
      assert (lines + [""])[1..] == lines[1..] + [""];
      ParseLinesBlankTail(lines[1..]);
    } else {
      assert ([] + [""])[1..] == [];
    }
  }

  /**
   * Round trip of the Python list: the newline after the last line leaves a
   * blank line, which the demuxer skips, so it too reads back the
   * slash-normalised paths in list order.
   */
  lemma PythonConcatRoundTrip(paths: seq<string>)
    requires forall i :: 0 <= i < |paths| ==> '\n' !in paths[i]
    ensures ParseConcat(PythonConcat(paths)) == Some(SlashedPaths(paths))
  {
    PythonIsElectronPlusNewline(paths);
    if paths != [] {
      var lines := ConcatLines(paths);
      forall k | 0 <= k < |lines + [""]| ensures '\n' !in (lines + [""])[k] {
        if k < |lines| {
          ConcatLineNewlineFree(paths[k]);
        }
      }
      JoinBlankTail(lines, '\n');
      SplitJoin(lines + [""], '\n');
      ParseLinesBlankTail(lines);
      ParseLinesOfConcatLines(paths);
    }
  }

  /** No backslash and no quote outside a `'\''` group survives in a body. */
  lemma SafePathWellEscaped(path: string)
    ensures WellEscaped(SafePath(path))
  {
    EscapeWellFormed(Slashed(path));
  }
}

=== FILE: editor.dfy ===
/**
 * The web UI's editing state: the folders the user added, each with its
 * chapters and book tags, the selected folder and the chapter being
 * dragged. Its handlers add a folder, reorder, delete and rename chapters,
 * replace or remove a folder, and start the run that hands each folder to
 * the back end's `create-m4b` handler in turn.
 *
 * The folder dialog, the back end's answers (the listed audio files, each
 * file's probed metadata, the cover read back as a data URL, the id taken
 * from the clock) and the environment of each run are parameters; the
 * status log, the language and the rendering are not modelled.
 */
module Editor {
  import opened Text
  import opened FileTree
  import opened Probe
  import opened Job
  import opened Chapters
  import opened Workspace
  import opened ElectronCreate

  // ---- Adding a folder ----

  /** `a || b` on strings: `a` unless it is empty. */
  function Or(a: string, b: string): string {
    if a != [] then a else b
  }

  /** `tags?.key`, an absent key read as the empty string. */
  function Tag(tags: map<string, string>, key: string): string {
    if key in tags then tags[key] else ""
  }

  /**
   * `path.split('\\').pop() || path.split('/').pop() || ''`: the text after
   * the last backslash, and only when that is empty the text after the
   * last slash.
   */
  function FileName(path: string): (r: string)
    ensures |r| <= |path| && r == path[|path| - |r|..]
  {
    var last := AfterLast(path, '\\');
    if last != [] then last else AfterLast(path, '/')
  }

  /** The same split with `Unknown` as the last resort: a folder's name is never empty. */
  function FolderName(path: string): (r: string)
    ensures r != []
    ensures r == FileName(path) || (FileName(path) == [] && r == "Unknown")
  {
    Or(FileName(path), "Unknown")
  }

  /** A path the back end joined from a directory and an entry name ends in that name. */
  lemma FileNameOfJoin(dir: string, name: string)
    requires name != [] && PathSep !in name
    ensures FileName(JoinPath(dir, name)) == name
  {
    LastNameOfJoin(dir, name);
  }

  /** A path without a backslash is its own file name, slashes and all. */
  lemma FileNameWithoutBackslash(path: string)
    requires '\\' !in path && path != []
    ensures FileName(path) == path
  {
  }

  /**
   * The entry `handleAddFolder` pushes for one file: the title tag names
   * the chapter, and the file name does when there is none.
   */
  function NewItem(path: string, info: FileInfo): AudioItem {
    var filename := FileName(path);
    AudioItem(path, filename, info.duration, "", info.hasCover, Or(Tag(info.tags, "title"), filename), Tag(info.tags, "title"))
  }

  /**
   * The chapter a newly added file becomes in the audiobook is titled by
   * its title tag, and by its own file name when it has none; it is never
   * numbered.
   */
  lemma NewChapterTitle(files: seq<AudioItem>, i: nat, dir: string, name: string, info: FileInfo)
    requires i < |files| && files[i] == NewItem(JoinPath(dir, name), info)
    requires name != [] && PathSep !in name
    ensures ElectronChapters(files)[i].title == if Tag(info.tags, "title") != [] then Tag(info.tags, "title") else name
    ensures files[i].chapterName != []
  {
    FileNameOfJoin(dir, name);
    ChapterTitles(files);
  }

  /**
   * The book tags a new folder starts with, from the first file's tags:
   * the title is the album, else the title, else the folder's name; the
   * author is the artist; album, year (`date`) and genre are copied.
   */
  function InitialMetadata(tags: map<string, string>, folderName: string): BookMetadata {
    BookMetadata(
      Or(Tag(tags, "album"), Or(Tag(tags, "title"), folderName)),
      Tag(tags, "artist"),
      Tag(tags, "album"),
      Tag(tags, "date"),
      Tag(tags, "genre"))
  }

  /**
   * A new folder's book always has a title, the first file's album or
   * title when it has one; every other field is the first file's tag, or
   * empty without one.
   */
  lemma InitialMetadataFields(tags: map<string, string>, path: string)
    ensures var m := InitialMetadata(tags, FolderName(path));
      m.title != [] &&
      ("album" in tags && tags["album"] != [] ==> m.title == tags["album"]) &&
      (Tag(tags, "album") == [] && "title" in tags && tags["title"] != [] ==> m.title == tags["title"]) &&
      (Tag(tags, "album") == [] && Tag(tags, "title") == [] ==> m.title == FolderName(path)) &&
      m.author == Tag(tags, "artist") && m.album == Tag(tags, "album") &&
      m.year == Tag(tags, "date") && m.genre == Tag(tags, "genre")
  {
  }

  /** The loop over the listed files: one entry per file, in listing order. */
  method ProbeFiles(audioFiles: seq<string>, metadataOf: string -> FileInfo) returns (items: seq<AudioItem>)
    ensures |items| == |audioFiles|
    ensures forall i :: 0 <= i < |audioFiles| ==> items[i] == NewItem(audioFiles[i], metadataOf(audioFiles[i]))
  {
    items := [];
    var k := 0;
    while k < |audioFiles|
      invariant 0 <= k <= |audioFiles| && |items| == k
      invariant forall i :: 0 <= i < k ==> items[i] == NewItem(audioFiles[i], metadataOf(audioFiles[i]))
    {
      var filePath := audioFiles[k];
      var metadata := metadataOf(filePath);
      var filename := FileName(filePath);
      var chapterName := Or(Tag(metadata.tags, "title"), filename);
      items := items + [AudioItem(filePath, filename, metadata.duration, "", metadata.hasCover, chapterName, Tag(metadata.tags, "title"))];
      k := k + 1;
    }
  }

  // ---- The chapter list ----

  /** `s.splice(i, 1)`: the list without its `i`-th entry. */
  function Removed<T>(s: seq<T>, i: nat): seq<T>
    requires i < |s|
  {
    s[..i] + s[i + 1..]
  }

  /** `s.splice(i, 0, x)`: `x` put before the `i`-th entry, or at the end when `i` is the length. */
  function Inserted<T>(s: seq<T>, i: nat, x: T): seq<T>
    requires i <= |s|
  {
    s[..i] + [x] + s[i..]
  }

  /** The chapter at `from` taken out and put back at `to`. */
  function Moved<T>(s: seq<T>, from: nat, to: nat): seq<T>
    requires from < |s| && to < |s|
  {
    Inserted(Removed(s, from), to, s[from])
  }

  /** Removing entry `i` shifts every later entry down by one and keeps the earlier ones. */
  lemma RemovedShifts<T>(s: seq<T>, i: nat)
    requires i < |s|
    ensures |Removed(s, i)| == |s| - 1
    ensures forall k :: 0 <= k < i ==> Removed(s, i)[k] == s[k]
    ensures forall k :: i <= k < |s| - 1 ==> Removed(s, i)[k] == s[k + 1]
    ensures multiset(Removed(s, i)) + multiset{s[i]} == multiset(s)
  {
    assert s == s[..i] + [s[i]] + s[i + 1..];
  }

  /** Putting a removed entry back where it was restores the list. */
  lemma InsertRemoved<T>(s: seq<T>, i: nat)
    requires i < |s|
    ensures Inserted(Removed(s, i), i, s[i]) == s
  {
    var r := Removed(s, i);
    assert r[..i] == s[..i] && r[i..] == s[i + 1..];
    assert s == s[..i] + [s[i]] + s[i + 1..];
  }

  /** Taking out the entry just inserted gives back the list it went into. */
  lemma RemoveInserted<T>(s: seq<T>, i: nat, x: T)
    requires i <= |s|
    ensures Inserted(s, i, x)[i] == x && Removed(Inserted(s, i, x), i) == s
  {
    var r := Inserted(s, i, x);
    assert r[..i] == s[..i] && r[i + 1..] == s[i..];
    assert s == s[..i] + s[i..];
  }

  /**
   * Dragging reorders and nothing else: the same chapters, the dragged one
   * now at `to`, the others in their old order.
   */
  lemma MovedFacts<T>(s: seq<T>, from: nat, to: nat)
    requires from < |s| && to < |s|
    ensures |Moved(s, from, to)| == |s| && Moved(s, from, to)[to] == s[from]
    ensures multiset(Moved(s, from, to)) == multiset(s)
    ensures Removed(Moved(s, from, to), to) == Removed(s, from)
  {
    var r := Removed(s, from);
    RemovedShifts(s, from);
    RemoveInserted(r, to, s[from]);
    assert multiset(Inserted(r, to, s[from])) == multiset(r[..to]) + multiset{s[from]} + multiset(r[to..]);
    assert r == r[..to] + r[to..];
  }

  /** Dragging the chapter back over the row it came from restores the order. */
  lemma MoveBack<T>(s: seq<T>, from: nat, to: nat)
    requires from < |s| && to < |s|
    ensures Moved(Moved(s, from, to), to, from) == s
  {
    MovedFacts(s, from, to);
    InsertRemoved(s, from);
  }

  /** `updatedFiles.splice(i, 1)` on the copy of the chapter list. */
  method SpliceOut(files: seq<AudioItem>, i: nat) returns (r: seq<AudioItem>)
    requires i < |files|
    ensures r == Removed(files, i)
  {
    r := [];
    var k := 0;
    while k < |files|
      invariant 0 <= k <= |files|
      invariant r == if k <= i then files[..k] else files[..i] + files[i + 1..k]
    {
      if k != i {
        r := r + [files[k]];
      }
      k := k + 1;
    }
  }

  /** `updatedFiles.splice(i, 0, x)` on the copy of the chapter list. */
  method SpliceIn(files: seq<AudioItem>, i: nat, x: AudioItem) returns (r: seq<AudioItem>)
    requires i <= |files|
    ensures r == Inserted(files, i, x)
  {
    r := [];
    var k := 0;
    while k < |files|
      invariant 0 <= k <= |files|
      invariant r == if k <= i then files[..k] else files[..i] + [x] + files[i..k]
    {
      if k == i {
        r := r + [x];
      }
      r := r + [files[k]];
      k := k + 1;
    }
    if i == |files| {
      r := r + [x];
    }
  }

  /** The name the edit box starts with: `customName || filename`. */
  function EditName(file: AudioItem): string {
    Or(file.customName, file.filename)
  }

  /**
   * `handleSaveChapterName(index)` with the edit box holding `text`, as
   * written: a text that trims to nothing changes nothing; otherwise the
   * chapter's `customName` becomes the trimmed text.
   */
  function Renamed(files: seq<AudioItem>, index: nat, text: string): seq<AudioItem>
    requires index < |files|
  {
    if Trim(text, JavaScript) != [] then files[index := files[index].(customName := Trim(text, JavaScript))] else files
  }

  /**
   * Renaming touches only the `customName` of the chapter at `index`, and
   * editing that chapter again starts from the new name.
   */
  lemma RenamedFacts(files: seq<AudioItem>, index: nat, text: string)
    requires index < |files|
    ensures var r := Renamed(files, index, text);
      |r| == |files| &&
      (forall k :: 0 <= k < |files| && k != index ==> r[k] == files[k]) &&
      r[index].(customName := files[index].customName) == files[index] &&
      r[index].chapterName == files[index].chapterName &&
      (Trim(text, JavaScript) != [] ==> EditName(r[index]) == Trim(text, JavaScript)) &&
      (Trim(text, JavaScript) == [] ==> r == files)
  {
  }

  /**
   * As written, a rename never reaches the audiobook nor the chapter list:
   * both show `chapterName` first, the rename sets `customName`, and a
   * file added with a non-empty name always has a `chapterName`.
   */
  lemma RenameNotWritten(files: seq<AudioItem>, index: nat, text: string)
    requires index < |files| && files[index].chapterName != []
    ensures ElectronChapters(Renamed(files, index, text))[index].title == files[index].chapterName
    ensures Or(Renamed(files, index, text)[index].chapterName, EditName(Renamed(files, index, text)[index])) == files[index].chapterName
  {
    ChapterTitles(Renamed(files, index, text));
  }

  /** A file `x.mp3` without a title tag, renamed `Intro`, still becomes a chapter titled `x.mp3`. */
  lemma RenameNotWrittenExample(dir: string, info: FileInfo)
    requires "title" !in info.tags
    ensures var files := [NewItem(JoinPath(dir, "x.mp3"), info)];
      ElectronChapters(Renamed(files, 0, " Intro "))[0].title == "x.mp3" != "Intro"
  {
    var files := [NewItem(JoinPath(dir, "x.mp3"), info)];
    assert PathSep !in "x.mp3";
    NewChapterTitle(files, 0, dir, "x.mp3", info);
    RenameNotWritten(files, 0, " Intro ");
    assert "x.mp3"[0] != "Intro"[0];
  }

  /** The rename as evidently intended: the new name is also the chapter's `chapterName`. */
  function RenamedAsIntended(files: seq<AudioItem>, index: nat, text: string): seq<AudioItem>
    requires index < |files|
  {
    if Trim(text, JavaScript) != [] then files[index := files[index].(customName := Trim(text, JavaScript), chapterName := Trim(text, JavaScript))] else files
  }

  /** Renamed so, the chapter is shown and written under its new name, and every other chapter keeps its title. */
  lemma RenamedAsIntendedWritten(files: seq<AudioItem>, index: nat, text: string)
    requires index < |files| && Trim(text, JavaScript) != []
    ensures var r := RenamedAsIntended(files, index, text);
      ElectronChapters(r)[index].title == Trim(text, JavaScript) &&
      Or(r[index].chapterName, EditName(r[index])) == Trim(text, JavaScript) &&
      forall k :: 0 <= k < |files| && k != index ==> ElectronChapters(r)[k].title == ElectronChapters(files)[k].title
  {
    var r := RenamedAsIntended(files, index, text);
    ChapterTitles(r);
    ChapterTitles(files);
  }

  // ---- The folder list ----

  /** The keys of `Partial<Folder>` the UI updates a folder with. */
  datatype FolderUpdate =
    | FilesUpdate(files: seq<AudioItem>)
    | MetadataUpdate(metadata: BookMetadata)
    | CoverUpdate(coverArt: string)
    | OutputUpdate(outputPath: string)

  /** `{ ...folder, ...updates }`. */
  function Merged(folder: Folder, u: FolderUpdate): Folder {
    match u
    case FilesUpdate(files) => folder.(files := files)
    case MetadataUpdate(metadata) => folder.(metadata := metadata)
    case CoverUpdate(coverArt) => folder.(coverArt := coverArt)
    case OutputUpdate(outputPath) => folder.(outputPath := outputPath)
  }

  function Ids(folders: seq<Folder>): (r: seq<string>)
    ensures |r| == |folders| && forall i :: 0 <= i < |folders| ==> r[i] == folders[i].id
  {
    seq(|folders|, i requires 0 <= i < |folders| => folders[i].id)
  }

  /** `prev.map(f => f.id === updated.id ? updated : f)`. */
  function Replaced(folders: seq<Folder>, updated: Folder): (r: seq<Folder>)
    ensures |r| == |folders|
  {
    seq(|folders|, i requires 0 <= i < |folders| => if folders[i].id == updated.id then updated else folders[i])
  }

  /** `prev.filter(f => f.id !== id)`. */
  function WithoutId(folders: seq<Folder>, id: string): (r: seq<Folder>)
    ensures forall f :: f in r ==> f in folders && f.id != id
  {
    if folders == [] then []
    else (if folders[0].id != id then [folders[0]] else []) + WithoutId(folders[1..], id)
  }

  /**
   * Replacing keeps every folder's place and id; each folder with the
   * updated folder's id becomes it, the others stay as they were; doing it
   * twice is doing it once.
   */
  lemma ReplacedFacts(folders: seq<Folder>, updated: Folder)
    ensures Ids(Replaced(folders, updated)) == Ids(folders)
    ensures forall i :: 0 <= i < |folders| ==>
      (folders[i].id == updated.id ==> Replaced(folders, updated)[i] == updated) &&
      (folders[i].id != updated.id ==> Replaced(folders, updated)[i] == folders[i])
    ensures Replaced(Replaced(folders, updated), updated) == Replaced(folders, updated)
  {
  }

  /** Filtering distributes over concatenation, so the folders that stay keep their order. */
  lemma {:induction false} WithoutIdAppend(a: seq<Folder>, b: seq<Folder>, id: string)
    ensures WithoutId(a + b, id) == WithoutId(a, id) + WithoutId(b, id)
  {
    if a != [] {
      assert (a + b)[1..] == a[1..] + b;
      WithoutIdAppend(a[1..], b, id);
    } else {
      assert a + b == b;
    }
  }

  /** Every folder with another id stays, and removing an id no folder has changes nothing. */
  lemma {:induction false} WithoutIdKeeps(folders: seq<Folder>, id: string)
    ensures forall f :: f in folders && f.id != id ==> f in WithoutId(folders, id)
    ensures id !in Ids(folders) ==> WithoutId(folders, id) == folders
  {
    if folders != [] {
      WithoutIdKeeps(folders[1..], id);
      assert folders == [folders[0]] + folders[1..];
      assert Ids(folders[1..]) == Ids(folders)[1..];
    }
  }

  /** Adding a folder with a fresh id and removing it again restores the list. */
  lemma AddThenRemove(folders: seq<Folder>, folder: Folder)
    requires folder.id !in Ids(folders)
    ensures WithoutId(folders + [folder], folder.id) == folders
  {
    WithoutIdAppend(folders, [folder], folder.id);
    WithoutIdKeeps(folders, folder.id);
    assert WithoutId([folder], folder.id) == [];
  }

  /** Replacing a folder and then removing its id is removing its id. */
  lemma {:induction false} ReplaceThenRemove(folders: seq<Folder>, updated: Folder)
    ensures WithoutId(Replaced(folders, updated), updated.id) == WithoutId(folders, updated.id)
  {
    if folders != [] {
      var r := Replaced(folders, updated);
      assert r[1..] == Replaced(folders[1..], updated);
      ReplaceThenRemove(folders[1..], updated);
    }
  }

  /** `folders.find(f => f.id === id)`. */
  function Find(folders: seq<Folder>, id: string): (r: Option<Folder>)
    ensures r.Some? ==> r.value in folders && r.value.id == id
    ensures r.None? ==> id !in Ids(folders)
  {
    if folders == [] then None
    else if folders[0].id == id then Some(folders[0])
    else
      var r := Find(folders[1..], id);
      assert Ids(folders) == [folders[0].id] + Ids(folders[1..]);
      r
  }

  // ---- Starting the run ----

  /** `folder.outputPath || `${folder.path}\\${folder.name}.m4b``. */
  function OutputPathOf(folder: Folder): string {
    if folder.outputPath != [] then folder.outputPath else JoinPath(folder.path, folder.name + ".m4b")
  }

  /** Without a chosen output path, the audiobook goes into the folder itself, named after it. */
  lemma DefaultOutputPath(folder: Folder)
    requires folder.outputPath == [] && folder.name != [] && PathSep !in folder.name
    ensures OutputPathOf(folder) == folder.path + "\\" + folder.name + ".m4b"
    ensures AfterLast(OutputPathOf(folder), PathSep) == folder.name + ".m4b"
  {
    assert PathSep !in ".m4b";
    assert PathSep !in folder.name + ".m4b";
    LastNameOfJoin(folder.path, folder.name + ".m4b");
  }

  /** `Math.round(i / n * 100)`, exactly: half-way values round up. */
  function Percent(i: nat, n: nat): int
    requires n > 0
  {
    (200 * i + n) / (2 * n)
  }

  /** The progress runs from 0 to 100 and never goes back. */
  lemma PercentFacts(i: nat, j: nat, n: nat)
    requires n > 0 && i <= j <= n
    ensures Percent(0, n) == 0 && Percent(n, n) == 100
    ensures 0 <= Percent(i, n) <= Percent(j, n) <= 100
  {
    DivIs(n, 2 * n, 0);
    DivIs(200 * n + n, 2 * n, 100);
    MonotoneDiv(200 * i + n, 200 * j + n, 2 * n);
    MonotoneDiv(200 * j + n, 200 * n + n, 2 * n);
  }

  /** The quotient is the `q` with `q * d <= a < q * d + d`. */
  lemma DivIs(a: nat, d: nat, q: nat)
    requires d > 0 && q * d <= a < q * d + d
    ensures a / d == q
  {
    var r := a / d;
    assert r * d <= a < r * d + d;
    LessFactor(d, r, q + 1);
    LessFactor(d, q, r + 1);
  }

  lemma MonotoneDiv(a: nat, b: nat, d: nat)
    requires a <= b && d > 0
    ensures a / d <= b / d
  {
    var qa, qb := a / d, b / d;
    assert d * qa <= a;
    assert b < d * qb + d == d * (qb + 1);
    LessFactor(d, qa, qb + 1);
  }

  lemma LessFactor(d: int, x: int, y: int)
    requires d > 0 && d * x < d * y
    ensures x < y
  {
  }

  /** The values the progress bar is set to, in order: 0, one per folder, then 100. */
  predicate IsProgress(steps: seq<int>, n: nat)
    requires n > 0
  {
    |steps| == n + 2 && steps[0] == 0 && steps[n + 1] == 100 &&
    forall k :: 0 <= k < n ==> steps[k + 1] == Percent(k, n)
  }

  /** Such a run of values stays within 0..100, never decreases and ends at 100. */
  lemma ProgressMonotone(steps: seq<int>, n: nat)
    requires n > 0 && IsProgress(steps, n)
    ensures forall a :: 0 <= a < |steps| ==> 0 <= steps[a] <= 100
    ensures forall a, b :: 0 <= a <= b < |steps| ==> steps[a] <= steps[b]
    ensures steps[|steps| - 1] == 100
  {
    forall a, b | 0 <= a <= b < |steps|
      ensures 0 <= steps[a] <= steps[b] <= 100
    {
      if 0 < a && b <= n {
        PercentFacts(a - 1, b - 1, n);
      } else if 0 < a {
        PercentFacts(a - 1, n, n);
      } else if 0 < b <= n {
        PercentFacts(0, b - 1, n);
      }
    }
  }

  /** The tally of the start loop: `successCount`, `failedCount` and the disk. */
  datatype Tally = Tally(successCount: nat, failedCount: nat, files: map<string, Content>)

  /** One folder: handed to `create-m4b` at its output path with `copyAudio: true`, then counted. */
  function StartStep(t: Tally, folder: Folder, tools: Tools): Tally {
    var run := ElectronRun(t.files, folder, OutputPathOf(folder), true, tools);
    if run.0 == Created then Tally(t.successCount + 1, t.failedCount, run.1)
    else Tally(t.successCount, t.failedCount + 1, run.1)
  }

  /** The folders in order, each run facing its own environment. */
  function StartRun(files: map<string, Content>, folders: seq<Folder>, tools: seq<Tools>): Tally
    requires |tools| == |folders|
  {
    if folders == [] then Tally(0, 0, files)
    else
      var n := |folders| - 1;
      StartStep(StartRun(files, folders[..n], tools[..n]), folders[n], tools[n])
  }

  lemma StartRunStep(files: map<string, Content>, folders: seq<Folder>, tools: seq<Tools>, i: nat)
    requires |tools| == |folders| && i < |folders|
    ensures StartRun(files, folders[..i + 1], tools[..i + 1]) ==
      StartStep(StartRun(files, folders[..i], tools[..i]), folders[i], tools[i])
  {
    assert folders[..i + 1][..i] == folders[..i];
    assert tools[..i + 1][..i] == tools[..i];
  }

  /** A run succeeds exactly when its environment lets the back end write and the transcoder finish. */
  predicate Ready(tools: Tools) {
    tools.canWrite && tools.transcodes
  }

  function ReadyCount(tools: seq<Tools>): nat {
    if tools == [] then 0 else ReadyCount(tools[..|tools| - 1]) + (if Ready(tools[|tools| - 1]) then 1 else 0)
  }

  /**
   * Every folder is counted once: the successes are the runs whose
   * environment was ready, and the successes and failures add up to the
   * number of folders.
   */
  lemma {:induction false} StartCounts(files: map<string, Content>, folders: seq<Folder>, tools: seq<Tools>)
    requires |tools| == |folders|
    ensures StartRun(files, folders, tools).successCount + StartRun(files, folders, tools).failedCount == |folders|
    ensures StartRun(files, folders, tools).successCount == ReadyCount(tools)
  {
    if folders != [] {
      var n := |folders| - 1;
      StartCounts(files, folders[..n], tools[..n]);
      var t := StartRun(files, folders[..n], tools[..n]);
      var run := ElectronRun(t.files, folders[n], OutputPathOf(folders[n]), true, tools[n]);
      assert run.0 == Created <==> Ready(tools[n]);
    }
  }

  /** One turn of the start loop. */
  method StartTurn(disk: Disk, folder: Folder, tools: Tools, successCount: nat, failedCount: nat)
    returns (successCount': nat, failedCount': nat)
    modifies disk
    ensures Tally(successCount', failedCount', disk.files) ==
      StartStep(Tally(successCount, failedCount, old(disk.files)), folder, tools)
  {
    var outputPath := if folder.outputPath != [] then folder.outputPath else JoinPath(folder.path, folder.name + ".m4b");
    ghost var run := ElectronRun(old(disk.files), folder, outputPath, true, tools);
    var result := CreateM4b(disk, folder, outputPath, true, tools);
    assert run.0 == result && run.1 == disk.files;
    assert StartStep(Tally(successCount, failedCount, old(disk.files)), folder, tools) ==
      if run.0 == Created then Tally(successCount + 1, failedCount, run.1) else Tally(successCount, failedCount + 1, run.1);
    successCount', failedCount' := successCount, failedCount;
    if result == Created {
      successCount' := successCount' + 1;
    } else {
      failedCount' := failedCount' + 1;
    }
  }

  /** The start loop over the folders, with the progress value set at the top of each turn. */
  method StartLoop(disk: Disk, folders: seq<Folder>, tools: seq<Tools>)
    returns (percents: seq<int>, successCount: nat, failedCount: nat)
    requires |tools| == |folders| && folders != []
    modifies disk
    ensures Tally(successCount, failedCount, disk.files) == StartRun(old(disk.files), folders, tools)
    ensures |percents| == |folders| && forall k :: 0 <= k < |folders| ==> percents[k] == Percent(k, |folders|)
  {
    percents := [];
    successCount, failedCount := 0, 0;
    var i := 0;
    while i < |folders|
      invariant 0 <= i <= |folders| && |percents| == i
      invariant forall k :: 0 <= k < i ==> percents[k] == Percent(k, |folders|)
      invariant Tally(successCount, failedCount, disk.files) == StartRun(old(disk.files), folders[..i], tools[..i])
    {
      var percent := (200 * i + |folders|) / (2 * |folders|);
      percents := percents + [percent];
      StartRunStep(old(disk.files), folders, tools, i);
      successCount, failedCount := StartTurn(disk, folders[i], tools[i], successCount, failedCount);
      i := i + 1;
    }
    assert folders[..i] == folders && tools[..i] == tools;
  }

  // ---- The editor's state ----

  class App {
    var folders: seq<Folder>
    var selected: Option<Folder>
    var dragged: Option<nat>
    var editingChapter: Option<nat>
    var editingName: string
    var progress: int
    var loading: bool

    /** The state on first render. */
    constructor()
      ensures folders == [] && selected == None && dragged == None
      ensures editingChapter == None && editingName == [] && progress == 0 && !loading
    {
      folders, selected, dragged := [], None, None;
      editingChapter, editingName := None, "";
      progress, loading := 0, false;
    }

    /**
     * `handleAddFolder`, with `folderPath` the dialog's answer (empty when
     * cancelled), `audioFiles` the back end's listing of it and `metadataOf`
     * its probe of each file: without a selection or without audio files
     * nothing is added; otherwise a folder with one chapter per file, its
     * tags from the first file, goes at the end of the list.
     */
    method AddFolder(folderPath: string, audioFiles: seq<string>, metadataOf: string -> FileInfo, id: string, coverArt: string)
      modifies this`folders
      ensures folderPath == [] || audioFiles == [] ==> folders == old(folders)
      ensures folderPath != [] && audioFiles != [] ==>
        |folders| == |old(folders)| + 1 && folders[..|old(folders)|] == old(folders) &&
        var f := folders[|old(folders)|];
        f.id == id && f.path == folderPath && f.name == FolderName(folderPath) &&
        |f.files| == |audioFiles| &&
        (forall i :: 0 <= i < |audioFiles| ==> f.files[i] == NewItem(audioFiles[i], metadataOf(audioFiles[i]))) &&
        f.metadata == InitialMetadata(metadataOf(audioFiles[0]).tags, FolderName(folderPath)) &&
        f.coverArt == coverArt && f.outputPath == []
    {
      if folderPath == [] || audioFiles == [] {
        return;
      }
      var filesWithMetadata := ProbeFiles(audioFiles, metadataOf);
      var firstFileMetadata := metadataOf(filesWithMetadata[0].path);
      var folderName := FolderName(folderPath);
      var metadata := InitialMetadata(firstFileMetadata.tags, folderName);
      var newFolder := Folder(id, folderPath, folderName, filesWithMetadata, metadata, coverArt, "");
      folders := folders + [newFolder];
    }

    /** `handleUpdateFolder(updates)`: the selected folder and its copy in the list, both merged with `updates`. */
    method UpdateFolder(updates: FolderUpdate)
      modifies this`folders, this`selected
      ensures old(selected).None? ==> folders == old(folders) && selected == None
      ensures old(selected).Some? ==>
        selected == Some(Merged(old(selected).value, updates)) &&
        folders == Replaced(old(folders), Merged(old(selected).value, updates))
    {
      if selected.Some? {
        var updated := Merged(selected.value, updates);
        selected := Some(updated);
        folders := Replaced(folders, updated);
      }
    }

    /**
     * `handleRemoveFolder(folderId)`: the folder with that id, or the
     * selected one when no id is given, leaves the list, and the selection
     * is cleared when it was that folder; with neither, nothing changes.
     */
    method RemoveFolder(folderId: string)
      modifies this`folders, this`selected
      ensures var target := if folderId != [] then Find(old(folders), folderId) else old(selected);
        (target.None? ==> folders == old(folders) && selected == old(selected)) &&
        (target.Some? ==>
          folders == WithoutId(old(folders), target.value.id) &&
          selected == if old(selected).Some? && old(selected).value.id == target.value.id then None else old(selected))
    {
      var folderToRemove := if folderId != [] then Find(folders, folderId) else selected;
      if folderToRemove.Some? {
        folders := WithoutId(folders, folderToRemove.value.id);
        if selected.Some? && selected.value.id == folderToRemove.value.id {
          selected := None;
        }
      }
    }

    /**
     * `handleChapterDragOver(e, index)` on the row at `index` of the
     * selected folder's chapter list: nothing happens while no chapter is
     * dragged or over its own row; otherwise the dragged chapter moves to
     * `index`, the folder is updated and the dragged chapter is now the one
     * at `index`.
     */
    method ChapterDragOver(index: nat)
      requires selected.Some? ==> index < |selected.value.files|
      requires selected.Some? && dragged.Some? ==> dragged.value < |selected.value.files|
      modifies this`folders, this`selected, this`dragged
      ensures old(dragged).None? || old(dragged).value == index || old(selected).None? ==>
        folders == old(folders) && selected == old(selected) && dragged == old(dragged)
      ensures old(dragged).Some? && old(dragged).value != index && old(selected).Some? ==>
        var updated := old(selected).value.(files := Moved(old(selected).value.files, old(dragged).value, index));
        selected == Some(updated) && folders == Replaced(old(folders), updated) && dragged == Some(index)
    {
      if dragged.None? || dragged.value == index {
        return;
      }
      if selected.Some? {
        var from := dragged.value;
        var draggedFile := selected.value.files[from];
        var updatedFiles := SpliceOut(selected.value.files, from);
        updatedFiles := SpliceIn(updatedFiles, index, draggedFile);
        UpdateFolder(FilesUpdate(updatedFiles));
        dragged := Some(index);
      }
    }

    /** `handleDeleteChapter(index)`: the chapter at `index` leaves the selected folder. */
    method DeleteChapter(index: nat)
      requires selected.Some? ==> index < |selected.value.files|
      modifies this`folders, this`selected
      ensures old(selected).None? ==> folders == old(folders) && selected == None
      ensures old(selected).Some? ==>
        var updated := old(selected).value.(files := Removed(old(selected).value.files, index));
        selected == Some(updated) && folders == Replaced(old(folders), updated)
    {
      if selected.Some? {
        var updatedFiles := SpliceOut(selected.value.files, index);
        UpdateFolder(FilesUpdate(updatedFiles));
      }
    }

    /** `handleDragStart(index)`. */
    method DragStart(index: nat)
      modifies this`dragged
      ensures dragged == Some(index)
    {
      dragged := Some(index);
    }

    /** `handleDragEnd`. */
    method DragEnd()
      modifies this`dragged
      ensures dragged == None
    {
      dragged := None;
    }

    /** `handleStartEditChapter(index, file)`: the edit box starts with the chapter's custom name, else its file name. */
    method StartEditChapter(index: nat, file: AudioItem)
      modifies this`editingChapter, this`editingName
      ensures editingChapter == Some(index) && editingName == EditName(file)
    {
      editingChapter := Some(index);
      editingName := Or(file.customName, file.filename);
    }

    /**
     * `handleSaveChapterName(index)`: with a folder selected and an edit box
     * that does not trim to nothing, the chapter at `index` gets the trimmed
     * text as its `customName`; the edit box is closed and emptied either way.
     */
    method SaveChapterName(index: nat)
      requires selected.Some? ==> index < |selected.value.files|
      modifies this`folders, this`selected, this`editingChapter, this`editingName
      ensures old(selected).None? || Trim(old(editingName), JavaScript) == [] ==> folders == old(folders) && selected == old(selected)
      ensures old(selected).Some? && Trim(old(editingName), JavaScript) != [] ==>
        var updated := old(selected).value.(files := Renamed(old(selected).value.files, index, old(editingName)));
        selected == Some(updated) && folders == Replaced(old(folders), updated)
      ensures editingChapter == None && editingName == []
    {
      if selected.Some? && Trim(editingName, JavaScript) != [] {
        var updatedFiles := selected.value.files;
        updatedFiles := updatedFiles[index := updatedFiles[index].(customName := Trim(editingName, JavaScript))];
        UpdateFolder(FilesUpdate(updatedFiles));
      }
      editingChapter := None;
      editingName := "";
    }

    /**
     * `handleStart`, with `tools[i]` the environment the run of folder `i`
     * meets: with no folders it only logs; otherwise each folder in turn
     * goes to `create-m4b`, the progress is set to 0, then before each
     * folder to its share, then to 100, and the successes and failures are
     * counted.
     */
    method Start(disk: Disk, tools: seq<Tools>) returns (started: bool, steps: seq<int>, successCount: nat, failedCount: nat)
      requires |tools| == |folders|
      modifies this`progress, this`loading, disk
      ensures started <==> folders != []
      ensures !started ==> disk.files == old(disk.files) && progress == old(progress) && loading == old(loading) && steps == []
      ensures started ==>
        IsProgress(steps, |folders|) && progress == 100 && !loading &&
        Tally(successCount, failedCount, disk.files) == StartRun(old(disk.files), folders, tools)
    {
      if folders == [] {
        return false, [], 0, 0;
      }
      started := true;
      loading := true;
      progress := 0;
      var percents;
      percents, successCount, failedCount := StartLoop(disk, folders, tools);
      progress := 100;
      loading := false;
      steps := [0] + percents + [100];
    }
  }
}

=== FILE: electron_create.dfy ===
/**
 * The Electron back end's `create-m4b` handler: write the concat list next
 * to the output, resolve the cover, write the metadata file, run the
 * transcoder, and remove the temporary files once it succeeds.
 *
 * What the handler learns from programs it starts is given as `Tools`:
 * whether the output directory accepts files, from which audio files the
 * transcoder can extract a picture, and whether the final transcoder run
 * succeeds.
 */
module ElectronCreate {
  import opened Text
  import opened Job
  import opened FfMetadata
  import opened ConcatList
  import opened ElectronMetadata
  import opened FfmpegCommand
  import opened Workspace

  datatype Failure = WriteFailed | TranscodeFailed

  /** `{ success: true }` or `{ success: false, error }`. */
  datatype Outcome = Created | Failed(reason: Failure)

  // ---- Data URLs ----

  /** A character of the regular-expression class `\w`. */
  predicate WordChar(c: char) {
    ('a' <= c <= 'z') || ('A' <= c <= 'Z') || ('0' <= c <= '9') || c == '_'
  }

  /** The length of the longest run of word characters at the start of `s`. */
  function WordRun(s: string): (n: nat)
    ensures n <= |s|
    ensures forall i :: 0 <= i < n ==> WordChar(s[i])
    ensures n < |s| ==> !WordChar(s[n])
  {
    if s != [] && WordChar(s[0]) then 1 + WordRun(s[1..]) else 0
  }

  const DataImagePrefix: string := "data:image/"
  const Base64Marker: string := ";base64,"

  /**
   * `replace(/^data:image\/\w+;base64,/, '')`: the payload after a
   * `data:image/<type>;base64,` header, or the whole string when it has no
   * such header.
   */
  function StripDataUrl(s: string): (r: string)
    ensures r == s || (|r| < |s| && r == s[|s| - |r|..])
  {
    if |s| >= |DataImagePrefix| && s[..|DataImagePrefix|] == DataImagePrefix then
      var rest := s[|DataImagePrefix|..];
      var k := WordRun(rest);
      var tail := rest[k..];
      if k >= 1 && |tail| >= |Base64Marker| && tail[..|Base64Marker|] == Base64Marker then
        assert tail[|Base64Marker|..] == s[|DataImagePrefix| + k + |Base64Marker|..];
        tail[|Base64Marker|..]
      else s
    else s
  }

  lemma {:induction false} WordRunStops(kind: string, rest: string)
    requires forall i :: 0 <= i < |kind| ==> WordChar(kind[i])
    requires rest != [] && !WordChar(rest[0])
    ensures WordRun(kind + rest) == |kind|
  {
    if kind != [] {
      assert (kind + rest)[1..] == kind[1..] + rest;
      WordRunStops(kind[1..], rest);
    } else {
      assert kind + rest == rest;
    }
  }

  /** The header of an image data URL is removed and the base64 payload kept, whatever it holds. */
  lemma StripDataUrlPayload(kind: string, payload: string)
    requires kind != [] && forall i :: 0 <= i < |kind| ==> WordChar(kind[i])
    ensures StripDataUrl(DataImagePrefix + kind + Base64Marker + payload) == payload
  {
    var s := DataImagePrefix + kind + Base64Marker + payload;
    assert s[..|DataImagePrefix|] == DataImagePrefix;
    var rest := s[|DataImagePrefix|..];
    assert rest == kind + (Base64Marker + payload);
    WordRunStops(kind, Base64Marker + payload);
    assert rest[|kind|..] == Base64Marker + payload;
  }

  // ---- The cover ----

  /** Some file of the folder was probed as carrying a cover. */
  predicate AnyCover(files: seq<AudioItem>) {
    exists j :: 0 <= j < |files| && files[j].hasCover
  }

  /** The first file from `i` on that carries a cover the transcoder can extract. */
  function FirstPicture(files: seq<AudioItem>, pictures: set<string>, i: nat): (r: Option<nat>)
    requires i <= |files|
    ensures r.Some? ==> i <= r.value < |files| && files[r.value].hasCover && files[r.value].path in pictures
    ensures r.Some? ==> forall j :: i <= j < r.value ==> !(files[j].hasCover && files[j].path in pictures)
    ensures r.None? ==> forall j :: i <= j < |files| ==> !(files[j].hasCover && files[j].path in pictures)
    decreases |files| - i
  {
    if i == |files| then None
    else if files[i].hasCover && files[i].path in pictures then Some(i)
    else FirstPicture(files, pictures, i + 1)
  }

  /**
   * The loop over the folder's files when no cover was chosen: every file
   * with a cover is tried in turn, `coverFile` names the target before each
   * try, and the first extraction that succeeds ends the loop. A failed last
   * try leaves `coverFile` set all the same.
   */
  method ExtractCover(disk: Disk, files: seq<AudioItem>, target: string, pictures: set<string>)
    returns (coverFile: Option<string>)
    modifies disk
    ensures coverFile == if AnyCover(files) then Some(target) else None
    ensures disk.files ==
      match FirstPicture(files, pictures, 0)
      case Some(k) => old(disk.files)[target := PictureOf(files[k].path)]
      case None => old(disk.files)
  {
    coverFile := None;
    var i := 0;
    while i < |files|
      invariant 0 <= i <= |files|
      invariant coverFile == if exists j :: 0 <= j < i && files[j].hasCover then Some(target) else None
      invariant FirstPicture(files, pictures, 0) == FirstPicture(files, pictures, i)
      invariant disk.files == old(disk.files)
    {
      if files[i].hasCover {
        coverFile := Some(target);
        if files[i].path in pictures {
          disk.files := disk.files[target := PictureOf(files[i].path)];
          return;
        }
      }
      i := i + 1;
    }
  }

  /** Does `s` start with `data:`? */
  predicate IsDataUrl(s: string) {
    |s| >= 5 && s[..5] == "data:"
  }

  /**
   * The cover step as a whole, from the disk before it: a data URL is
   * decoded into `cover.png`; an existing image file is copied to
   * `cover<ext>`; a path that does not exist gives no cover; with no cover
   * chosen, the files' own covers are tried as `ExtractCover` does.
   */
  function CoverStep(files: map<string, Content>, folder: Folder, outputPath: string, pictures: set<string>)
    : (Option<string>, map<string, Content>)
  {
    var art := folder.coverArt;
    if art != [] then
      if IsDataUrl(art) then
        var target := TempFile(outputPath, CoverName);
        (Some(target), files[target := Decoded(StripDataUrl(art))])
      else if art in files then
        var target := TempFile(outputPath, "cover" + ExtName(art));
        (Some(target), files[target := files[art]])
      else (None, files)
    else
      var target := TempFile(outputPath, CoverName);
      (if AnyCover(folder.files) then Some(target) else None,
       match FirstPicture(folder.files, pictures, 0)
       case Some(k) => files[target := PictureOf(folder.files[k].path)]
       case None => files)
  }

  method ResolveCover(disk: Disk, folder: Folder, outputPath: string, pictures: set<string>)
    returns (coverFile: Option<string>)
    modifies disk
    ensures (coverFile, disk.files) == CoverStep(old(disk.files), folder, outputPath, pictures)
  {
    coverFile := None;
    if folder.coverArt != [] {
      if IsDataUrl(folder.coverArt) {
        var target := TempFile(outputPath, CoverName);
        coverFile := Some(target);
        var payload := StripDataUrl(folder.coverArt);
        disk.files := disk.files[target := Decoded(payload)];
      } else if folder.coverArt in disk.files {
        var target := TempFile(outputPath, "cover" + ExtName(folder.coverArt));
        coverFile := Some(target);
        disk.files := disk.files[target := disk.files[folder.coverArt]];
      }
    } else {
      coverFile := ExtractCover(disk, folder.files, TempFile(outputPath, CoverName), pictures);
    }
  }

  // ---- The whole handler ----

  /** The disk once the concat list, the cover and the metadata file are in place. */
  function Staged(files: map<string, Content>, folder: Folder, outputPath: string, pictures: set<string>)
    : (Option<string>, map<string, Content>)
  {
    var concat := TempFile(outputPath, ConcatName);
    var withList := files[concat := Text(ElectronConcat(Paths(folder.files)))];
    var (coverFile, withCover) := CoverStep(withList, folder, outputPath, pictures);
    (coverFile, withCover[TempFile(outputPath, MetadataName) := Text(Render(ElectronMetadataDoc(folder.metadata, folder.files)))])
  }

  /**
   * The handler from the disk before to its outcome and the disk after:
   * nothing is written when the first write fails; the temporary files stay
   * when the transcoder fails; otherwise the output is written and the
   * temporary files are removed.
   */
  function ElectronRun(files: map<string, Content>, folder: Folder, outputPath: string, copyAudio: bool, tools: Tools)
    : (Outcome, map<string, Content>)
  {
    if !tools.canWrite then (Failed(WriteFailed), files)
    else
      var (coverFile, staged) := Staged(files, folder, outputPath, tools.picturesIn);
      if !tools.transcodes then (Failed(TranscodeFailed), staged)
      else
        var cmd := Arguments(RunInvocation(outputPath, copyAudio, coverFile, staged));
        (Created, Cleaned(staged[outputPath := Audiobook(cmd)], outputPath, coverFile))
  }

  /** Writes the concat list, resolves the cover and writes the metadata file. */
  method Stage(disk: Disk, folder: Folder, outputPath: string, pictures: set<string>)
    returns (coverFile: Option<string>)
    modifies disk
    ensures (coverFile, disk.files) == Staged(old(disk.files), folder, outputPath, pictures)
  {
    var concatContent := ElectronConcat(Paths(folder.files));
    disk.files := disk.files[TempFile(outputPath, ConcatName) := Text(concatContent)];
    coverFile := ResolveCover(disk, folder, outputPath, pictures);
    var metadataContent := BuildMetadata(folder.metadata, folder.files);
    disk.files := disk.files[TempFile(outputPath, MetadataName) := Text(metadataContent)];
  }

  method CreateM4b(disk: Disk, folder: Folder, outputPath: string, copyAudio: bool, tools: Tools)
    returns (outcome: Outcome)
    modifies disk
    ensures (outcome, disk.files) == ElectronRun(old(disk.files), folder, outputPath, copyAudio, tools)
  {
    if !tools.canWrite {
      return Failed(WriteFailed);
    }
    var coverFile := Stage(disk, folder, outputPath, tools.picturesIn);
    var cover := if coverFile.Some? && coverFile.value in disk.files then coverFile else None;
    assert cover == EmbeddedCover(coverFile, disk.files);
    var cmd := BuildArguments(Invocation(TempFile(outputPath, ConcatName), TempFile(outputPath, MetadataName), cover, copyAudio, outputPath));
    if !tools.transcodes {
      return Failed(TranscodeFailed);
    }
    disk.files := disk.files[outputPath := Audiobook(cmd)];
    Cleanup(disk, outputPath, coverFile);
    outcome := Created;
  }

  // ---- What a run leaves behind ----

  /** The cover step writes nothing but its target, `cover.png` or `cover<ext>`. */
  lemma CoverStepKeeps(files: map<string, Content>, folder: Folder, outputPath: string, pictures: set<string>, p: string)
    requires p != TempFile(outputPath, CoverName) && p != TempFile(outputPath, "cover" + ExtName(folder.coverArt))
    ensures var after := CoverStep(files, folder, outputPath, pictures).1;
      (p in after <==> p in files) && (p in files ==> after[p] == files[p])
  {
    var art := folder.coverArt;
    var after := CoverStep(files, folder, outputPath, pictures).1;
    if art != [] {
      if IsDataUrl(art) {
        var t, v := TempFile(outputPath, CoverName), Decoded(StripDataUrl(art));
        assert after == files[t := v];
        UpdateKeeps(files, t, v, p);
      } else if art in files {
        var t, v := TempFile(outputPath, "cover" + ExtName(art)), files[art];
        assert after == files[t := v];
        UpdateKeeps(files, t, v, p);
      } else {
        assert after == files;
      }
    } else {
      match FirstPicture(folder.files, pictures, 0)
      case Some(k) =>
        var t, v := TempFile(outputPath, CoverName), PictureOf(folder.files[k].path);
        assert after == files[t := v];
        UpdateKeeps(files, t, v, p);
      case None =>
        assert after == files;
    }
  }

  /** The concat list survives the cover step. */
  lemma ListSurvivesCover(files: map<string, Content>, folder: Folder, outputPath: string, pictures: set<string>, list: Content)
    ensures var concat := TempFile(outputPath, ConcatName);
      var after := CoverStep(files[concat := list], folder, outputPath, pictures).1;
      concat in after && after[concat] == list
  {
    var concat := TempFile(outputPath, ConcatName);
    FixedNamesApart();
    CopyNameApart(ExtName(folder.coverArt));
    TempFilesApart(outputPath, "cover" + ExtName(folder.coverArt));
    TempFilesApart(outputPath, CoverName);
    CoverStepKeeps(files[concat := list], folder, outputPath, pictures, concat);
  }

  /** ... and the metadata file, written after it, does not overwrite it. */
  lemma WrittenAround(files: map<string, Content>, folder: Folder, outputPath: string, pictures: set<string>, list: Content, doc: Content)
    ensures var concat := TempFile(outputPath, ConcatName);
      var meta := TempFile(outputPath, MetadataName);
      var after := CoverStep(files[concat := list], folder, outputPath, pictures).1[meta := doc];
      after[concat] == list && after[meta] == doc
  {
    ListSurvivesCover(files, folder, outputPath, pictures, list);
    FixedNamesApart();
    TempFilesApart(outputPath, CoverName);
  }

  /**
   * What the transcoder is given: the concat list of the folder's paths and
   * the metadata document of its tags and chapters, both in the output's
   * directory.
   */
  lemma StagedInputs(files: map<string, Content>, folder: Folder, outputPath: string, pictures: set<string>)
    ensures var staged := Staged(files, folder, outputPath, pictures).1;
      staged[TempFile(outputPath, ConcatName)] == Text(ElectronConcat(Paths(folder.files))) &&
      staged[TempFile(outputPath, MetadataName)] == Text(Render(ElectronMetadataDoc(folder.metadata, folder.files)))
  {
    WrittenAround(files, folder, outputPath, pictures, Text(ElectronConcat(Paths(folder.files))),
      Text(Render(ElectronMetadataDoc(folder.metadata, folder.files))));
  }

  /**
   * The transcoder reads back what the folder holds: the concat demuxer
   * finds the folder's paths (slashes normalised) in order, and the
   * metadata reader finds the tags and one chapter per file.
   */
  lemma StagedInputsReadBack(files: map<string, Content>, folder: Folder, outputPath: string, pictures: set<string>)
    requires forall i :: 0 <= i < |folder.files| ==> '\n' !in folder.files[i].path
    requires Writable(folder.metadata, folder.files)
    ensures var staged := Staged(files, folder, outputPath, pictures).1;
      var list := staged[TempFile(outputPath, ConcatName)];
      var meta := staged[TempFile(outputPath, MetadataName)];
      list.Text? && ParseConcat(list.text) == Some(SlashedPaths(Paths(folder.files))) &&
      meta.Text? && Read(meta.text) == Some(ElectronMetadataDoc(folder.metadata, folder.files))
  {
    StagedInputs(files, folder, outputPath, pictures);
    ElectronConcatRoundTrip(Paths(folder.files));
    ElectronMetadataReadsBack(folder.metadata, folder.files);
  }

  /** The cover target of a folder's run, when there is one. */
  function CoverTargets(folder: Folder, outputPath: string): set<string> {
    {TempFile(outputPath, CoverName), TempFile(outputPath, "cover" + ExtName(folder.coverArt))}
  }

  lemma CoverTargetIn(files: map<string, Content>, folder: Folder, outputPath: string, pictures: set<string>)
    ensures var coverFile := CoverStep(files, folder, outputPath, pictures).0;
      coverFile.Some? ==> coverFile.value in CoverTargets(folder, outputPath)
  {
  }

  /** Staging writes the concat list, the metadata file and a cover target, and nothing else. */
  lemma StagedKeeps(files: map<string, Content>, folder: Folder, outputPath: string, pictures: set<string>, p: string)
    requires p != TempFile(outputPath, ConcatName) && p != TempFile(outputPath, MetadataName)
    requires p !in CoverTargets(folder, outputPath)
    ensures var staged := Staged(files, folder, outputPath, pictures).1;
      (p in staged <==> p in files) && (p in files ==> staged[p] == files[p])
  {
    var concat := TempFile(outputPath, ConcatName);
    CoverStepKeeps(files[concat := Text(ElectronConcat(Paths(folder.files)))], folder, outputPath, pictures, p);
  }

  /**
   * A successful run leaves the output holding what the transcoder made
   * from the command, removes the concat list, the metadata file and the
   * cover it used, and changes no other file.
   */
  lemma SuccessfulRun(files: map<string, Content>, folder: Folder, outputPath: string, copyAudio: bool, tools: Tools)
    requires tools.canWrite && tools.transcodes
    requires outputPath != TempFile(outputPath, ConcatName) && outputPath != TempFile(outputPath, MetadataName)
    requires outputPath !in CoverTargets(folder, outputPath)
    ensures ElectronRun(files, folder, outputPath, copyAudio, tools).0 == Created
    ensures var staging := Staged(files, folder, outputPath, tools.picturesIn);
      var after := ElectronRun(files, folder, outputPath, copyAudio, tools).1;
      outputPath in after &&
      after[outputPath] == Audiobook(Arguments(RunInvocation(outputPath, copyAudio, staging.0, staging.1))) &&
      TempFile(outputPath, ConcatName) !in after && TempFile(outputPath, MetadataName) !in after &&
      (staging.0.Some? ==> staging.0.value !in after)
    ensures var after := ElectronRun(files, folder, outputPath, copyAudio, tools).1;
      forall p ::
        (p != outputPath && p != TempFile(outputPath, ConcatName) && p != TempFile(outputPath, MetadataName) &&
         p !in CoverTargets(folder, outputPath)) ==>
        (p in after <==> p in files) && (p in files ==> after[p] == files[p])
  {
    var staging := Staged(files, folder, outputPath, tools.picturesIn);
    var cmd := Arguments(RunInvocation(outputPath, copyAudio, staging.0, staging.1));
    var produced := staging.1[outputPath := Audiobook(cmd)];
    var after := ElectronRun(files, folder, outputPath, copyAudio, tools).1;
    assert after == Cleaned(produced, outputPath, staging.0);
    var concat := TempFile(outputPath, ConcatName);
    CoverTargetIn(files[concat := Text(ElectronConcat(Paths(folder.files)))], folder, outputPath, tools.picturesIn);
    CleanedFrame(produced, outputPath, staging.0, outputPath);
    CleanedFrame(produced, outputPath, staging.0, concat);
    CleanedFrame(produced, outputPath, staging.0, TempFile(outputPath, MetadataName));
    if staging.0.Some? {
      CleanedFrame(produced, outputPath, staging.0, staging.0.value);
    }
    forall p |
        p != outputPath && p != TempFile(outputPath, ConcatName) && p != TempFile(outputPath, MetadataName) &&
        p !in CoverTargets(folder, outputPath)
      ensures (p in after <==> p in files) && (p in files ==> after[p] == files[p])
    {
      StagedKeeps(files, folder, outputPath, tools.picturesIn, p);
      CleanedFrame(produced, outputPath, staging.0, p);
    }
  }

  /**
   * A chosen cover: a data URL is always embedded, decoded from its
   * payload; an existing image file is embedded as a copy; a path that does
   * not exist gives an audiobook without a cover.
   */
  lemma CustomCover(files: map<string, Content>, folder: Folder, outputPath: string, pictures: set<string>)
    requires folder.coverArt != [] && folder.coverArt != TempFile(outputPath, ConcatName)
    ensures var staging := Staged(files, folder, outputPath, pictures);
      var art := folder.coverArt;
      EmbeddedCover(staging.0, staging.1) ==
        (if IsDataUrl(art) then Some(TempFile(outputPath, CoverName))
         else if art in files then Some(TempFile(outputPath, "cover" + ExtName(art)))
         else None)
    ensures var staged := Staged(files, folder, outputPath, pictures).1;
      IsDataUrl(folder.coverArt) ==> staged[TempFile(outputPath, CoverName)] == Decoded(StripDataUrl(folder.coverArt))
    ensures var staged := Staged(files, folder, outputPath, pictures).1;
      var art := folder.coverArt;
      !IsDataUrl(art) && art in files ==> staged[TempFile(outputPath, "cover" + ExtName(art))] == files[art]
  {
    var art := folder.coverArt;
    var concat, meta := TempFile(outputPath, ConcatName), TempFile(outputPath, MetadataName);
    var withList := files[concat := Text(ElectronConcat(Paths(folder.files)))];
    var doc := Text(Render(ElectronMetadataDoc(folder.metadata, folder.files)));
    var step := CoverStep(withList, folder, outputPath, pictures);
    var staging := Staged(files, folder, outputPath, pictures);
    assert staging == (step.0, step.1[meta := doc]);
    FixedNamesApart();
    if IsDataUrl(art) {
      var t := TempFile(outputPath, CoverName);
      TempFilesApart(outputPath, CoverName);
      assert step == (Some(t), withList[t := Decoded(StripDataUrl(art))]);
      UpdateKeeps(step.1, meta, doc, t);
    } else if art in files {
      var t := TempFile(outputPath, "cover" + ExtName(art));
      CopyNameApart(ExtName(art));
      TempFilesApart(outputPath, "cover" + ExtName(art));
      assert art in withList && withList[art] == files[art];
      assert step == (Some(t), withList[t := files[art]]);
      UpdateKeeps(step.1, meta, doc, t);
    } else {
      assert art !in withList;
      assert step.0 == None;
    }
  }

  /**
   * No chosen cover: the first file whose picture can be extracted provides
   * it. When a file was probed with a cover but no extraction succeeds,
   * `coverFile` still names `cover.png`, so a `cover.png` already in the
   * output's directory is embedded; without such a file there is no cover.
   */
  lemma ExtractedCover(files: map<string, Content>, folder: Folder, outputPath: string, pictures: set<string>)
    requires folder.coverArt == []
    ensures var staging := Staged(files, folder, outputPath, pictures);
      var target := TempFile(outputPath, CoverName);
      EmbeddedCover(staging.0, staging.1) ==
        if AnyCover(folder.files) && (FirstPicture(folder.files, pictures, 0).Some? || target in files) then Some(target)
        else None
    ensures var staged := Staged(files, folder, outputPath, pictures).1;
      var first := FirstPicture(folder.files, pictures, 0);
      first.Some? ==> staged[TempFile(outputPath, CoverName)] == PictureOf(folder.files[first.value].path)
    ensures var staged := Staged(files, folder, outputPath, pictures).1;
      var target := TempFile(outputPath, CoverName);
      FirstPicture(folder.files, pictures, 0).None? && target in files ==> staged[target] == files[target]
  {
    var target := TempFile(outputPath, CoverName);
    var concat, meta := TempFile(outputPath, ConcatName), TempFile(outputPath, MetadataName);
    var withList := files[concat := Text(ElectronConcat(Paths(folder.files)))];
    var doc := Text(Render(ElectronMetadataDoc(folder.metadata, folder.files)));
    var step := CoverStep(withList, folder, outputPath, pictures);
    var staging := Staged(files, folder, outputPath, pictures);
    assert staging == (step.0, step.1[meta := doc]);
    FixedNamesApart();
    TempFilesApart(outputPath, CoverName);
    assert step.0 == if AnyCover(folder.files) then Some(target) else None;
    match FirstPicture(folder.files, pictures, 0) {
      case Some(k) =>
        assert step.1 == withList[target := PictureOf(folder.files[k].path)];
        UpdateKeeps(step.1, meta, doc, target);
        assert AnyCover(folder.files);
      case None =>
        assert step.1 == withList;
        UpdateKeeps(withList, concat, Text(ElectronConcat(Paths(folder.files))), target);
        UpdateKeeps(step.1, meta, doc, target);
    }
  }
}

=== FILE: electron_metadata.dfy ===
/**
 * The metadata file of the Electron back end's `create-m4b` handler: the
 * header, then the tags the job fills in (in the fixed order title, artist,
 * album, date, genre, each only when non-empty), then one chapter block per
 * file, built by appending to a string while a running total of the
 * durations is carried along.
 */
module ElectronMetadata {
  import opened Text
  import opened FfMetadata
  import opened Job
  import opened Chapters

  function TagIf(key: string, value: string): seq<(string, string)> {
    if value != [] then [(key, value)] else []
  }

  /** The `date` tag keeps what comes before the first `-` of the year field, whatever its form. */
  function YearOnly(year: string): (r: string)
    ensures '-' !in r && |r| <= |year| && r == year[..|r|]
    ensures '-' !in year ==> r == year
  {
    BeforeFirst(year, '-')
  }

  /** The `date` tag, written whenever the year field is set. */
  function DateTag(year: string): seq<(string, string)> {
    if year != [] then [("date", YearOnly(year))] else []
  }

  /** The global tags, in the order the handler writes them; `author` is written as `artist`. */
  function ElectronGlobals(meta: BookMetadata): seq<(string, string)> {
    TagIf("title", meta.title) + TagIf("artist", meta.author) + TagIf("album", meta.album) +
    DateTag(meta.year) + TagIf("genre", meta.genre)
  }

  /** The whole file the handler writes for a job. */
  function ElectronMetadataDoc(meta: BookMetadata, files: seq<AudioItem>): Doc {
    Doc(ElectronGlobals(meta), ElectronChapters(files))
  }

  /** Appends `key=value` and a newline when `value` is non-empty. */
  method AppendTagIf(content: string, ghost globals: seq<(string, string)>, key: string, value: string)
    returns (r: string)
    requires content == LinesText([Header] + GlobalLines(globals))
    ensures r == LinesText([Header] + GlobalLines(globals + TagIf(key, value)))
  {
    if value != [] {
      AppendTag(globals, key, value);
      r := content + key + "=" + value + "\n";
    } else {
      assert globals + TagIf(key, value) == globals;
      r := content;
    }
  }

  /** Appends `date=` and the year up to its first `-` when the year is set. */
  method AppendDate(content: string, ghost globals: seq<(string, string)>, year: string) returns (r: string)
    requires content == LinesText([Header] + GlobalLines(globals))
    ensures r == LinesText([Header] + GlobalLines(globals + DateTag(year)))
  {
    if year != [] {
      var y := Split(year, '-')[0];
      assert DateTag(year) == [("date", y)];
      AppendTag(globals, "date", y);
      assert "date=" == "date" + "=";
      r := content + "date=" + y + "\n";
    } else {
      assert globals + DateTag(year) == globals;
      r := content;
    }
  }

  /** The header and the tags, appended one `if` at a time. */
  method WriteGlobals(meta: BookMetadata) returns (content: string)
    ensures content == HeadText(ElectronGlobals(meta))
  {
    content := ";FFMETADATA1\n";
    assert content == LinesText([Header] + GlobalLines([])) by {
      assert [Header] + GlobalLines([]) == [Header];
      assert [Header][1..] == [];
    }
    ghost var t1, t2, t3 := TagIf("title", meta.title), TagIf("artist", meta.author), TagIf("album", meta.album);
    ghost var t4, t5 := DateTag(meta.year), TagIf("genre", meta.genre);
    assert [] + t1 == t1;
    content := AppendTagIf(content, [], "title", meta.title);
    content := AppendTagIf(content, t1, "artist", meta.author);
    content := AppendTagIf(content, t1 + t2, "album", meta.album);
    content := AppendDate(content, t1 + t2 + t3, meta.year);
    content := AppendTagIf(content, t1 + t2 + t3 + t4, "genre", meta.genre);
    assert ElectronGlobals(meta) == t1 + t2 + t3 + t4 + t5;
  }

  /** The chapter of file `i`, given the running total of the durations before it. */
  lemma ChapterAtCursor(files: seq<AudioItem>, i: nat, cumulativeTime: real)
    requires i < |files| && cumulativeTime == Cum(Durations(files), i)
    ensures ElectronChapters(files)[i] == Chapter(FloorMillis(cumulativeTime),
      FloorMillis(cumulativeTime + files[i].duration),
      if files[i].chapterName != [] then files[i].chapterName else "Chapter " + NatToString(i + 1))
    ensures cumulativeTime + files[i].duration == Cum(Durations(files), i + 1)
  {
    assert ElectronChapters(files)[i] == ElectronChapter(files, i);
  }

  /** One turn of the chapter loop: the block of file `i`, then the running total moves past it. */
  method WriteChapter(head: string, content: string, files: seq<AudioItem>, i: nat, cumulativeTime: real)
    returns (content': string, cumulativeTime': real)
    requires i < |files|
    requires cumulativeTime == Cum(Durations(files), i)
    requires content == head + BlocksText(ElectronChapters(files), i)
    ensures cumulativeTime' == Cum(Durations(files), i + 1)
    ensures content' == head + BlocksText(ElectronChapters(files), i + 1)
  {
    var file := files[i];
    var chapterTitle := if file.chapterName != [] then file.chapterName else "Chapter " + NatToString(i + 1);
    var startMs, endMs := FloorMillis(cumulativeTime), FloorMillis(cumulativeTime + file.duration);
    ChapterAtCursor(files, i, cumulativeTime);
    ghost var cs := ElectronChapters(files);
    assert cs[i] == Chapter(startMs, endMs, chapterTitle);
    content' := AppendChapterBlock(content, startMs, endMs, chapterTitle);
    BlocksStep(head, cs, i, content, content');
    cumulativeTime' := cumulativeTime + file.duration;
  }

  /**
   * The chapter loop of `metadataContent`: per file a chapter from the
   * running total to the running total plus the file's duration, in
   * milliseconds rounded down, titled by `chapterName` or its number.
   */
  method AppendChapters(head: string, files: seq<AudioItem>) returns (content: string)
    ensures content == head + BlocksText(ElectronChapters(files), |files|)
  {
    content := head;
    var cumulativeTime: real := 0.0;
    var i := 0;
    while i < |files|
      invariant 0 <= i <= |files|
      invariant cumulativeTime == Cum(Durations(files), i)
      invariant content == head + BlocksText(ElectronChapters(files), i)
    {
      content, cumulativeTime := WriteChapter(head, content, files, i, cumulativeTime);
      i := i + 1;
    }
  }

  /** Builds `metadataContent`: the header and the tags, then the chapters. */
  method BuildMetadata(meta: BookMetadata, files: seq<AudioItem>) returns (content: string)
    ensures content == Render(ElectronMetadataDoc(meta, files))
  {
    var head := WriteGlobals(meta);
    content := AppendChapters(head, files);
    RenderIsText(ElectronMetadataDoc(meta, files));
  }

  lemma TagIfValue(key: string, value: string, k: string)
    ensures TagValue(TagIf(key, value), k) == if value != [] && key == k then Some(value) else None
  {
    if value != [] {
      assert TagIf(key, value)[1..] == [];
    }
  }

  /** Looking a key up in the tags: the last of the five places that has it. */
  lemma ElectronGlobalsLookup(meta: BookMetadata, key: string)
    ensures var t1, t2, t3, t4, t5 := TagIf("title", meta.title), TagIf("artist", meta.author), TagIf("album", meta.album),
      DateTag(meta.year), TagIf("genre", meta.genre);
      TagValue(ElectronGlobals(meta), key) ==
        if TagValue(t5, key).Some? then TagValue(t5, key)
        else if TagValue(t4, key).Some? then TagValue(t4, key)
        else if TagValue(t3, key).Some? then TagValue(t3, key)
        else if TagValue(t2, key).Some? then TagValue(t2, key)
        else TagValue(t1, key)
    ensures TagValue(DateTag(meta.year), key) == if meta.year != [] && key == "date" then Some(YearOnly(meta.year)) else None
  {
    var t1, t2, t3, t4, t5 := TagIf("title", meta.title), TagIf("artist", meta.author), TagIf("album", meta.album),
      DateTag(meta.year), TagIf("genre", meta.genre);
    TagValueAppend(t1 + t2 + t3 + t4, t5, key);
    TagValueAppend(t1 + t2 + t3, t4, key);
    TagValueAppend(t1 + t2, t3, key);
    TagValueAppend(t1, t2, key);
    if meta.year != [] {
      assert t4[1..] == [];
    }
  }

  /**
   * What the written file says for each tag: the field's value when it is
   * set (the year cut at its first `-`), nothing when it is empty, and
   * nothing for any other key.
   */
  lemma ElectronTagValues(meta: BookMetadata, k: string)
    ensures var g := ElectronGlobals(meta);
      TagValue(g, "title") == (if meta.title != [] then Some(meta.title) else None) &&
      TagValue(g, "artist") == (if meta.author != [] then Some(meta.author) else None) &&
      TagValue(g, "album") == (if meta.album != [] then Some(meta.album) else None) &&
      TagValue(g, "date") == (if meta.year != [] then Some(YearOnly(meta.year)) else None) &&
      TagValue(g, "genre") == (if meta.genre != [] then Some(meta.genre) else None) &&
      (k !in ["title", "artist", "album", "date", "genre"] ==> TagValue(g, k) == None)
  {
    TagKeysDistinct();
    ElectronGlobalsLookup(meta, "title");
    ElectronGlobalsLookup(meta, "artist");
    ElectronGlobalsLookup(meta, "album");
    ElectronGlobalsLookup(meta, "date");
    ElectronGlobalsLookup(meta, "genre");
    ElectronGlobalsLookup(meta, k);
    TagIfValue("title", meta.title, "title");
    TagIfValue("title", meta.title, "artist");
    TagIfValue("title", meta.title, "album");
    TagIfValue("title", meta.title, "date");
    TagIfValue("title", meta.title, "genre");
    TagIfValue("title", meta.title, k);
    TagIfValue("artist", meta.author, "title");
    TagIfValue("artist", meta.author, "artist");
    TagIfValue("artist", meta.author, "album");
    TagIfValue("artist", meta.author, "date");
    TagIfValue("artist", meta.author, "genre");
    TagIfValue("artist", meta.author, k);
    TagIfValue("album", meta.album, "title");
    TagIfValue("album", meta.album, "artist");
    TagIfValue("album", meta.album, "album");
    TagIfValue("album", meta.album, "date");
    TagIfValue("album", meta.album, "genre");
    TagIfValue("album", meta.album, k);
    TagIfValue("genre", meta.genre, "title");
    TagIfValue("genre", meta.genre, "artist");
    TagIfValue("genre", meta.genre, "album");
    TagIfValue("genre", meta.genre, "date");
    TagIfValue("genre", meta.genre, "genre");
    TagIfValue("genre", meta.genre, k);
  }

  /** A year written as a full date (`2023-05-01`) keeps only the part before its first `-`. */
  lemma YearOnlyOfDate(y: string, rest: string)
    requires '-' !in y
    ensures YearOnly(y + ['-'] + rest) == y
  {
    IndexOfAfter(y, '-', rest);
    assert (y + ['-'] + rest)[..|y|] == y;
  }

  /** Job fields the file can carry: no newline and no backslash in a tag value or a chapter name. */
  predicate Writable(meta: BookMetadata, files: seq<AudioItem>) {
    LineSafe(meta.title) && LineSafe(meta.author) && LineSafe(meta.album) &&
    LineSafe(meta.year) && LineSafe(meta.genre) &&
    forall i :: 0 <= i < |files| ==> LineSafe(files[i].chapterName)
  }

  lemma ChapterLabelPlain(k: nat)
    ensures LineSafe(ChapterLabel(k))
  {
    NatToStringPlain(k);
  }

  lemma TagIfWritable(key: string, value: string)
    requires '=' !in key && LineSafe(key) && LineSafe(value)
    ensures TagsWritable(TagIf(key, value))
  {
  }

  /** The year-only `date` value keeps the year field's freedom from newlines and backslashes. */
  lemma DateTagWritable(year: string)
    requires LineSafe(year)
    ensures TagsWritable(DateTag(year))
  {
    if year != [] {
      var y := YearOnly(year);
      assert LineSafe(y) by {
        assert forall k :: 0 <= k < |y| ==> y[k] == year[k];
      }
      assert DateTag(year) == [("date", y)];
    }
  }

  /** The keys the handler writes hold no `=`, newline or backslash. */
  lemma ElectronKeysSafe()
    ensures '=' !in "title" && LineSafe("title")
    ensures '=' !in "artist" && LineSafe("artist")
    ensures '=' !in "album" && LineSafe("album")
    ensures '=' !in "genre" && LineSafe("genre")
  {
  }

  /** The five tags the handler writes carry no newline, and their keys no `=`. */
  lemma ElectronGlobalsWritable(meta: BookMetadata)
    requires LineSafe(meta.title) && LineSafe(meta.author) && LineSafe(meta.album)
    requires LineSafe(meta.year) && LineSafe(meta.genre)
    ensures TagsWritable(ElectronGlobals(meta))
  {
    var t1, t2, t3 := TagIf("title", meta.title), TagIf("artist", meta.author), TagIf("album", meta.album);
    var t4, t5 := DateTag(meta.year), TagIf("genre", meta.genre);
    ElectronKeysSafe();
    TagIfWritable("title", meta.title);
    TagIfWritable("artist", meta.author);
    TagIfWritable("album", meta.album);
    DateTagWritable(meta.year);
    TagIfWritable("genre", meta.genre);
    FiveWritable(t1, t2, t3, t4, t5);
  }

  lemma FiveWritable(t1: seq<(string, string)>, t2: seq<(string, string)>, t3: seq<(string, string)>,
                     t4: seq<(string, string)>, t5: seq<(string, string)>)
    requires TagsWritable(t1) && TagsWritable(t2) && TagsWritable(t3) && TagsWritable(t4) && TagsWritable(t5)
    ensures TagsWritable(t1 + t2 + t3 + t4 + t5)
  {
    TagsWritableAppend(t1, t2);
    TagsWritableAppend(t1 + t2, t3);
    TagsWritableAppend(t1 + t2 + t3, t4);
    TagsWritableAppend(t1 + t2 + t3 + t4, t5);
  }

  /** Each chapter's title is its file's newline-free `chapterName` or a numbered label. */
  lemma ElectronTitlesWritable(files: seq<AudioItem>)
    requires forall i :: 0 <= i < |files| ==> LineSafe(files[i].chapterName)
    ensures TitlesWritable(ElectronChapters(files))
  {
    var cs := ElectronChapters(files);
    forall i | 0 <= i < |cs|
      ensures LineSafe(cs[i].title)
    {
      assert cs[i] == ElectronChapter(files, i);
      ChapterLabelPlain(i + 1);
    }
  }

  /** A job whose fields hold no newline and no backslash gives a file the transcoder can read unchanged. */
  lemma ElectronMetadataWellFormed(meta: BookMetadata, files: seq<AudioItem>)
    requires Writable(meta, files)
    ensures WellFormed(ElectronMetadataDoc(meta, files))
  {
    ElectronGlobalsWritable(meta);
    ElectronTitlesWritable(files);
  }

  /**
   * The file round-trips: the transcoder reads back exactly the tags and the
   * chapters the handler meant, one chapter per file, as long as no field
   * holds a newline or a backslash.
   */
  lemma ElectronMetadataReadsBack(meta: BookMetadata, files: seq<AudioItem>)
    requires Writable(meta, files)
    ensures Read(Render(ElectronMetadataDoc(meta, files))) == Some(ElectronMetadataDoc(meta, files))
    ensures CountLine(Lines(ElectronMetadataDoc(meta, files)), "[CHAPTER]") == |files|
  {
    ElectronMetadataWellFormed(meta, files);
    ReadRender(ElectronMetadataDoc(meta, files));
    MarkerCountIsChapterCount(ElectronMetadataDoc(meta, files));
  }
}

=== FILE: electron_scan.dfy ===
/**
 * The `get-audio-files` handler of the Electron back end: `scanDirectory`
 * pushes matching paths into one shared list while it walks the tree, and
 * the handler sorts that list before returning it.
 *
 * The walk is stated for any file-name test `accepts`; the handler uses
 * `IsAudioName`, the extension test of main.js.
 */
module ElectronScan {
  import opened Text
  import opened FileTree
  import opened PathOrder

  /**
   * The paths `scanDirectory(dir)` pushes, in push order, from the entry at
   * index `i` of a readable listing onwards. A `stat` that throws ends the
   * walk of that directory (the `catch` sits outside the loop); a directory
   * whose own `readdir` throws contributes nothing.
   */
  function ScanFrom(dir: string, listing: Listing, i: nat, recursive: bool, accepts: string -> bool): seq<string>
    requires listing.Readable? && i <= |listing.entries|
    decreases listing, |listing.entries| - i
  {
    if i == |listing.entries| || listing.entries[i].kind.StatFails? then []
    else Pushed(dir, listing.entries[i], recursive, accepts) + ScanFrom(dir, listing, i + 1, recursive, accepts)
  }

  /** What one entry whose `stat` succeeds adds to the list. */
  function Pushed(dir: string, e: Entry, recursive: bool, accepts: string -> bool): seq<string>
    decreases e
  {
    match e.kind
    case Directory(sub) => if recursive then Scanned(JoinPath(dir, e.name), sub, recursive, accepts) else []
    case RegularFile => if accepts(e.name) then [JoinPath(dir, e.name)] else []
    case _ => []
  }

  /** Everything `scanDirectory(dir)` pushes. */
  function Scanned(dir: string, listing: Listing, recursive: bool, accepts: string -> bool): seq<string>
    decreases listing, if listing.Readable? then |listing.entries| + 1 else 0
  {
    if listing.Unreadable? then [] else ScanFrom(dir, listing, 0, recursive, accepts)
  }

  /** The name at the end of a path. */
  function BaseName(path: string): string {
    AfterLast(path, PathSep)
  }

  /** Every path the scan pushes ends in a name the test accepts. */
  lemma {:induction false} ScanFromAccepted(dir: string, listing: Listing, i: nat, recursive: bool, accepts: string -> bool)
    requires listing.Readable? && i <= |listing.entries| && WellNamed(listing)
    ensures forall p :: p in ScanFrom(dir, listing, i, recursive, accepts) ==> accepts(BaseName(p))
    decreases listing, |listing.entries| - i
  {
    if i < |listing.entries| && !listing.entries[i].kind.StatFails? {
      ScanFromAccepted(dir, listing, i + 1, recursive, accepts);
      PushedAccepted(dir, listing.entries[i], recursive, accepts);
    }
  }

  lemma {:induction false} PushedAccepted(dir: string, e: Entry, recursive: bool, accepts: string -> bool)
    requires e.name != [] && PathSep !in e.name
    requires e.kind.Directory? ==> WellNamed(e.kind.contents)
    ensures forall p :: p in Pushed(dir, e, recursive, accepts) ==> accepts(BaseName(p))
    decreases e
  {
    match e.kind {
      case RegularFile =>
        LastNameOfJoin(dir, e.name);
      case Directory(sub) =>
        if recursive {
          ScannedAccepted(JoinPath(dir, e.name), sub, recursive, accepts);
        }
      case _ =>
    }
  }

  lemma {:induction false} ScannedAccepted(dir: string, listing: Listing, recursive: bool, accepts: string -> bool)
    requires WellNamed(listing)
    ensures forall p :: p in Scanned(dir, listing, recursive, accepts) ==> accepts(BaseName(p))
    decreases listing, if listing.Readable? then |listing.entries| + 1 else 0
  {
    if listing.Readable? {
      ScanFromAccepted(dir, listing, 0, recursive, accepts);
    }
  }

  /**
   * Without `recursive` the scan stays in the folder itself: every path is a
   * regular file listed directly in it whose name the test accepts.
   */
  lemma {:induction false} ShallowScanStaysInFolder(dir: string, listing: Listing, i: nat, accepts: string -> bool)
    requires listing.Readable? && i <= |listing.entries|
    ensures forall p :: p in ScanFrom(dir, listing, i, false, accepts) ==>
      exists k :: i <= k < |listing.entries| && listing.entries[k].kind == RegularFile
        && accepts(listing.entries[k].name) && p == JoinPath(dir, listing.entries[k].name)
    decreases |listing.entries| - i
  {
    if i < |listing.entries| {
      ShallowScanStaysInFolder(dir, listing, i + 1, accepts);
    }
  }

  /** Conversely, an accepted regular file listed before any failing `stat` is found. */
  lemma {:induction false} AcceptedFileFound(dir: string, listing: Listing, i: nat, k: nat, recursive: bool, accepts: string -> bool)
    requires listing.Readable? && i <= k < |listing.entries|
    requires listing.entries[k].kind == RegularFile && accepts(listing.entries[k].name)
    requires forall j :: i <= j < k ==> !listing.entries[j].kind.StatFails?
    ensures JoinPath(dir, listing.entries[k].name) in ScanFrom(dir, listing, i, recursive, accepts)
    decreases k - i
  {
    if i < k {
      AcceptedFileFound(dir, listing, i + 1, k, recursive, accepts);
    }
  }

  /** A `stat` that throws abandons the rest of its directory, and keeps what was pushed before it. */
  lemma {:induction false} StatFailureKeepsEarlier(dir: string, entries: seq<Entry>, k: nat, i: nat, recursive: bool, accepts: string -> bool)
    requires i <= k < |entries| && entries[k].kind == StatFails
    ensures ScanFrom(dir, Readable(entries), i, recursive, accepts) == ScanFrom(dir, Readable(entries[..k]), i, recursive, accepts)
    decreases k - i
  {
    if i < k {
      StatFailureKeepsEarlier(dir, entries, k, i + 1, recursive, accepts);
      assert entries[..k][i] == entries[i];
    }
  }

  /**
   * The shared list of the handler: `scanDirectory` appends to it, and the
   * handler sorts it in place once the walk is over.
   */
  class AudioFileScan {
    var files: seq<string>
    const recursive: bool
    const accepts: string -> bool

    constructor (recursive: bool, accepts: string -> bool)
      ensures files == [] && this.recursive == recursive && this.accepts == accepts
    {
      files := [];
      this.recursive := recursive;
      this.accepts := accepts;
    }

    /** `scanDirectory(dir)`: push every matching path below `dir`, keeping what is already there. */
    method ScanDirectory(dir: string, listing: Listing)
      modifies this
      ensures files == old(files) + Scanned(dir, listing, recursive, accepts)
      decreases listing
    {
      if listing.Unreadable? {
        return;
      }
      var entries := listing.entries;
      var i := 0;
      while i < |entries|
        invariant 0 <= i <= |entries|
        invariant old(files) + Scanned(dir, listing, recursive, accepts) == files + ScanFrom(dir, listing, i, recursive, accepts)
        decreases |entries| - i
      {
        var e := entries[i];
        match e.kind {
          case StatFails =>
            return;
          case Directory(sub) =>
            if recursive {
              ScanDirectory(JoinPath(dir, e.name), sub);
            }
          case RegularFile =>
            if accepts(e.name) {
              files := files + [JoinPath(dir, e.name)];
            }
          case Special =>
        }
        i := i + 1;
      }
    }

    /** `files.sort()`, which compares UTF-16 code units. */
    method SortFiles()
      modifies this
      ensures files == Sort(old(files), CodeUnit)
    {
      files := Sort(files, CodeUnit);
    }
  }

  /**
   * The `get-audio-files` handler: the matching paths under the folder,
   * sorted ascending by UTF-16 code units and otherwise exactly those the
   * walk found.
   */
  method GetAudioFiles(folderPath: string, listing: Listing, recursive: bool) returns (files: seq<string>)
    ensures Sorted(files, CodeUnit)
    ensures multiset(files) == multiset(Scanned(folderPath, listing, recursive, IsAudioName))
    ensures WellNamed(listing) ==> forall p :: p in files ==> IsAudioName(BaseName(p))
  {
    var scan := new AudioFileScan(recursive, IsAudioName);
    scan.ScanDirectory(folderPath, listing);
    scan.SortFiles();
    files := scan.files;
    if WellNamed(listing) {
      ScannedAccepted(folderPath, listing, recursive, IsAudioName);
      forall p | p in files ensures IsAudioName(BaseName(p)) {
        assert p in multiset(files);
      }
    }
  }
}

=== FILE: ffmetadata.dfy ===
/**
 * The metadata file handed to the transcoder as its second input: the
 * `;FFMETADATA1` header, one `key=value` line per global tag, then one
 * block per chapter holding an empty line, `[CHAPTER]`, `TIMEBASE=1/1000`,
 * `START=`, `END=` and `title=` lines. Every line ends in a newline.
 *
 * Both implementations write exactly this layout. `Read` states how the
 * transcoder takes the file apart again, and `ReadRender` proves that it
 * recovers the tags and chapters that were written.
 */
module FfMetadata {
  import opened Text

  datatype Chapter = Chapter(start: int, end: int, title: string)

  /** What one metadata file says: global tags in file order, then the chapters. */
  datatype Doc = Doc(globals: seq<(string, string)>, chapters: seq<Chapter>)

  const Header: string := ";FFMETADATA1"

  function TagLine(key: string, value: string): string {
    key + "=" + value
  }

  function GlobalLines(globals: seq<(string, string)>): (r: seq<string>)
    ensures |r| == |globals|
  {
    if globals == [] then [] else [TagLine(globals[0].0, globals[0].1)] + GlobalLines(globals[1..])
  }

  function ChapterLines(c: Chapter): seq<string> {
    ["", "[CHAPTER]", "TIMEBASE=1/1000", "START=" + IntToString(c.start), "END=" + IntToString(c.end), "title=" + c.title]
  }

  /** The chapter blocks, built from the end so that appending a chapter appends its lines. */
  function AllChapterLines(chapters: seq<Chapter>): (r: seq<string>)
    ensures |r| == 6 * |chapters|
  {
    if chapters == [] then []
    else AllChapterLines(chapters[..|chapters| - 1]) + ChapterLines(chapters[|chapters| - 1])
  }

  function Lines(doc: Doc): seq<string> {
    [Header] + GlobalLines(doc.globals) + AllChapterLines(doc.chapters)
  }

  /** Lines written one after the other, each followed by a newline. */
  function LinesText(lines: seq<string>): string {
    if lines == [] then [] else lines[0] + "\n" + LinesText(lines[1..])
  }

  function Render(doc: Doc): string {
    LinesText(Lines(doc))
  }

  lemma {:induction false} LinesTextAppend(a: seq<string>, b: seq<string>)
    ensures LinesText(a + b) == LinesText(a) + LinesText(b)
  {
    if a != [] {
      LinesTextAppend(a[1..], b);
      assert (a + b)[1..] == a[1..] + b;
    } else {
      assert a + b == b;
    }
  }

  lemma {:induction false} LinesTextIsJoin(lines: seq<string>)
    ensures LinesText(lines) == Join(lines + [""], '\n')
  {
    if lines != [] {
      LinesTextIsJoin(lines[1..]);
      assert (lines + [""])[1..] == lines[1..] + [""];
    }
  }

  /** Appending a chapter appends its block to the rendered text. */
  lemma RenderAppendChapter(globals: seq<(string, string)>, chapters: seq<Chapter>, c: Chapter)
    ensures Render(Doc(globals, chapters + [c])) == Render(Doc(globals, chapters)) + LinesText(ChapterLines(c))
  {
    assert (chapters + [c])[..|chapters|] == chapters;
    var before := [Header] + GlobalLines(globals) + AllChapterLines(chapters);
    assert Lines(Doc(globals, chapters + [c])) == before + ChapterLines(c);
    LinesTextAppend(before, ChapterLines(c));
  }

  /** The text of one chapter block, as both writers emit it piece by piece. */
  function BlockText(c: Chapter): string {
    "\n[CHAPTER]\n" + "TIMEBASE=1/1000\n" + ("START=" + IntToString(c.start)) + "\n" +
    ("END=" + IntToString(c.end)) + "\n" + ("title=" + c.title) + "\n"
  }

  /** The header and the tag lines, as the writers emit them before the first chapter. */
  function HeadText(globals: seq<(string, string)>): string {
    LinesText([Header] + GlobalLines(globals))
  }

  /** The blocks of the first `n` chapters, one after the other. */
  function BlocksText(chapters: seq<Chapter>, n: nat): string
    requires n <= |chapters|
  {
    if n == 0 then [] else BlocksText(chapters, n - 1) + BlockText(chapters[n - 1])
  }

  /** Writing the head and then every block, as the writers do, produces the rendered file. */
  lemma RenderIsText(doc: Doc)
    ensures Render(doc) == HeadText(doc.globals) + BlocksText(doc.chapters, |doc.chapters|)
  {
    RenderSplits(doc.globals, doc.chapters);
    BlocksTextIsLines(doc.chapters, |doc.chapters|);
    assert doc.chapters[..|doc.chapters|] == doc.chapters;
  }

  lemma {:induction false} BlocksTextIsLines(chapters: seq<Chapter>, n: nat)
    requires n <= |chapters|
    ensures BlocksText(chapters, n) == LinesText(AllChapterLines(chapters[..n]))
  {
    if n > 0 {
      var init, c := chapters[..n - 1], chapters[n - 1];
      BlocksTextIsLines(chapters, n - 1);
      var prefix := chapters[..n];
      assert prefix[..n - 1] == init && prefix[n - 1] == c && |prefix| == n;
      var a, b := AllChapterLines(init), ChapterLines(c);
      assert AllChapterLines(prefix) == a + b;
      LinesTextAppend(a, b);
      ChapterBlockText(c);
      assert BlocksText(chapters, n) == BlocksText(chapters, n - 1) + BlockText(c);
      assert LinesText(AllChapterLines(prefix)) == LinesText(a) + LinesText(b);
    } else {
      assert chapters[..n] == [];
      assert LinesText(AllChapterLines([])) == [];
    }
  }

  lemma ChapterBlockText(c: Chapter)
    ensures LinesText(ChapterLines(c)) == BlockText(c)
  {
    var l3, l4, l5 := "START=" + IntToString(c.start), "END=" + IntToString(c.end), "title=" + c.title;
    ChapterLinesNested(c);
    BlockLiterals(l3, l4, l5);
  }

  lemma ChapterLinesNested(c: Chapter)
    ensures var l3, l4, l5 := "START=" + IntToString(c.start), "END=" + IntToString(c.end), "title=" + c.title;
      LinesText(ChapterLines(c)) ==
      "" + "\n" + ("[CHAPTER]" + "\n" + ("TIMEBASE=1/1000" + "\n" + (l3 + "\n" + (l4 + "\n" + (l5 + "\n")))))
  {
    var l3, l4, l5 := "START=" + IntToString(c.start), "END=" + IntToString(c.end), "title=" + c.title;
    var t5 := LinesText([l5]);
    assert t5 == l5 + "\n" by { assert [l5][1..] == []; assert LinesText([l5][1..]) == []; }
    var t4 := LinesText([l4, l5]);
    assert t4 == l4 + "\n" + t5 by { assert [l4, l5][1..] == [l5]; }
    var t3 := LinesText([l3, l4, l5]);
    assert t3 == l3 + "\n" + t4 by { assert [l3, l4, l5][1..] == [l4, l5]; }
    var t2 := LinesText(["TIMEBASE=1/1000", l3, l4, l5]);
    assert t2 == "TIMEBASE=1/1000" + "\n" + t3 by { assert ["TIMEBASE=1/1000", l3, l4, l5][1..] == [l3, l4, l5]; }
    var t1 := LinesText(["[CHAPTER]", "TIMEBASE=1/1000", l3, l4, l5]);
    assert t1 == "[CHAPTER]" + "\n" + t2 by {
      assert ["[CHAPTER]", "TIMEBASE=1/1000", l3, l4, l5][1..] == ["TIMEBASE=1/1000", l3, l4, l5];
    }
    assert ChapterLines(c)[1..] == ["[CHAPTER]", "TIMEBASE=1/1000", l3, l4, l5];
  }

  lemma BlockLiterals(l3: string, l4: string, l5: string)
    ensures "" + "\n" + ("[CHAPTER]" + "\n" + ("TIMEBASE=1/1000" + "\n" + (l3 + "\n" + (l4 + "\n" + (l5 + "\n"))))) ==
      "\n[CHAPTER]\n" + "TIMEBASE=1/1000\n" + l3 + "\n" + l4 + "\n" + l5 + "\n"
  {
    assert "\n[CHAPTER]\n" == "" + "\n" + "[CHAPTER]" + "\n";
    assert "TIMEBASE=1/1000\n" == "TIMEBASE=1/1000" + "\n";
  }

  lemma {:induction false} GlobalLinesAppend(a: seq<(string, string)>, b: seq<(string, string)>)
    ensures GlobalLines(a + b) == GlobalLines(a) + GlobalLines(b)
  {
    if a != [] {
      GlobalLinesAppend(a[1..], b);
      assert (a + b)[1..] == a[1..] + b;
    } else {
      assert a + b == b;
    }
  }

  /** Writing one more tag line extends the header-and-tags text by that line. */
  lemma AppendTag(globals: seq<(string, string)>, key: string, value: string)
    ensures LinesText([Header] + GlobalLines(globals + [(key, value)])) ==
      LinesText([Header] + GlobalLines(globals)) + TagLine(key, value) + "\n"
  {
    GlobalLinesAppend(globals, [(key, value)]);
    assert [Header] + GlobalLines(globals + [(key, value)]) == ([Header] + GlobalLines(globals)) + [TagLine(key, value)];
    LinesTextAppend([Header] + GlobalLines(globals), [TagLine(key, value)]);
  }

  /** Prepending `[Header] + GlobalLines` keeps the text a prefix of the whole file. */
  lemma RenderSplits(globals: seq<(string, string)>, chapters: seq<Chapter>)
    ensures Render(Doc(globals, chapters)) ==
      LinesText([Header] + GlobalLines(globals)) + LinesText(AllChapterLines(chapters))
  {
    LinesTextAppend([Header] + GlobalLines(globals), AllChapterLines(chapters));
  }

  /** The five appends both writers make per chapter write its block. */
  method AppendChapterBlock(content: string, start: int, end: int, chapterTitle: string) returns (r: string)
    ensures r == content + BlockText(Chapter(start, end, chapterTitle))
  {
    r := content + "\n[CHAPTER]\n";
    r := r + "TIMEBASE=1/1000\n";
    r := r + "START=" + IntToString(start) + "\n";
    r := r + "END=" + IntToString(end) + "\n";
    r := r + "title=" + chapterTitle + "\n";
    AppendPieces(content, "\n[CHAPTER]\n", "TIMEBASE=1/1000\n", "START=", IntToString(start),
      "END=", IntToString(end), "title=", chapterTitle, "\n");
  }

  lemma AppendPieces(r: string, p1: string, p2: string, p3: string, p4: string, p5: string, p6: string, p7: string, p8: string, nl: string)
    ensures r + (p1 + p2 + (p3 + p4) + nl + (p5 + p6) + nl + (p7 + p8) + nl) == r + p1 + p2 + p3 + p4 + nl + p5 + p6 + nl + p7 + p8 + nl
  {
  }

  /** One more block after the first `i` extends the text to the first `i + 1`. */
  lemma BlocksStep(head: string, cs: seq<Chapter>, i: nat, before: string, after: string)
    requires i < |cs|
    requires before == head + BlocksText(cs, i)
    requires after == before + BlockText(cs[i])
    ensures after == head + BlocksText(cs, i + 1)
  {
    var x, y := BlocksText(cs, i), BlockText(cs[i]);
    assert BlocksText(cs, i + 1) == x + y;
    AppendAssoc(head, x, y);
  }

  // ---- Reading the file back ----

  /**
   * Where the first `c` that no backslash escapes stands, or -1. A backslash
   * makes the character after it literal, so the search steps over both.
   */
  function FirstUnescaped(s: string, c: char): (i: int)
    ensures -1 <= i < |s|
    ensures 0 <= i ==> s[i] == c
    decreases |s|
  {
    if s == [] then -1
    else if s[0] == c then 0
    else
      var skip := if s[0] == '\\' && |s| >= 2 then 2 else 1;
      var j := FirstUnescaped(s[skip..], c);
      if j < 0 then -1 else j + skip
  }

  /**
   * The transcoder's line reading: a line ends at a newline no backslash
   * escapes, so a backslash right before a newline joins the next line on.
   * The backslashes stay in the line; tags are unescaped when split.
   */
  function SplitLines(s: string): (parts: seq<string>)
    ensures |parts| >= 1
    decreases |s|
  {
    var i := FirstUnescaped(s, '\n');
    if i < 0 then [s] else [s[..i]] + SplitLines(s[i + 1..])
  }

  /** Drops every escaping backslash and keeps the character after it; a backslash that ends the text is dropped. */
  function Unescape(s: string): (r: string)
    ensures |r| <= |s|
  {
    if s == [] then []
    else if s[0] == '\\' then (if |s| >= 2 then [s[1]] + Unescape(s[2..]) else [])
    else [s[0]] + Unescape(s[1..])
  }

  /**
   * A tag line splits at its first `=` no backslash escapes, and the key
   * and the value are unescaped; a line without one sets no tag.
   */
  function ReadTag(line: string): Option<(string, string)> {
    var i := FirstUnescaped(line, '=');
    if i < 0 then None else Some((Unescape(line[..i]), Unescape(line[i + 1..])))
  }

  /** Global lines run up to the first empty line. */
  function ReadGlobals(lines: seq<string>): (r: (seq<(string, string)>, seq<string>))
    ensures |r.1| <= |lines|
  {
    if lines == [] || lines[0] == [] then ([], lines)
    else
      var rest := ReadGlobals(lines[1..]);
      match ReadTag(lines[0])
      case Some(tag) => ([tag] + rest.0, rest.1)
      case None => rest
  }

  function ReadChapters(lines: seq<string>): Option<seq<Chapter>> {
    if lines == [] then Some([])
    else if |lines| >= 6 && lines[0] == [] && lines[1] == "[CHAPTER]" && lines[2] == "TIMEBASE=1/1000"
      && |lines[3]| >= 6 && lines[3][..6] == "START=" && |lines[4]| >= 4 && lines[4][..4] == "END="
      && |lines[5]| >= 6 && lines[5][..6] == "title=" then
      match ReadChapters(lines[6..])
      case Some(rest) => Some([Chapter(ParseInt(lines[3][6..]), ParseInt(lines[4][4..]), Unescape(lines[5][6..]))] + rest)
      case None => None
    else None
  }

  /** The reading of the file's lines: the header, the tag lines, then the chapter blocks. */
  function ReadLines(lines: seq<string>): Option<Doc> {
    if lines == [] || lines[0] != Header then None
    else
      var (globals, rest) := ReadGlobals(lines[1..]);
      match ReadChapters(rest)
      case Some(chapters) => Some(Doc(globals, chapters))
      case None => None
  }

  /** The transcoder's reading of a metadata file: every line must end in a newline. */
  function Read(text: string): Option<Doc> {
    var parts := SplitLines(text);
    if parts[|parts| - 1] != [] then None else ReadLines(parts[..|parts| - 1])
  }

  /** Without backslashes, the first unescaped `c` is the first `c`. */
  lemma {:induction false} FirstUnescapedPlain(s: string, c: char)
    requires '\\' !in s
    ensures FirstUnescaped(s, c) == IndexOf(s, c)
    decreases |s|
  {
    if s != [] && s[0] != c {
      FirstUnescapedPlain(s[1..], c);
    }
  }

  /** Without backslashes, unescaping changes nothing. */
  lemma {:induction false} UnescapePlain(s: string)
    requires '\\' !in s
    ensures Unescape(s) == s
    decreases |s|
  {
    if s != [] {
      UnescapePlain(s[1..]);
      assert s == [s[0]] + s[1..];
    }
  }

  /** Without backslashes, the transcoder's lines are the text split at its newlines. */
  lemma {:induction false} SplitLinesPlain(s: string)
    requires '\\' !in s
    ensures SplitLines(s) == Split(s, '\n')
    decreases |s|
  {
    FirstUnescapedPlain(s, '\n');
    var i := IndexOf(s, '\n');
    if 0 <= i {
      var tail := s[i + 1..];
      assert '\\' !in tail by {
        assert forall k :: 0 <= k < |tail| ==> tail[k] == s[i + 1 + k];
      }
      SplitLinesPlain(tail);
      assert SplitLines(s) == [s[..i]] + SplitLines(tail);
      assert Split(s, '\n') == [s[..i]] + Split(tail, '\n');
    }
  }

  /** The value a reader takes for `key`: a later line for the same key replaces an earlier one. */
  function TagValue(globals: seq<(string, string)>, key: string): Option<string> {
    if globals == [] then None
    else
      match TagValue(globals[1..], key)
      case Some(v) => Some(v)
      case None => if globals[0].0 == key then Some(globals[0].1) else None
  }

  lemma {:induction false} TagValueAppend(a: seq<(string, string)>, b: seq<(string, string)>, key: string)
    ensures TagValue(a + b, key) == if TagValue(b, key).Some? then TagValue(b, key) else TagValue(a, key)
  {
    if a == [] {
      assert a + b == b;
    } else {
      TagValueAppend(a[1..], b, key);
      assert (a + b)[1..] == a[1..] + b;
    }
  }

  /**
   * Text a line carries unchanged when written without escaping: no
   * newline, which would end the line, and no backslash, which the
   * transcoder takes as an escape.
   */
  predicate LineSafe(s: string) {
    '\n' !in s && '\\' !in s
  }

  /** Tags the file can carry unchanged: plain keys and values, no `=` in a key. */
  predicate TagsWritable(globals: seq<(string, string)>) {
    forall i :: 0 <= i < |globals| ==> '=' !in globals[i].0 && LineSafe(globals[i].0) && LineSafe(globals[i].1)
  }

  /** Chapter titles the file can carry unchanged: plain ones. */
  predicate TitlesWritable(chapters: seq<Chapter>) {
    forall i :: 0 <= i < |chapters| ==> LineSafe(chapters[i].title)
  }

  predicate WellFormed(doc: Doc) {
    TagsWritable(doc.globals) && TitlesWritable(doc.chapters)
  }

  lemma TagsWritableAppend(a: seq<(string, string)>, b: seq<(string, string)>)
    requires TagsWritable(a) && TagsWritable(b)
    ensures TagsWritable(a + b)
  {
    forall i | 0 <= i < |a + b|
      ensures '=' !in (a + b)[i].0 && LineSafe((a + b)[i].0) && LineSafe((a + b)[i].1)
    {
      if i < |a| { assert (a + b)[i] == a[i]; } else { assert (a + b)[i] == b[i - |a|]; }
    }
  }

  /** Decimal numbers are plain. */
  lemma NatToStringPlain(n: nat)
    ensures LineSafe(NatToString(n))
  {
  }

  lemma IntToStringPlain(n: int)
    ensures LineSafe(IntToString(n))
  {
    if n < 0 {
      NatToStringPlain(-n);
      assert IntToString(n) == "-" + NatToString(-n);
    } else {
      NatToStringPlain(n);
    }
  }

  /** A tag line reads back as its key and value, since the key holds no `=` and neither holds a backslash. */
  lemma ReadTagLine(k: string, v: string)
    requires '=' !in k && '\\' !in k && '\\' !in v
    ensures ReadTag(TagLine(k, v)) == Some((k, v))
  {
    PlainKeyTag(k, v);
    UnescapePlain(v);
  }

  lemma {:induction false} ReadGlobalLines(globals: seq<(string, string)>, tail: seq<string>)
    requires forall i :: 0 <= i < |globals| ==> '=' !in globals[i].0 && '\\' !in globals[i].0 && '\\' !in globals[i].1
    requires tail == [] || tail[0] == []
    ensures ReadGlobals(GlobalLines(globals) + tail) == (globals, tail)
  {
    if globals != [] {
      var g, rest := globals[0], globals[1..];
      var line := TagLine(g.0, g.1);
      var after := GlobalLines(rest);
      assert GlobalLines(globals) == [line] + after;
      AppendAssoc([line], after, tail);
      var ls := [line] + (after + tail);
      assert ls[0] == line && ls[1..] == after + tail;
      assert line[|g.0|] == '=';
      ReadGlobalLines(rest, tail);
      ReadTagLine(g.0, g.1);
      assert ReadGlobals(ls) == ([g] + rest, tail);
      assert globals == [g] + rest;
    } else {
      assert GlobalLines(globals) + tail == tail;
    }
  }

  /** One block at the front reads back as its chapter, followed by whatever the rest reads as. */
  lemma ReadOneBlock(c: Chapter, tail: seq<string>)
    requires '\\' !in c.title
    ensures ReadChapters(ChapterLines(c) + tail) ==
      match ReadChapters(tail)
      case Some(rest) => Some([c] + rest)
      case None => None
  {
    var ls := ChapterLines(c) + tail;
    var s, e := IntToString(c.start), IntToString(c.end);
    assert |ls| >= 6 && ls[6..] == tail;
    assert ls[0] == [] && ls[1] == "[CHAPTER]" && ls[2] == "TIMEBASE=1/1000";
    assert ls[3] == "START=" + s && ls[4] == "END=" + e && ls[5] == "title=" + c.title;
    assert ls[3][..6] == "START=" && ls[3][6..] == s;
    assert ls[4][..4] == "END=" && ls[4][4..] == e;
    assert ls[5][..6] == "title=" && ls[5][6..] == c.title;
    UnescapePlain(c.title);
    IntToStringRoundTrip(c.start);
    IntToStringRoundTrip(c.end);
  }

  lemma {:induction false} ReadChapterLines(chapters: seq<Chapter>)
    requires forall i :: 0 <= i < |chapters| ==> '\\' !in chapters[i].title
    ensures ReadChapters(AllChapterLines(chapters)) == Some(chapters)
    decreases |chapters|
  {
    if chapters != [] {
      var c, rest := chapters[0], chapters[1..];
      assert chapters == [c] + rest;
      AllChapterLinesCons(c, rest);
      ReadChapterLines(rest);
      ReadOneBlock(c, AllChapterLines(rest));
    } else {
      assert AllChapterLines(chapters) == [];
    }
  }

  lemma AllChapterLinesSnoc(chapters: seq<Chapter>)
    requires chapters != []
    ensures AllChapterLines(chapters) == AllChapterLines(chapters[..|chapters| - 1]) + ChapterLines(chapters[|chapters| - 1])
  {
  }

  lemma {:induction false} AllChapterLinesCons(c: Chapter, rest: seq<Chapter>)
    ensures AllChapterLines([c] + rest) == ChapterLines(c) + AllChapterLines(rest)
    decreases |rest|
  {
    if rest != [] {
      var init, last := rest[..|rest| - 1], rest[|rest| - 1];
      assert ([c] + rest)[..|rest|] == [c] + init;
      assert ([c] + rest)[|rest|] == last;
      var a, b, d := ChapterLines(c), AllChapterLines(init), ChapterLines(last);
      AllChapterLinesSnoc([c] + rest);
      AllChapterLinesSnoc(rest);
      AllChapterLinesCons(c, init);
      AppendAssoc(a, b, d);
    } else {
      assert [c] + rest == [c];
    }
  }

  lemma {:induction false} LinesPlain(doc: Doc)
    requires WellFormed(doc)
    ensures forall k :: 0 <= k < |Lines(doc)| ==> LineSafe(Lines(doc)[k])
  {
    GlobalLinesPlain(doc.globals);
    ChapterLinesPlain(doc.chapters);
  }

  lemma {:induction false} GlobalLinesPlain(globals: seq<(string, string)>)
    requires forall i :: 0 <= i < |globals| ==> LineSafe(globals[i].0) && LineSafe(globals[i].1)
    ensures forall k :: 0 <= k < |GlobalLines(globals)| ==> LineSafe(GlobalLines(globals)[k])
  {
    if globals != [] {
      GlobalLinesPlain(globals[1..]);
      var ls := GlobalLines(globals);
      forall k | 0 <= k < |ls| ensures LineSafe(ls[k]) {
        if k > 0 { assert ls[k] == GlobalLines(globals[1..])[k - 1]; }
      }
    }
  }

  lemma BlockPlain(c: Chapter)
    requires LineSafe(c.title)
    ensures forall k :: 0 <= k < |ChapterLines(c)| ==> LineSafe(ChapterLines(c)[k])
  {
    IntToStringPlain(c.start);
    IntToStringPlain(c.end);
    var ls := ChapterLines(c);
    assert ls[3] == "START=" + IntToString(c.start);
    assert ls[4] == "END=" + IntToString(c.end);
    assert ls[5] == "title=" + c.title;
  }

  lemma {:induction false} ChapterLinesPlain(chapters: seq<Chapter>)
    requires forall i :: 0 <= i < |chapters| ==> LineSafe(chapters[i].title)
    ensures forall k :: 0 <= k < |AllChapterLines(chapters)| ==> LineSafe(AllChapterLines(chapters)[k])
  {
    if chapters != [] {
      var init := chapters[..|chapters| - 1];
      var c := chapters[|chapters| - 1];
      ChapterLinesPlain(init);
      BlockPlain(c);
      var a, b := AllChapterLines(init), ChapterLines(c);
      var ls := AllChapterLines(chapters);
      assert ls == a + b;
      forall k | 0 <= k < |ls| ensures LineSafe(ls[k]) {
        if k < |a| {
          assert ls[k] == a[k];
        } else {
          assert ls[k] == b[k - |a|];
        }
      }
    }
  }

  /** Lines without backslashes give a text without backslashes. */
  lemma {:induction false} LinesTextNoBackslash(lines: seq<string>)
    requires forall k :: 0 <= k < |lines| ==> '\\' !in lines[k]
    ensures '\\' !in LinesText(lines)
  {
    if lines != [] {
      LinesTextNoBackslash(lines[1..]);
    }
  }

  /**
   * Reading a rendered file gives back the same tags, in the same order,
   * and the same chapters, as long as no key, value or title holds a
   * newline or a backslash and no key holds `=`.
   */
  lemma ReadRender(doc: Doc)
    requires WellFormed(doc)
    ensures Read(Render(doc)) == Some(doc)
  {
    SplitRender(doc);
    LinesPlain(doc);
    LinesTextNoBackslash(Lines(doc));
    SplitLinesPlain(Render(doc));
    var parts := SplitLines(Render(doc));
    assert parts[..|parts| - 1] == Lines(doc);
    ReadDocLines(doc);
  }

  lemma {:induction false} ChapterLinesStartEmpty(chapters: seq<Chapter>)
    ensures AllChapterLines(chapters) == [] || AllChapterLines(chapters)[0] == []
  {
    if chapters != [] {
      var init := chapters[..|chapters| - 1];
      ChapterLinesStartEmpty(init);
      if init == [] {
        assert AllChapterLines(chapters)[0] == ChapterLines(chapters[|chapters| - 1])[0];
      } else {
        assert AllChapterLines(chapters)[0] == AllChapterLines(init)[0];
      }
    }
  }

  lemma DropHeader(globalLines: seq<string>, chapterLines: seq<string>)
    ensures ([Header] + globalLines + chapterLines)[1..] == globalLines + chapterLines
  {
  }

  lemma ReadDocLines(doc: Doc)
    requires WellFormed(doc)
    ensures ReadLines(Lines(doc)) == Some(doc)
  {
    var chapterLines := AllChapterLines(doc.chapters);
    ChapterLinesStartEmpty(doc.chapters);
    DropHeader(GlobalLines(doc.globals), chapterLines);
    ReadGlobalLines(doc.globals, chapterLines);
    ReadChapterLines(doc.chapters);
  }

  /** Splitting a rendered file at its newlines gives its lines and the empty rest after the last newline. */
  lemma SplitRender(doc: Doc)
    requires WellFormed(doc)
    ensures Split(Render(doc), '\n') == Lines(doc) + [""]
  {
    var lines := Lines(doc);
    LinesPlain(doc);
    LinesTextIsJoin(lines);
    forall k | 0 <= k < |lines + [""]| ensures '\n' !in (lines + [""])[k] {
      if k < |lines| { assert (lines + [""])[k] == lines[k]; }
    }
    SplitJoin(lines + [""], '\n');
  }

  // ---- Backslashes in written text ----

  /** A prefix with neither a backslash nor `c` only shifts where the first unescaped `c` stands. */
  lemma {:induction false} PlainPrefix(p: string, c: char, rest: string)
    requires '\\' !in p && c !in p
    ensures FirstUnescaped(p + rest, c) ==
      var j := FirstUnescaped(rest, c); if j < 0 then -1 else |p| + j
    decreases |p|
  {
    if p != [] {
      PlainPrefix(p[1..], c, rest);
      assert (p + rest)[1..] == p[1..] + rest;
    } else {
      assert p + rest == rest;
    }
  }

  /**
   * Neither writer escapes anything, so a value reads back unescaped: the
   * backslashes it holds are lost.
   */
  lemma PlainKeyTag(k: string, v: string)
    requires '=' !in k && '\\' !in k
    ensures ReadTag(TagLine(k, v)) == Some((k, Unescape(v)))
  {
    var line := TagLine(k, v);
    assert line == k + ("=" + v) by {
      AppendAssoc(k, "=", v);
    }
    PlainPrefix(k, '=', "=" + v);
    assert FirstUnescaped(line, '=') == |k|;
    assert line[..|k|] == k && line[|k| + 1..] == v;
    UnescapePlain(k);
  }

  /** The title `AC\DC`, written as it is, reads back as `ACDC`. */
  lemma BackslashDropped()
    ensures ReadTag(TagLine("title", "AC\\DC")) == Some(("title", "ACDC"))
  {
    PlainKeyTag("title", "AC\\DC");
    assert Unescape("C") == "C" by { assert "C"[1..] == []; }
    assert Unescape("\\DC") == "DC" by { assert "\\DC"[2..] == "C"; }
    assert Unescape("C\\DC") == "CDC" by { assert "C\\DC"[1..] == "\\DC"; }
    assert Unescape("AC\\DC") == "ACDC" by { assert "AC\\DC"[1..] == "C\\DC"; }
  }

  /**
   * A value ending in a backslash escapes the newline after it, so the
   * next line joins the tag instead of being read on its own.
   */
  lemma EscapedNewlineJoins(a: string, b: string)
    requires '\\' !in a && '\n' !in a && '\\' !in b && '\n' !in b
    ensures SplitLines(a + "\\\n" + b + "\n") == [a + "\\\n" + b, ""]
  {
    var tail := b + "\n";
    assert FirstUnescaped(tail, '\n') == |b| by {
      PlainPrefix(b, '\n', "\n");
    }
    var joined := "\\\n" + tail;
    assert FirstUnescaped(joined, '\n') == 2 + |b| by {
      assert joined[0] == '\\' && joined[2..] == tail;
    }
    PlainPrefix(a, '\n', joined);
    var line := a + "\\\n" + b;
    assert line + "\n" == a + joined by {
      AppendAssoc(a + "\\\n", b, "\n");
      AppendAssoc(a, "\\\n", tail);
    }
    LineThenNewline(line);
  }

  /** The characters the transcoder's own metadata writer escapes. */
  predicate Special(c: char) {
    c == '=' || c == ';' || c == '#' || c == '\\' || c == '\n'
  }

  /** Escaping as the transcoder's own writer does: a backslash before every special character. */
  function Escape(s: string): (r: string)
    ensures |r| >= |s|
  {
    if s == [] then [] else (if Special(s[0]) then ['\\', s[0]] else [s[0]]) + Escape(s[1..])
  }

  /** Unescaping undoes escaping, whatever the text holds. */
  lemma {:induction false} UnescapeEscaped(s: string)
    ensures Unescape(Escape(s)) == s
    decreases |s|
  {
    if s != [] {
      UnescapeEscaped(s[1..]);
      var e := Escape(s);
      if Special(s[0]) {
        assert e[0] == '\\' && e[1] == s[0] && e[2..] == Escape(s[1..]);
      } else {
        assert e[0] == s[0] && e[1..] == Escape(s[1..]);
      }
      assert s == [s[0]] + s[1..];
    }
  }

  /** An escaped text hides every special character from the search for an unescaped one. */
  lemma {:induction false} EscapedHidesSpecials(s: string, c: char, rest: string)
    requires Special(c) && c != '\\'
    ensures FirstUnescaped(Escape(s) + rest, c) ==
      var j := FirstUnescaped(rest, c); if j < 0 then -1 else |Escape(s)| + j
    decreases |s|
  {
    if s != [] {
      EscapedHidesSpecials(s[1..], c, rest);
      var head: string := if Special(s[0]) then ['\\', s[0]] else [s[0]];
      var tail := Escape(s[1..]) + rest;
      assert Escape(s) + rest == head + tail by {
        AppendAssoc(head, Escape(s[1..]), rest);
      }
      assert (head + tail)[|head|..] == tail;
    } else {
      assert Escape(s) + rest == rest;
    }
  }

  /** With its key and value escaped, a tag line reads back as the tag, whatever either holds. */
  lemma EscapedTagReadsBack(k: string, v: string)
    ensures ReadTag(TagLine(Escape(k), Escape(v))) == Some((k, v))
  {
    var ek, ev := Escape(k), Escape(v);
    var line := TagLine(ek, ev);
    assert line == ek + ("=" + ev) by {
      AppendAssoc(ek, "=", ev);
    }
    EscapedHidesSpecials(k, '=', "=" + ev);
    assert FirstUnescaped(line, '=') == |ek|;
    assert line[..|ek|] == ek && line[|ek| + 1..] == ev;
    UnescapeEscaped(k);
    UnescapeEscaped(v);
  }

  /** An escaped tag line stays one line of the file, whatever its key and value hold. */
  lemma EscapedTagOneLine(k: string, v: string)
    ensures SplitLines(TagLine(Escape(k), Escape(v)) + "\n") == [TagLine(Escape(k), Escape(v)), ""]
  {
    var ek, ev := Escape(k), Escape(v);
    assert FirstUnescaped(ev + "\n", '\n') == |ev| by {
      EscapedHidesSpecials(v, '\n', "\n");
      assert FirstUnescaped("\n", '\n') == 0;
    }
    EscapedHidesSpecials(k, '\n', "=" + (ev + "\n"));
    TagLineOneLine(ek, ev);
  }

  /** A tag line is one line when neither its key nor its value holds an unescaped newline. */
  lemma TagLineOneLine(key: string, value: string)
    requires FirstUnescaped(value + "\n", '\n') == |value|
    requires FirstUnescaped(key + ("=" + (value + "\n")), '\n') ==
      var j := FirstUnescaped("=" + (value + "\n"), '\n'); if j < 0 then -1 else |key| + j
    ensures SplitLines(TagLine(key, value) + "\n") == [TagLine(key, value), ""]
  {
    var tail := value + "\n";
    assert FirstUnescaped("=" + tail, '\n') == 1 + |value| by {
      PlainPrefix("=", '\n', tail);
    }
    var line := TagLine(key, value);
    assert line + "\n" == key + ("=" + tail) by {
      AppendAssoc(key + "=", value, "\n");
      AppendAssoc(key, "=", tail);
    }
    LineThenNewline(line);
  }

  /** A text whose first unescaped newline is its last character is one line. */
  lemma LineThenNewline(line: string)
    requires FirstUnescaped(line + "\n", '\n') == |line|
    ensures SplitLines(line + "\n") == [line, ""]
  {
    var text := line + "\n";
    assert text[..|line|] == line && text[|line| + 1..] == [];
    assert SplitLines([]) == [[]];
  }

  /** The number of `[CHAPTER]` lines in a rendered file is the number of chapters. */
  function CountLine(lines: seq<string>, target: string): nat {
    if lines == [] then 0 else (if lines[0] == target then 1 else 0) + CountLine(lines[1..], target)
  }

  lemma {:induction false} CountLineAppend(a: seq<string>, b: seq<string>, target: string)
    ensures CountLine(a + b, target) == CountLine(a, target) + CountLine(b, target)
  {
    if a != [] {
      CountLineAppend(a[1..], b, target);
      assert (a + b)[1..] == a[1..] + b;
    } else {
      assert a + b == b;
    }
  }

  lemma {:induction false} GlobalLinesHaveNoMarker(globals: seq<(string, string)>)
    ensures CountLine(GlobalLines(globals), "[CHAPTER]") == 0
  {
    if globals != [] {
      GlobalLinesHaveNoMarker(globals[1..]);
      var line := TagLine(globals[0].0, globals[0].1);
      assert line[|globals[0].0|] == '=';
      assert '=' !in "[CHAPTER]";
      assert GlobalLines(globals)[1..] == GlobalLines(globals[1..]);
    }
  }

  /** A chapter block holds exactly one `[CHAPTER]` line. */
  lemma OneMarkerPerBlock(c: Chapter)
    ensures CountLine(ChapterLines(c), "[CHAPTER]") == 1
  {
    var ls := ChapterLines(c);
    var m := "[CHAPTER]";
    assert ls[5..][1..] == [];
    assert ls[5][0] == 't';
    assert CountLine(ls[5..], m) == 0;
    assert ls[4..][1..] == ls[5..];
    assert ls[4][0] == 'E';
    assert CountLine(ls[4..], m) == 0;
    assert ls[3..][1..] == ls[4..];
    assert ls[3][0] == 'S';
    assert CountLine(ls[3..], m) == 0;
    assert ls[2..][1..] == ls[3..];
    assert CountLine(ls[2..], m) == 0;
    assert ls[1..][1..] == ls[2..];
    assert CountLine(ls[1..], m) == 1;
  }

  lemma {:induction false} ChapterMarkerCount(chapters: seq<Chapter>)
    ensures CountLine(AllChapterLines(chapters), "[CHAPTER]") == |chapters|
  {
    if chapters != [] {
      var init := chapters[..|chapters| - 1];
      var c := chapters[|chapters| - 1];
      ChapterMarkerCount(init);
      CountLineAppend(AllChapterLines(init), ChapterLines(c), "[CHAPTER]");
      OneMarkerPerBlock(c);
    }
  }

  /** One `[CHAPTER]` line per chapter, and none among the header and the tags. */
  lemma MarkerCountIsChapterCount(doc: Doc)
    ensures CountLine(Lines(doc), "[CHAPTER]") == |doc.chapters|
  {
    CountLineAppend([Header] + GlobalLines(doc.globals), AllChapterLines(doc.chapters), "[CHAPTER]");
    CountLineAppend([Header], GlobalLines(doc.globals), "[CHAPTER]");
    GlobalLinesHaveNoMarker(doc.globals);
    ChapterMarkerCount(doc.chapters);
  }
}

=== FILE: ffmpeg_command.dfy ===
/**
 * The transcoder invocation both implementations compose: the concat list
 * and the metadata file as inputs, the cover image as a third input when
 * one exists, the stream mapping and codecs, the audiobook tags and the
 * MP4 container options, then `-y` and the output path.
 *
 * The Python tool passes it as an argument vector, one token per element.
 * The Electron back end writes it as one shell string; `ShellCommand`
 * renders that string and proves it splits into this same vector when no
 * path holds a double quote. Every option here takes exactly one value except
 * `-y`, so the vector is a list of option/value pairs between the program
 * name and `-y <output>`; `Decode` reads a vector back that way. The
 * options are named by `Opt`, and `Flag` gives each one's spelling.
 */
module FfmpegCommand {
  import opened Text

  /** What the command is built from; `cover` is the cover file when it exists. */
  datatype Invocation = Invocation(
    concatFile: string,
    metadataFile: string,
    cover: Option<string>,
    copyAudio: bool,
    outputPath: string)

  /** The options the command uses. */
  datatype Opt =
    | Format | Safe | Input | Map | MapMetadata | Codec | AudioCodecOpt | AudioBitrateOpt | VideoCodec
    | Disposition | Metadata | Brand | MovFlags

  function Flag(o: Opt): string {
    match o
    case Format => "-f"
    case Safe => "-safe"
    case Input => "-i"
    case Map => "-map"
    case MapMetadata => "-map_metadata"
    case Codec => "-c"
    case AudioCodecOpt => "-c:a"
    case AudioBitrateOpt => "-b:a"
    case VideoCodec => "-c:v"
    case Disposition => "-disposition:v:0"
    case Metadata => "-metadata"
    case Brand => "-brand"
    case MovFlags => "-movflags"
  }

  /** Options with their values, in command order. */
  datatype Options = Done | Then(opt: Opt, value: string, rest: Options)

  function Append(a: Options, b: Options): Options {
    match a
    case Done => b
    case Then(o, v, rest) => Then(o, v, Append(rest, b))
  }

  // ---- The command ----

  /** The input format: a concat list, with any path allowed in it. */
  const HeadOptions: Options := Then(Format, "concat", Then(Safe, "0", Done))

  /** The concat list, the metadata file, and the cover when there is one. */
  function InputOptions(concatFile: string, metadataFile: string, cover: Option<string>): Options {
    Then(Input, concatFile, Then(Input, metadataFile,
      match cover
      case Some(c) => Then(Input, c, Done)
      case None => Done))
  }

  /**
   * Stream mapping and codecs. With a cover: `-map 0:a -map 2:v`, the tags
   * from input 1, the codecs and the attached picture; without one: the
   * tags from input 1 and the codecs.
   */
  function MappingOptions(cover: bool, copyAudio: bool): Options {
    if cover then CoverOptions(copyAudio) else PlainOptions(copyAudio)
  }

  /** With a cover the picture stream is always copied; the audio is copied or encoded to AAC at 128 kbit/s. */
  function CoverOptions(copyAudio: bool): Options {
    Then(Map, "0:a", Then(Map, "2:v", Then(MapMetadata, "1",
      if copyAudio then
        Then(AudioCodecOpt, "copy", Then(VideoCodec, "copy", Then(Disposition, "attached_pic", Done)))
      else
        Then(AudioCodecOpt, "aac", Then(AudioBitrateOpt, "128k", Then(VideoCodec, "copy",
          Then(Disposition, "attached_pic", Done)))))))
  }

  function PlainOptions(copyAudio: bool): Options {
    Then(MapMetadata, "1",
      if copyAudio then Then(Codec, "copy", Done)
      else Then(AudioCodecOpt, "aac", Then(AudioBitrateOpt, "128k", Done)))
  }

  /** The audiobook tags and the container: media type 2, track 1, brand `M4A `, MP4 with the index first. */
  const TailOptions: Options :=
    Then(Metadata, "media_type=2", Then(Metadata, "track=1", Then(Brand, "M4A ", Then(Format, "mp4",
      Then(MovFlags, "+faststart", Done)))))

  /** The options in command order. */
  function CommandOptions(inv: Invocation): Options {
    Append(HeadOptions, Append(InputOptions(inv.concatFile, inv.metadataFile, inv.cover),
      Append(MappingOptions(inv.cover.Some?, inv.copyAudio), TailOptions)))
  }

  function Flatten(ps: Options): seq<string> {
    match ps
    case Done => []
    case Then(o, v, rest) => [Flag(o), v] + Flatten(rest)
  }

  /** The argument vector. */
  function Arguments(inv: Invocation): seq<string> {
    ["ffmpeg"] + Flatten(CommandOptions(inv)) + ["-y", inv.outputPath]
  }

  // ---- Reading a vector back ----

  /** The option a token names, if it names one of them. */
  function ParseFlag(token: string): (r: Option<Opt>)
    ensures r.Some? ==> Flag(r.value) == token
  {
    if token == "-f" then Some(Format)
    else if token == "-safe" then Some(Safe)
    else if token == "-i" then Some(Input)
    else if token == "-map" then Some(Map)
    else if token == "-map_metadata" then Some(MapMetadata)
    else if token == "-c" then Some(Codec)
    else if token == "-c:a" then Some(AudioCodecOpt)
    else if token == "-b:a" then Some(AudioBitrateOpt)
    else if token == "-c:v" then Some(VideoCodec)
    else if token == "-disposition:v:0" then Some(Disposition)
    else if token == "-metadata" then Some(Metadata)
    else if token == "-brand" then Some(Brand)
    else if token == "-movflags" then Some(MovFlags)
    else None
  }

  /** Every option is read back from its spelling: no two options are spelled alike. */
  lemma ParseFlagOf(o: Opt)
    ensures ParseFlag(Flag(o)) == Some(o)
  {
    var f := Flag(o);
    match o
    case Format =>
    case Safe => assert f[1] == 's';
    case Input => assert f[1] == 'i';
    case Map => assert |f| == 4 && f[1] == 'm';
    case MapMetadata => assert |f| == 13 && f[1] == 'm';
    case Codec => assert |f| == 2 && f[1] == 'c';
    case AudioCodecOpt => assert |f| == 4 && f[1] == 'c' && f[3] == 'a';
    case AudioBitrateOpt => assert |f| == 4 && f[1] == 'b';
    case VideoCodec => assert |f| == 4 && f[1] == 'c' && f[3] == 'v';
    case Disposition => assert |f| == 16;
    case Metadata => assert |f| == 9 && f[1] == 'm';
    case Brand => assert |f| == 6 && f[1] == 'b';
    case MovFlags => assert |f| == 9 && f[1] == 'm' && f[2] == 'o';
  }

  /** Option/value pairs up to a final `-y <output>`. */
  function ReadOptions(tokens: seq<string>): Option<(Options, string)>
    decreases |tokens|
  {
    if |tokens| == 2 && tokens[0] == "-y" then Some((Done, tokens[1]))
    else if |tokens| >= 2 then
      match ParseFlag(tokens[0])
      case Some(o) =>
        (match ReadOptions(tokens[2..])
         case Some((ps, out)) => Some((Then(o, tokens[1], ps), out))
         case None => None)
      case None => None
    else None
  }

  /** The values of every `key` option, in order. */
  function Values(ps: Options, key: Opt): seq<string> {
    match ps
    case Done => []
    case Then(o, v, rest) => if o == key then [v] + Values(rest, key) else Values(rest, key)
  }

  /** What a command asks for: its inputs, whether it copies the audio, and its output. */
  function Decode(tokens: seq<string>): Option<Invocation> {
    if |tokens| >= 1 && tokens[0] == "ffmpeg" then
      match ReadOptions(tokens[1..])
      case Some((ps, out)) =>
        var inputs := Values(ps, Input);
        if 2 <= |inputs| <= 3 then
          Some(Invocation(inputs[0], inputs[1], if |inputs| == 3 then Some(inputs[2]) else None,
            "copy" in Values(ps, Codec) + Values(ps, AudioCodecOpt), out))
        else None
      case None => None
    else None
  }

  lemma {:induction false} FlattenAppend(a: Options, b: Options)
    ensures Flatten(Append(a, b)) == Flatten(a) + Flatten(b)
  {
    match a
    case Done =>
    case Then(o, v, rest) =>
      FlattenAppend(rest, b);
      AppendAssoc([Flag(o), v], Flatten(rest), Flatten(b));
  }

  lemma {:induction false} ValuesAppend(a: Options, b: Options, key: Opt)
    ensures Values(Append(a, b), key) == Values(a, key) + Values(b, key)
  {
    match a
    case Done =>
    case Then(o, v, rest) =>
      ValuesAppend(rest, b, key);
      if o == key {
        AppendAssoc([v], Values(rest, key), Values(b, key));
      }
  }

  /** Any options read back unchanged, followed by the output. */
  lemma {:induction false} ReadOptionsFlatten(ps: Options, out: string)
    ensures ReadOptions(Flatten(ps) + ["-y", out]) == Some((ps, out))
  {
    match ps
    case Done =>
      assert Flatten(ps) + ["-y", out] == ["-y", out];
    case Then(o, v, rest) =>
      ReadOptionsFlatten(rest, out);
      var tail := Flatten(rest) + ["-y", out];
      AppendAssoc([Flag(o), v], Flatten(rest), ["-y", out]);
      var t := [Flag(o), v] + tail;
      assert |t| >= 4 && t[0] == Flag(o) && t[1] == v && t[2..] == tail;
      ParseFlagOf(o);
  }

  // ---- What each option is given ----

  /**
   * The reference table of a command: for each option, the values the
   * command gives it, in order.
   */
  function OptionTable(inv: Invocation, key: Opt): seq<string> {
    match key
    case Format => ["concat", "mp4"]
    case Safe => ["0"]
    case Input => [inv.concatFile, inv.metadataFile] + (if inv.cover.Some? then [inv.cover.value] else [])
    case Metadata => ["media_type=2", "track=1"]
    case Brand => ["M4A "]
    case MovFlags => ["+faststart"]
    case _ => MappingTable(inv.cover.Some?, inv.copyAudio, key)
  }

  /**
   * The mapping and codec options: with a cover the audio of input 0 and
   * the picture of input 2 are mapped, the picture is copied and marked as
   * attached; the audio is copied, or encoded to AAC at 128 kbit/s; copying
   * everything at once (`-c copy`) is asked for only without a cover. The
   * tags always come from input 1.
   */
  function MappingTable(cover: bool, copyAudio: bool, key: Opt): seq<string> {
    match key
    case Map => if cover then ["0:a", "2:v"] else []
    case MapMetadata => ["1"]
    case AudioCodecOpt => if !copyAudio then ["aac"] else if cover then ["copy"] else []
    case AudioBitrateOpt => if copyAudio then [] else ["128k"]
    case VideoCodec => if cover then ["copy"] else []
    case Codec => if !cover && copyAudio then ["copy"] else []
    case Disposition => if cover then ["attached_pic"] else []
    case _ => []
  }

  lemma CoverCopyValues()
    ensures Values(CoverOptions(true), Map) == ["0:a", "2:v"] && Values(CoverOptions(true), MapMetadata) == ["1"]
    ensures Values(CoverOptions(true), Codec) == [] && Values(CoverOptions(true), AudioCodecOpt) == ["copy"]
    ensures Values(CoverOptions(true), AudioBitrateOpt) == [] && Values(CoverOptions(true), VideoCodec) == ["copy"]
    ensures Values(CoverOptions(true), Disposition) == ["attached_pic"]
  {
  }

  lemma CoverCopyElsewhere()
    ensures Values(CoverOptions(true), Format) == [] && Values(CoverOptions(true), Safe) == []
    ensures Values(CoverOptions(true), Input) == [] && Values(CoverOptions(true), Metadata) == []
    ensures Values(CoverOptions(true), Brand) == [] && Values(CoverOptions(true), MovFlags) == []
  {
  }

  lemma CoverEncodeValues()
    ensures Values(CoverOptions(false), Map) == ["0:a", "2:v"] && Values(CoverOptions(false), MapMetadata) == ["1"]
    ensures Values(CoverOptions(false), Codec) == [] && Values(CoverOptions(false), AudioCodecOpt) == ["aac"]
    ensures Values(CoverOptions(false), AudioBitrateOpt) == ["128k"] && Values(CoverOptions(false), VideoCodec) == ["copy"]
    ensures Values(CoverOptions(false), Disposition) == ["attached_pic"]
  {
  }

  lemma CoverEncodeElsewhere()
    ensures Values(CoverOptions(false), Format) == [] && Values(CoverOptions(false), Safe) == []
    ensures Values(CoverOptions(false), Input) == [] && Values(CoverOptions(false), Metadata) == []
    ensures Values(CoverOptions(false), Brand) == [] && Values(CoverOptions(false), MovFlags) == []
  {
  }

  lemma PlainCopyValues()
    ensures Values(PlainOptions(true), Map) == [] && Values(PlainOptions(true), MapMetadata) == ["1"]
    ensures Values(PlainOptions(true), Codec) == ["copy"] && Values(PlainOptions(true), AudioCodecOpt) == []
    ensures Values(PlainOptions(true), AudioBitrateOpt) == [] && Values(PlainOptions(true), VideoCodec) == []
    ensures Values(PlainOptions(true), Disposition) == []
  {
  }

  lemma PlainCopyElsewhere()
    ensures Values(PlainOptions(true), Format) == [] && Values(PlainOptions(true), Safe) == []
    ensures Values(PlainOptions(true), Input) == [] && Values(PlainOptions(true), Metadata) == []
    ensures Values(PlainOptions(true), Brand) == [] && Values(PlainOptions(true), MovFlags) == []
  {
  }

  lemma PlainEncodeValues()
    ensures Values(PlainOptions(false), Map) == [] && Values(PlainOptions(false), MapMetadata) == ["1"]
    ensures Values(PlainOptions(false), Codec) == [] && Values(PlainOptions(false), AudioCodecOpt) == ["aac"]
    ensures Values(PlainOptions(false), AudioBitrateOpt) == ["128k"] && Values(PlainOptions(false), VideoCodec) == []
    ensures Values(PlainOptions(false), Disposition) == []
  {
  }

  lemma PlainEncodeElsewhere()
    ensures Values(PlainOptions(false), Format) == [] && Values(PlainOptions(false), Safe) == []
    ensures Values(PlainOptions(false), Input) == [] && Values(PlainOptions(false), Metadata) == []
    ensures Values(PlainOptions(false), Brand) == [] && Values(PlainOptions(false), MovFlags) == []
  {
  }

  /** The mapping options agree with the table. */
  lemma MappingValues(cover: bool, copyAudio: bool, key: Opt)
    ensures Values(MappingOptions(cover, copyAudio), key) == MappingTable(cover, copyAudio, key)
  {
    if cover && copyAudio {
      CoverCopyValues();
      CoverCopyElsewhere();
    } else if cover {
      CoverEncodeValues();
      CoverEncodeElsewhere();
    } else if copyAudio {
      PlainCopyValues();
      PlainCopyElsewhere();
    } else {
      PlainEncodeValues();
      PlainEncodeElsewhere();
    }
  }

  /** The head and the tail give values to the container options only. */
  lemma FixedValues(key: Opt)
    ensures Values(HeadOptions, key) + Values(TailOptions, key) ==
      match key
      case Format => ["concat", "mp4"]
      case Safe => ["0"]
      case Metadata => ["media_type=2", "track=1"]
      case Brand => ["M4A "]
      case MovFlags => ["+faststart"]
      case _ => []
  {
    match key
    case Format => assert ["concat"] + ["mp4"] == ["concat", "mp4"];
    case Safe =>
    case Metadata =>
    case Brand =>
    case MovFlags =>
    case _ =>
  }

  /** The inputs give values to `-i` only. */
  lemma InputValues(inv: Invocation, key: Opt)
    ensures Values(InputOptions(inv.concatFile, inv.metadataFile, inv.cover), key) ==
      if key == Input then [inv.concatFile, inv.metadataFile] + (if inv.cover.Some? then [inv.cover.value] else [])
      else []
  {
    var rest := match inv.cover case Some(c) => Then(Input, c, Done) case None => Done;
    assert Values(rest, key) == if key == Input && inv.cover.Some? then [inv.cover.value] else [];
  }

  /** A command's values for an option, part by part. */
  lemma CommandParts(inv: Invocation, key: Opt)
    ensures Values(CommandOptions(inv), key) ==
      Values(HeadOptions, key) + (Values(InputOptions(inv.concatFile, inv.metadataFile, inv.cover), key) +
      (Values(MappingOptions(inv.cover.Some?, inv.copyAudio), key) + Values(TailOptions, key)))
  {
    var inputs := InputOptions(inv.concatFile, inv.metadataFile, inv.cover);
    var mapping := MappingOptions(inv.cover.Some?, inv.copyAudio);
    ValuesAppend(mapping, TailOptions, key);
    ValuesAppend(inputs, Append(mapping, TailOptions), key);
    ValuesAppend(HeadOptions, Append(inputs, Append(mapping, TailOptions)), key);
  }

  /** Every option of a command has the values the table gives it. */
  lemma CommandValues(inv: Invocation, key: Opt)
    ensures Values(CommandOptions(inv), key) == OptionTable(inv, key)
  {
    CommandParts(inv, key);
    if key == Input {
      InputRow(inv);
    } else if key == Format || key == Safe || key == Metadata || key == Brand || key == MovFlags {
      ContainerRow(inv, key);
    } else {
      MappingRow(inv, key);
    }
  }

  lemma InputRow(inv: Invocation)
    ensures Values(CommandOptions(inv), Input) == OptionTable(inv, Input)
  {
    CommandParts(inv, Input);
    InputValues(inv, Input);
    MappingValues(inv.cover.Some?, inv.copyAudio, Input);
    FixedValues(Input);
  }

  /** The container options take their values from the head and the tail only. */
  lemma ContainerParts(inv: Invocation, key: Opt)
    requires key == Format || key == Safe || key == Metadata || key == Brand || key == MovFlags
    ensures Values(CommandOptions(inv), key) == Values(HeadOptions, key) + Values(TailOptions, key)
  {
    var h, t := Values(HeadOptions, key), Values(TailOptions, key);
    CommandParts(inv, key);
    InputValues(inv, key);
    MappingValues(inv.cover.Some?, inv.copyAudio, key);
    assert h + ([] + ([] + t)) == h + t;
  }

  lemma ContainerRow(inv: Invocation, key: Opt)
    requires key == Format || key == Safe || key == Metadata || key == Brand || key == MovFlags
    ensures Values(CommandOptions(inv), key) == OptionTable(inv, key)
  {
    ContainerParts(inv, key);
    FixedValues(key);
  }

  lemma MappingRow(inv: Invocation, key: Opt)
    requires key != Input && key != Format && key != Safe && key != Metadata && key != Brand && key != MovFlags
    ensures Values(CommandOptions(inv), key) == OptionTable(inv, key)
  {
    var m := Values(MappingOptions(inv.cover.Some?, inv.copyAudio), key);
    CommandParts(inv, key);
    InputValues(inv, key);
    MappingValues(inv.cover.Some?, inv.copyAudio, key);
    FixedValues(key);
    assert [] + ([] + (m + [])) == m;
  }

  /** The inputs of a command: the concat list, the metadata file, and the cover when there is one. */
  lemma CommandInputs(inv: Invocation)
    ensures Values(CommandOptions(inv), Input) ==
      [inv.concatFile, inv.metadataFile] + (if inv.cover.Some? then [inv.cover.value] else [])
  {
    CommandValues(inv, Input);
  }

  /**
   * The cover becomes the video stream only when there is one: the audio of
   * input 0 and the picture of input 2 are mapped and the picture is marked
   * as attached. The tags and chapters always come from input 1.
   */
  lemma CoverStreams(inv: Invocation)
    ensures Values(CommandOptions(inv), Map) == if inv.cover.Some? then ["0:a", "2:v"] else []
    ensures Values(CommandOptions(inv), Disposition) == if inv.cover.Some? then ["attached_pic"] else []
    ensures Values(CommandOptions(inv), MapMetadata) == ["1"]
  {
    CommandValues(inv, Map);
    CommandValues(inv, Disposition);
    CommandValues(inv, MapMetadata);
  }

  /** Unless the audio is copied it is encoded to AAC at 128 kbit/s. */
  lemma AudioCodec(inv: Invocation)
    ensures Values(CommandOptions(inv), AudioCodecOpt) ==
      if !inv.copyAudio then ["aac"] else if inv.cover.Some? then ["copy"] else []
    ensures Values(CommandOptions(inv), AudioBitrateOpt) == if inv.copyAudio then [] else ["128k"]
  {
    CommandValues(inv, AudioCodecOpt);
    CommandValues(inv, AudioBitrateOpt);
  }

  /** A cover picture is always copied; without one, copying is asked for all streams at once. */
  lemma StreamCopy(inv: Invocation)
    ensures Values(CommandOptions(inv), VideoCodec) == if inv.cover.Some? then ["copy"] else []
    ensures Values(CommandOptions(inv), Codec) == if inv.cover.None? && inv.copyAudio then ["copy"] else []
  {
    CommandValues(inv, VideoCodec);
    CommandValues(inv, Codec);
  }

  /** A command asks for `copy` as the (audio) codec exactly when the audio is copied. */
  lemma CommandCopies(inv: Invocation)
    ensures ("copy" in Values(CommandOptions(inv), Codec) + Values(CommandOptions(inv), AudioCodecOpt)) == inv.copyAudio
  {
    StreamCopy(inv);
    AudioCodec(inv);
    if !inv.copyAudio {
      assert Values(CommandOptions(inv), Codec) + Values(CommandOptions(inv), AudioCodecOpt) == ["aac"];
    }
  }

  /**
   * Whatever the job, the inputs are read as a concat list with unsafe
   * paths allowed, the output is tagged as an audiobook (media type 2,
   * track 1), branded `M4A ` with the trailing space, written as MP4 with
   * the index at the front, and overwritten if it exists.
   */
  lemma ContainerOptions(inv: Invocation)
    ensures Values(CommandOptions(inv), Format) == ["concat", "mp4"]
    ensures Values(CommandOptions(inv), Safe) == ["0"]
    ensures Values(CommandOptions(inv), Metadata) == ["media_type=2", "track=1"]
    ensures Values(CommandOptions(inv), Brand) == ["M4A "]
    ensures Values(CommandOptions(inv), MovFlags) == ["+faststart"]
    ensures var args := Arguments(inv); args[0] == "ffmpeg" && args[|args| - 2..] == ["-y", inv.outputPath]
  {
    CommandValues(inv, Format);
    CommandValues(inv, Safe);
    CommandValues(inv, Metadata);
    CommandValues(inv, Brand);
    CommandValues(inv, MovFlags);
  }

  lemma DecodeFrom(tokens: seq<string>, ps: Options, inv: Invocation)
    requires |tokens| >= 1 && tokens[0] == "ffmpeg"
    requires ReadOptions(tokens[1..]) == Some((ps, inv.outputPath))
    requires Values(ps, Input) == [inv.concatFile, inv.metadataFile] + (if inv.cover.Some? then [inv.cover.value] else [])
    requires ("copy" in Values(ps, Codec) + Values(ps, AudioCodecOpt)) == inv.copyAudio
    ensures Decode(tokens) == Some(inv)
  {
  }

  /**
   * Reading a command back gives what it was built from: the concat list,
   * the metadata file, the cover exactly when one was given, whether the
   * audio is copied, and the output path.
   */
  lemma DecodeArguments(inv: Invocation)
    ensures Decode(Arguments(inv)) == Some(inv)
  {
    var ps := CommandOptions(inv);
    ReadOptionsFlatten(ps, inv.outputPath);
    assert Arguments(inv)[1..] == Flatten(ps) + ["-y", inv.outputPath];
    CommandInputs(inv);
    CommandCopies(inv);
    DecodeFrom(Arguments(inv), ps, inv);
  }

  // ---- The vector token by token ----

  /** The cover input and the mapping part as the tokens both implementations append. */
  function MappingTokens(cover: Option<string>, copyAudio: bool): seq<string> {
    match cover
    case Some(c) =>
      ["-i", c, "-map", "0:a", "-map", "2:v", "-map_metadata", "1"] +
      (if copyAudio then ["-c:a", "copy", "-c:v", "copy"] else ["-c:a", "aac", "-b:a", "128k", "-c:v", "copy"]) +
      ["-disposition:v:0", "attached_pic"]
    case None =>
      ["-map_metadata", "1"] + (if copyAudio then ["-c", "copy"] else ["-c:a", "aac", "-b:a", "128k"])
  }

  lemma CoverTokens(copyAudio: bool)
    ensures Flatten(CoverOptions(copyAudio)) ==
      ["-map", "0:a", "-map", "2:v", "-map_metadata", "1"] +
      (if copyAudio then ["-c:a", "copy", "-c:v", "copy"] else ["-c:a", "aac", "-b:a", "128k", "-c:v", "copy"]) +
      ["-disposition:v:0", "attached_pic"]
  {
    if copyAudio {
      assert Flatten(CoverOptions(true)) ==
        ["-map", "0:a", "-map", "2:v", "-map_metadata", "1", "-c:a", "copy", "-c:v", "copy", "-disposition:v:0", "attached_pic"];
    } else {
      assert Flatten(CoverOptions(false)) ==
        ["-map", "0:a", "-map", "2:v", "-map_metadata", "1", "-c:a", "aac", "-b:a", "128k", "-c:v", "copy",
         "-disposition:v:0", "attached_pic"];
    }
  }

  lemma PlainTokens(copyAudio: bool)
    ensures Flatten(PlainOptions(copyAudio)) ==
      ["-map_metadata", "1"] + (if copyAudio then ["-c", "copy"] else ["-c:a", "aac", "-b:a", "128k"])
  {
    if copyAudio {
      assert Flatten(PlainOptions(true)) == ["-map_metadata", "1", "-c", "copy"];
    } else {
      assert Flatten(PlainOptions(false)) == ["-map_metadata", "1", "-c:a", "aac", "-b:a", "128k"];
    }
  }

  lemma InputFlatten(c: string, m: string, cover: Option<string>)
    ensures Flatten(InputOptions(c, m, cover)) ==
      ["-i", c, "-i", m] + (match cover case Some(p) => ["-i", p] case None => [])
  {
    var last := match cover case Some(p) => Then(Input, p, Done) case None => Done;
    var lastTokens := match cover case Some(p) => ["-i", p] case None => [];
    assert Flatten(last) == lastTokens;
    assert Flatten(InputOptions(c, m, cover)) == ["-i", c] + (["-i", m] + lastTokens);
  }

  lemma InputTokens(inv: Invocation)
    ensures Flatten(InputOptions(inv.concatFile, inv.metadataFile, inv.cover)) +
      Flatten(MappingOptions(inv.cover.Some?, inv.copyAudio)) ==
      ["-i", inv.concatFile, "-i", inv.metadataFile] + MappingTokens(inv.cover, inv.copyAudio)
  {
    InputFlatten(inv.concatFile, inv.metadataFile, inv.cover);
    if inv.cover.Some? {
      CoverTokens(inv.copyAudio);
    } else {
      PlainTokens(inv.copyAudio);
    }
  }

  lemma FixedTokens()
    ensures Flatten(HeadOptions) == ["-f", "concat", "-safe", "0"]
    ensures Flatten(TailOptions) ==
      ["-metadata", "media_type=2", "-metadata", "track=1", "-brand", "M4A ", "-f", "mp4", "-movflags", "+faststart"]
  {
  }

  /** The vector token by token: the inputs, the mapping part, the fixed tail and the output. */
  lemma ArgumentsTokens(inv: Invocation)
    ensures Arguments(inv) ==
      ["ffmpeg", "-f", "concat", "-safe", "0", "-i", inv.concatFile, "-i", inv.metadataFile] +
      MappingTokens(inv.cover, inv.copyAudio) +
      ["-metadata", "media_type=2", "-metadata", "track=1", "-brand", "M4A ", "-f", "mp4", "-movflags", "+faststart", "-y", inv.outputPath]
  {
    var inputs := InputOptions(inv.concatFile, inv.metadataFile, inv.cover);
    var mapping := MappingOptions(inv.cover.Some?, inv.copyAudio);
    FlattenAppend(mapping, TailOptions);
    FlattenAppend(inputs, Append(mapping, TailOptions));
    FlattenAppend(HeadOptions, Append(inputs, Append(mapping, TailOptions)));
    InputTokens(inv);
    FixedTokens();
    var h, i, p, t := Flatten(HeadOptions), Flatten(inputs), Flatten(mapping), Flatten(TailOptions);
    AppendAssoc(i, p, t);
    Regroup(["ffmpeg"], h, ["-i", inv.concatFile, "-i", inv.metadataFile], MappingTokens(inv.cover, inv.copyAudio), t,
      ["-y", inv.outputPath]);
  }

  /**
   * The vector as both implementations build it, group by group: the
   * inputs, the cover input and mapping or the plain mapping, the codecs,
   * the audiobook tags, the container options and the output.
   */
  method BuildArguments(inv: Invocation) returns (cmd: seq<string>)
    ensures cmd == Arguments(inv)
  {
    cmd := ["ffmpeg", "-f", "concat", "-safe", "0", "-i", inv.concatFile, "-i", inv.metadataFile];
    ghost var head := cmd;
    if inv.cover.Some? {
      cmd := cmd + ["-i", inv.cover.value, "-map", "0:a", "-map", "2:v", "-map_metadata", "1"];
      if inv.copyAudio {
        cmd := cmd + ["-c:a", "copy", "-c:v", "copy"];
      } else {
        cmd := cmd + ["-c:a", "aac", "-b:a", "128k", "-c:v", "copy"];
      }
      cmd := cmd + ["-disposition:v:0", "attached_pic"];
    } else {
      cmd := cmd + ["-map_metadata", "1"];
      if inv.copyAudio {
        cmd := cmd + ["-c", "copy"];
      } else {
        cmd := cmd + ["-c:a", "aac", "-b:a", "128k"];
      }
    }
    assert cmd == head + MappingTokens(inv.cover, inv.copyAudio);
    cmd := cmd + ["-metadata", "media_type=2", "-metadata", "track=1"];
    cmd := cmd + ["-brand", "M4A ", "-f", "mp4", "-movflags", "+faststart", "-y", inv.outputPath];
    ArgumentsTokens(inv);
  }

  lemma Regroup<T>(a: seq<T>, b: seq<T>, x: seq<T>, m: seq<T>, t: seq<T>, f: seq<T>)
    ensures a + (b + (x + m + t)) + f == (a + b + x) + m + (t + f)
  {
  }
}

=== FILE: fs.dfy ===
/**
 * The directory tree both scanners walk, given as a value instead of being
 * read from disk, and the audio-extension test they share.
 */
module FileTree {
  import opened Text

  /** What `stat` says about a directory entry, or that it throws. */
  datatype Kind =
    | RegularFile
    | Directory(contents: Listing)
    | Special      // a socket, device or pipe: neither a regular file nor a directory
    | StatFails

  datatype Entry = Entry(name: string, kind: Kind)

  /** A directory as `readdir`/`listdir` sees it: its entries in listing order, or an error. */
  datatype Listing = Readable(entries: seq<Entry>) | Unreadable

  /** The separator `path.join` / `os.path.join` put between a directory and a name. */
  const PathSep: char := '\\'

  function JoinPath(dir: string, name: string): string {
    dir + [PathSep] + name
  }

  /** Entry names as the operating system returns them: never empty, never holding a separator. */
  predicate WellNamed(listing: Listing)
    decreases listing
  {
    listing.Readable? ==>
      forall i :: 0 <= i < |listing.entries| ==>
        var e := listing.entries[i];
        e.name != [] && PathSep !in e.name &&
        (e.kind.Directory? ==> WellNamed(e.kind.contents))
  }

  /** The eight extensions both implementations accept. */
  const AudioExtensions: set<string> := {".mp3", ".m4a", ".m4b", ".aac", ".ogg", ".flac", ".wav", ".wma"}

  /**
   * `Path(name).suffix`: from the last dot to the end, provided the dot is
   * neither the first nor the last character. `path.extname` agrees with it
   * on every name whose extension can be one of the eight above.
   */
  function Suffix(name: string): (r: string)
    ensures r == [] || (r[0] == '.' && |r| >= 2 && |r| < |name| && r == name[|name| - |r|..])
  {
    if '.' !in name then []
    else
      var ext := AfterLast(name, '.');
      if |ext| >= 1 && |name| - |ext| - 1 > 0 then
        assert name[|name| - |ext| - 1..] == "." + ext;
        "." + ext
      else []
  }

  predicate IsAudioName(name: string) {
    ToLower(Suffix(name)) in AudioExtensions
  }

  /** The name at the end of a joined path is the name that was joined. */
  lemma LastNameOfJoin(dir: string, name: string)
    requires PathSep !in name
    ensures AfterLast(JoinPath(dir, name), PathSep) == name
  {
    var p := JoinPath(dir, name);
    var r := AfterLast(p, PathSep);
    assert p[|p| - |name|..] == name;
    assert p[|p| - |name| - 1] == PathSep;
    assert p[|p| - |r| - 1] == PathSep;
    assert forall j :: 0 <= j < |name| ==> p[|p| - |name| + j] == name[j];
    assert forall j :: 0 <= j < |r| ==> p[|p| - |r| + j] == r[j];
    assert |r| == |name|;
  }
}

=== FILE: job.dfy ===
/**
 * The job record the web UI keeps per folder and hands to the Electron
 * back end's `create-m4b` handler. An optional string field the UI leaves
 * `undefined` is the empty string here: every reader tests it for
 * truthiness, and the two are alike under that test.
 */
module Job {

  /** One chapter of a job: a file of the folder and what the UI knows about it. */
  datatype AudioItem = AudioItem(
    path: string,
    filename: string,
    duration: real,
    customName: string,
    hasCover: bool,
    chapterName: string,
    title: string)

  datatype BookMetadata = BookMetadata(title: string, author: string, album: string, year: string, genre: string)

  datatype Folder = Folder(
    id: string,
    path: string,
    name: string,
    files: seq<AudioItem>,
    metadata: BookMetadata,
    coverArt: string,
    outputPath: string)

  function Durations(files: seq<AudioItem>): (r: seq<real>)
    ensures |r| == |files|
    ensures forall i :: 0 <= i < |files| ==> r[i] == files[i].duration
  {
    seq(|files|, i requires 0 <= i < |files| => files[i].duration)
  }

  function Paths(files: seq<AudioItem>): (r: seq<string>)
    ensures |r| == |files|
    ensures forall i :: 0 <= i < |files| ==> r[i] == files[i].path
  {
    seq(|files|, i requires 0 <= i < |files| => files[i].path)
  }

  /** The five tag keys both implementations write are distinct. */
  lemma TagKeysDistinct()
    ensures "title" != "artist" && "title" != "album" && "title" != "date" && "title" != "genre"
    ensures "artist" != "album" && "artist" != "date" && "artist" != "genre"
    ensures "album" != "date" && "album" != "genre" && "date" != "genre"
  {
    assert "title"[0] == 't' && "artist"[0] == 'a' && "album"[0] == 'a' && "date"[0] == 'd' && "genre"[0] == 'g';
    assert "artist"[1] == 'r' && "album"[1] == 'l';
  }

}

=== FILE: order.dfy ===
/**
 * The order in which both scanners return paths. `sorted(file_paths)`
 * compares strings code point by code point; `files.sort()` compares the
 * UTF-16 code units of their encodings. Both put a proper prefix first.
 * The sort itself is an insertion sort proved to return the one sorted
 * permutation of its input under either collation.
 */
module PathOrder {

  /** Python's comparison by code point, or JavaScript's by UTF-16 code unit. */
  datatype Collation = CodePoint | CodeUnit

  /**
   * The rank of a character under a collation. In UTF-16 a character above
   * U+FFFF starts with a lead surrogate 0xD800..0xDBFF, so it comes after
   * U+0000..U+D7FF and before U+E000..U+FFFF; those last are lifted above
   * every code point.
   */
  function Rank(c: char, o: Collation): int {
    if o.CodeUnit? && 0xE000 <= c as int < 0x1_0000 then c as int + 0x11_0000 else c as int
  }

  lemma RankInjective(c: char, d: char, o: Collation)
    requires c != d
    ensures Rank(c, o) != Rank(d, o)
  {
  }

  /** Lexicographic comparison, character by character. */
  predicate LessEq(a: string, b: string, o: Collation) {
    a == [] || (b != [] && (Rank(a[0], o) < Rank(b[0], o) || (a[0] == b[0] && LessEq(a[1..], b[1..], o))))
  }

  lemma {:induction false} LessEqReflexive(a: string, o: Collation)
    ensures LessEq(a, a, o)
  {
    if a != [] {
      LessEqReflexive(a[1..], o);
    }
  }

  lemma {:induction false} LessEqTotal(a: string, b: string, o: Collation)
    ensures LessEq(a, b, o) || LessEq(b, a, o)
  {
    if a != [] && b != [] {
      if a[0] == b[0] {
        LessEqTotal(a[1..], b[1..], o);
      } else {
        RankInjective(a[0], b[0], o);
      }
    }
  }

  lemma {:induction false} LessEqTransitive(a: string, b: string, c: string, o: Collation)
    requires LessEq(a, b, o) && LessEq(b, c, o)
    ensures LessEq(a, c, o)
  {
    if a != [] && b != [] && c != [] && a[0] == b[0] && b[0] == c[0] {
      LessEqTransitive(a[1..], b[1..], c[1..], o);
    }
  }

  lemma {:induction false} LessEqAntisymmetric(a: string, b: string, o: Collation)
    requires LessEq(a, b, o) && LessEq(b, a, o)
    ensures a == b
  {
    if a != [] && b != [] {
      LessEqAntisymmetric(a[1..], b[1..], o);
      assert a == [a[0]] + a[1..] && b == [b[0]] + b[1..];
    }
  }

  predicate Sorted(s: seq<string>, o: Collation) {
    forall i, j :: 0 <= i < j < |s| ==> LessEq(s[i], s[j], o)
  }

  /** Put `x` in its place in a sorted list. */
  function Insert(x: string, s: seq<string>, o: Collation): (r: seq<string>)
    requires Sorted(s, o)
    ensures Sorted(r, o)
    ensures multiset(r) == multiset(s) + multiset{x}
  {
    if s == [] then [x]
    else if LessEq(x, s[0], o) then
      FrontSorted(x, s, o);
      [x] + s
    else
      var tail := Insert(x, s[1..], o);
      AfterHeadSorted(x, s, tail, o);
      assert s == [s[0]] + s[1..];
      [s[0]] + tail
  }

  lemma FrontSorted(x: string, s: seq<string>, o: Collation)
    requires Sorted(s, o) && s != [] && LessEq(x, s[0], o)
    ensures Sorted([x] + s, o)
  {
    forall j | 0 <= j < |s| ensures LessEq(x, s[j], o) {
      if j > 0 { LessEqTransitive(x, s[0], s[j], o); }
    }
  }

  lemma AfterHeadSorted(x: string, s: seq<string>, tail: seq<string>, o: Collation)
    requires Sorted(s, o) && s != [] && !LessEq(x, s[0], o)
    requires Sorted(tail, o) && multiset(tail) == multiset(s[1..]) + multiset{x}
    ensures Sorted([s[0]] + tail, o)
  {
    LessEqTotal(x, s[0], o);
    forall j | 0 <= j < |tail| ensures LessEq(s[0], tail[j], o) {
      assert tail[j] in multiset(tail);
      if tail[j] != x {
        assert tail[j] in multiset(s[1..]);
        var k :| 0 <= k < |s[1..]| && s[1..][k] == tail[j];
        assert s[k + 1] == tail[j];
      }
    }
  }

  /** `files.sort()` / `sorted(file_paths)`: the same paths, in ascending order. */
  function Sort(s: seq<string>, o: Collation): (r: seq<string>)
    ensures Sorted(r, o)
    ensures multiset(r) == multiset(s)
    ensures |r| == |s|
  {
    if s == [] then []
    else
      assert s == s[..|s| - 1] + [s[|s| - 1]];
      var r := Insert(s[|s| - 1], Sort(s[..|s| - 1], o), o);
      assert |r| == |multiset(r)|;
      r
  }

  /** The head of a sorted list comes before every one of its elements. */
  lemma SortedHeadLeast(a: seq<string>, y: string, o: Collation)
    requires Sorted(a, o) && y in multiset(a)
    ensures a != [] && LessEq(a[0], y, o)
  {
    var i :| 0 <= i < |a| && a[i] == y;
    if i == 0 { LessEqReflexive(y, o); }
  }

  /** Two sorted lists with the same elements start with the same element. */
  lemma SortedHeadsEqual(a: seq<string>, b: seq<string>, o: Collation)
    requires Sorted(a, o) && Sorted(b, o) && a != []
    requires multiset(a) == multiset(b)
    ensures b != [] && a[0] == b[0]
  {
    assert a[0] in multiset(a);
    SortedHeadLeast(b, a[0], o);
    assert b[0] in multiset(b);
    SortedHeadLeast(a, b[0], o);
    LessEqAntisymmetric(a[0], b[0], o);
  }

  lemma TailsSameElements(a: seq<string>, b: seq<string>)
    requires a != [] && b != [] && a[0] == b[0]
    requires multiset(a) == multiset(b)
    ensures multiset(a[1..]) == multiset(b[1..])
  {
    assert a == [a[0]] + a[1..];
    assert b == [b[0]] + b[1..];
    calc {
      multiset(a[1..]);
      multiset(a) - multiset{a[0]};
      multiset(b) - multiset{b[0]};
      multiset(b[1..]);
    }
  }

  /** Two lists sorted under one collation with the same elements are the same list. */
  lemma {:induction false} SortedUnique(a: seq<string>, b: seq<string>, o: Collation)
    requires Sorted(a, o) && Sorted(b, o)
    requires multiset(a) == multiset(b)
    ensures a == b
  {
    if a != [] {
      SortedHeadsEqual(a, b, o);
      TailsSameElements(a, b);
      SortedUnique(a[1..], b[1..], o);
      assert a == [a[0]] + a[1..] && b == [b[0]] + b[1..];
    } else {
      assert |multiset(b)| == |b|;
    }
  }

  /** Sorting is the only sorted arrangement, so sorting twice changes nothing. */
  lemma SortIdempotent(s: seq<string>, o: Collation)
    ensures Sort(Sort(s, o), o) == Sort(s, o)
  {
    SortedUnique(Sort(Sort(s, o), o), Sort(s, o), o);
  }

  /** The UTF-16 encoding of one character: itself, or a surrogate pair above U+FFFF. */
  function Utf16Units(c: char): (r: seq<int>)
    ensures 1 <= |r| <= 2
  {
    if c as int < 0x1_0000 then [c as int]
    else [0xD800 + (c as int - 0x1_0000) / 0x400, 0xDC00 + (c as int - 0x1_0000) % 0x400]
  }

  /** The UTF-16 encoding of a string, the units JavaScript compares. */
  function Utf16(s: string): seq<int> {
    if s == [] then [] else Utf16Units(s[0]) + Utf16(s[1..])
  }

  /** Lexicographic comparison of code-unit sequences. */
  predicate UnitsLessEq(a: seq<int>, b: seq<int>) {
    a == [] || (b != [] && (a[0] < b[0] || (a[0] == b[0] && UnitsLessEq(a[1..], b[1..]))))
  }

  lemma {:induction false} CommonPrefix(p: seq<int>, x: seq<int>, y: seq<int>)
    ensures UnitsLessEq(p + x, p + y) == UnitsLessEq(x, y)
  {
    if p != [] {
      assert (p + x)[0] == (p + y)[0] == p[0];
      assert (p + x)[1..] == p[1..] + x && (p + y)[1..] == p[1..] + y;
      CommonPrefix(p[1..], x, y);
    } else {
      assert p + x == x && p + y == y;
    }
  }

  /** Splitting an offset into its high and low ten bits keeps its order. */
  lemma SurrogateOrder(x: int, y: int)
    requires 0 <= x && 0 <= y && x != y
    ensures x / 0x400 != y / 0x400 || x % 0x400 != y % 0x400
    ensures x < y <==> x / 0x400 < y / 0x400 || (x / 0x400 == y / 0x400 && x % 0x400 < y % 0x400)
  {
    var qx, rx, qy, ry := x / 0x400, x % 0x400, y / 0x400, y % 0x400;
    assert x == 0x400 * qx + rx && y == 0x400 * qy + ry;
    if qx < qy {
      assert 0x400 * qx + 0x400 <= 0x400 * qy;
    } else if qy < qx {
      assert 0x400 * qy + 0x400 <= 0x400 * qx;
    }
  }

  /** Two different first characters decide the comparison of the encodings by their ranks. */
  lemma FirstUnitsDecide(c: char, d: char, x: seq<int>, y: seq<int>)
    requires c != d
    ensures UnitsLessEq(Utf16Units(c) + x, Utf16Units(d) + y) <==> Rank(c, CodeUnit) < Rank(d, CodeUnit)
  {
    var u, v := Utf16Units(c) + x, Utf16Units(d) + y;
    if c as int >= 0x1_0000 && d as int >= 0x1_0000 {
      SurrogateOrder(c as int - 0x1_0000, d as int - 0x1_0000);
      if u[0] == v[0] {
        assert u[1..][0] == u[1] && v[1..][0] == v[1];
      }
    }
  }

  /** Comparing by code-unit rank is comparing the UTF-16 encodings, as `Array.prototype.sort` does. */
  lemma {:induction false} CodeUnitIsUtf16(a: string, b: string)
    ensures LessEq(a, b, CodeUnit) <==> UnitsLessEq(Utf16(a), Utf16(b))
  {
    if a != [] && b != [] {
      if a[0] == b[0] {
        CommonPrefix(Utf16Units(a[0]), Utf16(a[1..]), Utf16(b[1..]));
        CodeUnitIsUtf16(a[1..], b[1..]);
      } else {
        FirstUnitsDecide(a[0], b[0], Utf16(a[1..]), Utf16(b[1..]));
      }
    }
  }

  /** A string with no character above U+FFFF. */
  predicate InBmp(s: string) {
    forall i :: 0 <= i < |s| ==> s[i] as int < 0x1_0000
  }

  /** Below U+10000 the two collations agree. */
  lemma {:induction false} CollationsAgreeInBmp(a: string, b: string)
    requires InBmp(a) && InBmp(b)
    ensures LessEq(a, b, CodeUnit) == LessEq(a, b, CodePoint)
  {
    if a != [] && b != [] {
      assert InBmp(a[1..]) && InBmp(b[1..]);
      CollationsAgreeInBmp(a[1..], b[1..]);
    }
  }

  /** Paths without characters above U+FFFF are sorted alike by `sort()` and `sorted()`. */
  lemma SortsAgreeInBmp(s: seq<string>)
    requires forall i :: 0 <= i < |s| ==> InBmp(s[i])
    ensures Sort(s, CodeUnit) == Sort(s, CodePoint)
  {
    var r := Sort(s, CodeUnit);
    forall i | 0 <= i < |r| ensures InBmp(r[i]) {
      assert r[i] in multiset(s);
    }
    forall i, j | 0 <= i < j < |r| ensures LessEq(r[i], r[j], CodePoint) {
      CollationsAgreeInBmp(r[i], r[j]);
    }
    SortedUnique(r, Sort(s, CodePoint), CodePoint);
  }

  /** Two paths come out in the order the collation gives them. */
  lemma SortPair(x: string, y: string, o: Collation)
    ensures Sort([x, y], o) == if LessEq(x, y, o) then [x, y] else [y, x]
  {
    if LessEq(x, y, o) {
      PairSorted(x, y, o);
      SortIsSortedPermutation([x, y], [x, y], o);
    } else {
      LessEqTotal(x, y, o);
      PairSorted(y, x, o);
      assert multiset([y, x]) == multiset([x, y]);
      SortIsSortedPermutation([x, y], [y, x], o);
    }
  }

  /** Any sorted permutation of a list is what sorting it gives. */
  lemma SortIsSortedPermutation(s: seq<string>, r: seq<string>, o: Collation)
    requires Sorted(r, o) && multiset(r) == multiset(s)
    ensures Sort(s, o) == r
  {
    SortedUnique(Sort(s, o), r, o);
  }

  lemma PairSorted(x: string, y: string, o: Collation)
    requires LessEq(x, y, o)
    ensures Sorted([x, y], o)
  {
    var r := [x, y];
    forall i, j | 0 <= i < j < |r| ensures LessEq(r[i], r[j], o) {
      assert i == 0 && j == 1;
    }
  }

  /** A name with U+1F600 sorts first in JavaScript and last in Python against one with U+E000. */
  lemma CollationsDisagree()
    ensures Sort(["\U{E000}.mp3", "\U{1F600}.mp3"], CodeUnit) == ["\U{1F600}.mp3", "\U{E000}.mp3"]
    ensures Sort(["\U{E000}.mp3", "\U{1F600}.mp3"], CodePoint) == ["\U{E000}.mp3", "\U{1F600}.mp3"]
  {
    var low: string, high: string := "\U{E000}.mp3", "\U{1F600}.mp3";
    assert !LessEq(low, high, CodeUnit) by {
      assert Rank(high[0], CodeUnit) == 0x1F600 && Rank(low[0], CodeUnit) == 0x11_E000;
    }
    SortPair(low, high, CodeUnit);
    assert LessEq(low, high, CodePoint) by {
      assert Rank(low[0], CodePoint) == 0xE000 && Rank(high[0], CodePoint) == 0x1F600;
    }
    SortPair(low, high, CodePoint);
  }
}

=== FILE: probe.dfy ===
/**
 * What the prober reports about one audio file, as a parsed value, and how
 * the `get-file-metadata` handler of the Electron back end reads it.
 * Running the prober and parsing its JSON are not modelled: a run that
 * exits non-zero or prints text that does not parse is `ProbeFailed`.
 */
module Probe {
  import opened Text

  /** One entry of `streams`; a key the prober left out is `None`. */
  datatype Stream = Stream(codecType: Option<string>, codecName: Option<string>)

  /** The `format` object: a numeric `duration` and a `tags` object, each possibly absent. */
  datatype Format = Format(duration: Option<real>, tags: Option<map<string, string>>)

  datatype ProbeData = ProbeData(format: Option<Format>, streams: Option<seq<Stream>>)

  datatype ProbeOutcome = ProbeFailed | Probed(data: ProbeData)

  /** The record the handler returns. */
  datatype FileInfo = FileInfo(duration: real, hasCover: bool, tags: map<string, string>)

  /** The codec names both implementations take for embedded artwork. */
  const CoverCodecs: set<string> := {"mjpeg", "png", "jpg"}

  /** A video stream, or one whose codec is an image codec, is cover art. */
  predicate IsCoverStream(s: Stream) {
    s.codecType == Some("video") || (s.codecName.Some? && s.codecName.value in CoverCodecs)
  }

  /** Position of the first cover stream, the one the loop stops at. */
  function FirstCover(streams: seq<Stream>): (r: Option<nat>)
    ensures r.None? <==> forall i :: 0 <= i < |streams| ==> !IsCoverStream(streams[i])
    ensures r.Some? ==> r.value < |streams| && IsCoverStream(streams[r.value])
    ensures r.Some? ==> forall i :: 0 <= i < r.value ==> !IsCoverStream(streams[i])
  {
    if streams == [] then None
    else if IsCoverStream(streams[0]) then Some(0)
    else
      match FirstCover(streams[1..])
      case None => None
      case Some(k) => Some(k + 1)
  }

  /** The all-zero record of the `catch` branch, also the starting value. */
  const NoInfo: FileInfo := FileInfo(0.0, false, map[])

  /**
   * The `get-file-metadata` handler: duration and tags from `format` when
   * present, `hasCover` when any stream is cover art, and the all-zero
   * record when probing fails.
   */
  function ElectronFileInfo(o: ProbeOutcome): FileInfo {
    match o
    case ProbeFailed => NoInfo
    case Probed(data) =>
      FileInfo(
        if data.format.Some? && data.format.value.duration.Some? then data.format.value.duration.value else 0.0,
        data.streams.Some? && FirstCover(data.streams.value).Some?,
        if data.format.Some? && data.format.value.tags.Some? then data.format.value.tags.value else map[])
  }

  /** `hasCover` holds exactly when some stream is video or an image codec. */
  lemma ElectronHasCoverIff(data: ProbeData)
    ensures ElectronFileInfo(Probed(data)).hasCover <==>
      data.streams.Some? && exists i :: 0 <= i < |data.streams.value| && IsCoverStream(data.streams.value[i])
  {
  }

  /** Duration and tags come from `format` when it carries them, and default to zero and empty otherwise. */
  lemma ElectronFormatFields(data: ProbeData)
    ensures var info := ElectronFileInfo(Probed(data));
      (data.format.Some? && data.format.value.duration.Some? ==> info.duration == data.format.value.duration.value) &&
      (data.format.None? || data.format.value.duration.None? ==> info.duration == 0.0) &&
      (data.format.Some? && data.format.value.tags.Some? ==> info.tags == data.format.value.tags.value) &&
      (data.format.None? || data.format.value.tags.None? ==> info.tags == map[])
  {
  }
}

=== FILE: py_batch.dfy ===
/**
 * The Python tool's batch layer: the dialog that collects tags to apply to
 * every folder, the assignment of those tags, the saving of one folder's
 * edited tags and output name, and the loop that assembles every folder in
 * turn while counting successes and failures.
 *
 * The texts of the dialog's entry fields are parameters; the windows,
 * message boxes and the status log are not modelled.
 */
module CreatorBatch {
  import opened Text
  import opened FileTree
  import opened PyDict
  import opened Workspace
  import opened CreatorFiles
  import opened CreatorRun

  // ---- The batch dialog ----

  /** The batch dialog's fields, in the order it creates them. */
  const BatchFields: seq<string> := ["artist", "date", "genre"]

  /** The field texts, each trimmed. */
  function Trimmed(texts: seq<string>): (r: seq<string>)
    ensures |r| == |texts| && forall i :: 0 <= i < |texts| ==> r[i] == Trim(texts[i], Python)
  {
    seq(|texts|, i requires 0 <= i < |texts| => Trim(texts[i], Python))
  }

  /**
   * The dict `apply` builds from the first `n` fields: each trimmed text
   * that is not empty is assigned to its field's key, in the fields' order.
   */
  function Kept(keys: seq<string>, values: seq<string>, n: nat): Dict
    requires n <= |keys| == |values|
  {
    if n == 0 then []
    else if values[n - 1] != [] then Set(Kept(keys, values, n - 1), keys[n - 1], values[n - 1])
    else Kept(keys, values, n - 1)
  }

  predicate Distinct(keys: seq<string>) {
    forall i, j :: 0 <= i < j < |keys| ==> keys[i] != keys[j]
  }

  /** No key is in the dict `apply` builds twice. */
  lemma {:induction false} KeptDistinct(keys: seq<string>, values: seq<string>, n: nat)
    requires n <= |keys| == |values|
    ensures KeysDistinct(Kept(keys, values, n))
  {
    if n > 0 {
      KeptDistinct(keys, values, n - 1);
      if values[n - 1] != [] {
        SetKeepsDistinct(Kept(keys, values, n - 1), keys[n - 1], values[n - 1]);
      }
    }
  }

  /** A key that is none of the first `n` fields is not in the dict `apply` builds from them. */
  lemma {:induction false} KeptAbsent(keys: seq<string>, values: seq<string>, n: nat, k: string)
    requires n <= |keys| == |values| && forall j :: 0 <= j < n ==> keys[j] != k
    ensures Get(Kept(keys, values, n), k) == None
  {
    if n > 0 {
      KeptAbsent(keys, values, n - 1, k);
      SetGet(Kept(keys, values, n - 1), keys[n - 1], values[n - 1], k);
    }
  }

  /**
   * With distinct fields, each of the first `n` fields reads in the dict
   * `apply` builds as its trimmed text when that is not empty, and as
   * absent otherwise.
   */
  lemma {:induction false} KeptGet(keys: seq<string>, values: seq<string>, n: nat, j: nat)
    requires n <= |keys| == |values| && Distinct(keys) && j < n
    ensures Get(Kept(keys, values, n), keys[j]) == if values[j] != [] then Some(values[j]) else None
  {
    SetGet(Kept(keys, values, n - 1), keys[n - 1], values[n - 1], keys[j]);
    if j == n - 1 {
      KeptAbsent(keys, values, n - 1, keys[j]);
    } else {
      assert keys[j] != keys[n - 1];
      KeptGet(keys, values, n - 1, j);
    }
  }

  lemma BatchFieldsDistinct()
    ensures Distinct(BatchFields)
    ensures "title" !in BatchFields && "album" !in BatchFields
  {
    var f := BatchFields;
    assert f[0][0] == 'a' && f[1][0] == 'd' && f[2][0] == 'g';
    assert "title"[0] == 't' && "album"[1] == 'l' && f[0][1] == 'r';
  }

  class BatchMetadataDialog {
    var metadata: Dict
    var result: bool

    /** `__init__`, before the window opens. */
    constructor()
      ensures metadata == [] && !result
    {
      metadata := [];
      result := false;
    }

    /**
     * `apply`: collect the trimmed non-empty field texts (`texts` holds the
     * artist, date and genre fields' texts); with none, the dialog stays open
     * and `result` keeps its value; otherwise `result` is set.
     */
    method Apply(texts: seq<string>)
      requires |texts| == |BatchFields|
      modifies this
      ensures metadata == Kept(BatchFields, Trimmed(texts), |BatchFields|)
      ensures result == (old(result) || metadata != [])
    {
      metadata := Collect(BatchFields, Trimmed(texts));
      if metadata != [] {
        result := true;
      }
    }
  }

  /** The loop of `apply`: each field's trimmed text is assigned when it is not empty. */
  method Collect(keys: seq<string>, values: seq<string>) returns (d: Dict)
    requires |keys| == |values|
    ensures d == Kept(keys, values, |keys|)
  {
    d := [];
    var i := 0;
    while i < |keys|
      invariant 0 <= i <= |keys|
      invariant d == Kept(keys, values, i)
    {
      var key, value := keys[i], values[i];
      if value != [] {
        d := Set(d, key, value);
      }
      i := i + 1;
    }
  }

  // ---- Applying the batch tags ----

  /** `for key, value in dialog.metadata.items(): folder_data.metadata[key] = value`. */
  method AssignAll(folder: FolderData, batch: Dict)
    modifies folder`metadata
    ensures folder.metadata == SetAll(old(folder.metadata), batch)
  {
    var j := 0;
    while j < |batch|
      invariant 0 <= j <= |batch|
      invariant SetAll(folder.metadata, batch[j..]) == SetAll(old(folder.metadata), batch)
    {
      assert batch[j..][1..] == batch[j + 1..];
      folder.metadata := Set(folder.metadata, batch[j].0, batch[j].1);
      j := j + 1;
    }
    assert batch[j..] == [];
  }

  /**
   * `apply_batch_metadata` once the dialog has closed: with no folders
   * nothing happens; when the dialog was applied with some tags, every
   * folder of the list gets them assigned and `count` is the number of
   * folders. A folder listed twice gets them twice, which changes nothing
   * more, as the dialog's keys are distinct.
   */
  method ApplyBatchMetadata(folders: seq<FolderData>, dialog: BatchMetadataDialog) returns (count: nat)
    requires KeysDistinct(dialog.metadata)
    modifies folders`metadata
    ensures folders == [] || !dialog.result || dialog.metadata == [] ==>
      count == 0 && forall f :: f in folders ==> f.metadata == old(f.metadata)
    ensures folders != [] && dialog.result && dialog.metadata != [] ==>
      count == |folders| && forall f :: f in folders ==> f.metadata == SetAll(old(f.metadata), dialog.metadata)
  {
    count := 0;
    if folders == [] {
      return;
    }
    if !(dialog.result && dialog.metadata != []) {
      return;
    }
    var batch := dialog.metadata;
    ghost var done: set<FolderData> := {};
    var i := 0;
    while i < |folders|
      invariant 0 <= i <= |folders| && count == i
      invariant forall k :: 0 <= k < i ==> folders[k] in done
      invariant forall f :: f in folders ==>
        f.metadata == if f in done then SetAll(old(f.metadata), batch) else old(f.metadata)
    {
      var folder := folders[i];
      AssignAll(folder, batch);
      if folder in done {
        SetAllIdempotent(old(folder.metadata), batch);
      }
      done := done + {folder};
      count := count + 1;
      i := i + 1;
    }
  }

  /**
   * After the batch: each field the dialog filled in reads as its trimmed
   * text, every other key (`title` and `album` among them) reads as
   * before, and no key moved.
   */
  lemma BatchOverwrites(m: Dict, texts: seq<string>, j: nat, k: string)
    requires |texts| == |BatchFields|
    ensures var after := SetAll(m, Kept(BatchFields, Trimmed(texts), 3));
      j < |BatchFields| ==>
        Get(after, BatchFields[j]) == if Trim(texts[j], Python) != [] then Some(Trim(texts[j], Python)) else Get(m, BatchFields[j])
    ensures var after := SetAll(m, Kept(BatchFields, Trimmed(texts), 3));
      k !in BatchFields ==> Get(after, k) == Get(m, k)
    ensures var after := SetAll(m, Kept(BatchFields, Trimmed(texts), 3));
      Get(after, "title") == Get(m, "title") && Get(after, "album") == Get(m, "album")
    ensures var after := SetAll(m, Kept(BatchFields, Trimmed(texts), 3));
      |Keys(after)| >= |Keys(m)| && Keys(after)[..|Keys(m)|] == Keys(m)
  {
    var values := Trimmed(texts);
    BatchFieldsDistinct();
    ValuesOverwrite(m, values, j, k);
    ValuesOverwrite(m, values, j, "title");
    ValuesOverwrite(m, values, j, "album");
  }

  /** The batch over the trimmed texts `values`: the same facts as `BatchOverwrites`. */
  lemma ValuesOverwrite(m: Dict, values: seq<string>, j: nat, k: string)
    requires |values| == |BatchFields| && Distinct(BatchFields)
    ensures var after := SetAll(m, Kept(BatchFields, values, 3));
      j < |BatchFields| ==>
        Get(after, BatchFields[j]) == if values[j] != [] then Some(values[j]) else Get(m, BatchFields[j])
    ensures var after := SetAll(m, Kept(BatchFields, values, 3));
      k !in BatchFields ==> Get(after, k) == Get(m, k)
    ensures var after := SetAll(m, Kept(BatchFields, values, 3));
      |Keys(after)| >= |Keys(m)| && Keys(after)[..|Keys(m)|] == Keys(m)
  {
    var batch := Kept(BatchFields, values, 3);
    KeptDistinct(BatchFields, values, 3);
    if j < |BatchFields| {
      KeptGet(BatchFields, values, 3, j);
      SetAllOverwrites(m, batch, BatchFields[j]);
    }
    if k !in BatchFields {
      KeptAbsent(BatchFields, values, 3, k);
      SetAllOverwrites(m, batch, k);
    }
    SetAllKeys(m, batch);
  }

  // ---- Saving one folder ----

  /** The detail view's tag fields, in the order it creates them. */
  const DetailFields: seq<string> := ["title", "artist", "album", "date", "genre"]

  function Zip(keys: seq<string>, texts: seq<string>): (r: Dict)
    requires |keys| == |texts|
    ensures |r| == |keys| && forall i :: 0 <= i < |keys| ==> r[i] == (keys[i], texts[i])
  {
    seq(|keys|, i requires 0 <= i < |keys| => (keys[i], texts[i]))
  }

  /**
   * `save_folder_metadata` for the selected folder: every tag field's text
   * is assigned as it is (not trimmed, empty included), and the output
   * name is the trimmed name field, or the folder's name when that is
   * empty. Without a selection nothing happens.
   */
  method SaveFolderMetadata(folders: seq<FolderData>, selected: Option<nat>, texts: seq<string>, nameText: string)
    requires selected.Some? ==> selected.value < |folders|
    requires |texts| == |DetailFields|
    modifies folders`metadata, folders`outputName
    ensures selected.None? ==> forall f :: f in folders ==> f.metadata == old(f.metadata) && f.outputName == old(f.outputName)
    ensures selected.Some? ==> var folder := folders[selected.value];
      folder.metadata == SetAll(old(folder.metadata), Zip(DetailFields, texts)) &&
      folder.outputName == (if Trim(nameText, Python) != [] then Trim(nameText, Python) else folder.folderName) &&
      forall f :: f in folders && f != folder ==> f.metadata == old(f.metadata) && f.outputName == old(f.outputName)
  {
    if selected.None? {
      return;
    }
    var folder := folders[selected.value];
    var entries := Zip(DetailFields, texts);
    var j := 0;
    while j < |entries|
      invariant 0 <= j <= |entries|
      invariant SetAll(folder.metadata, entries[j..]) == SetAll(old(folder.metadata), entries)
      invariant forall f :: f in folders && f != folder ==> f.metadata == old(f.metadata) && f.outputName == old(f.outputName)
    {
      assert entries[j..][1..] == entries[j + 1..];
      folder.metadata := Set(folder.metadata, entries[j].0, entries[j].1);
      j := j + 1;
    }
    assert entries[j..] == [];
    folder.outputName := Trim(nameText, Python);
    if folder.outputName == [] {
      folder.outputName := folder.folderName;
    }
  }

  /**
   * After saving: the five tag fields read as their texts, exactly as
   * typed, and every other key reads as before.
   */
  lemma SavedValues(m: Dict, texts: seq<string>, i: nat, k: string)
    requires |texts| == |DetailFields| && i < |DetailFields|
    ensures Get(SetAll(m, Zip(DetailFields, texts)), DetailFields[i]) == Some(texts[i])
    ensures k !in DetailFields ==> Get(SetAll(m, Zip(DetailFields, texts)), k) == Get(m, k)
  {
    var entries := Zip(DetailFields, texts);
    DetailEntries(texts);
    SetAllOverwrites(m, entries, DetailFields[i]);
    GetEntry(entries, i);
    SetAllOverwrites(m, entries, k);
    GetPresent(entries, k);
  }

  /** The detail view's entries have the tag fields as their keys, each once. */
  lemma DetailEntries(texts: seq<string>)
    requires |texts| == |DetailFields|
    ensures Keys(Zip(DetailFields, texts)) == DetailFields && KeysDistinct(Zip(DetailFields, texts))
  {
    var entries := Zip(DetailFields, texts);
    assert Keys(entries) == DetailFields;
    var d := DetailFields;
    assert d[0][0] == 't' && d[1][0] == 'a' && d[2][0] == 'a' && d[3][0] == 'd' && d[4][0] == 'g';
    assert d[1][1] == 'r' && d[2][1] == 'l';
  }

  // ---- The batch run ----

  /** What `run_batch` reads of one folder. */
  datatype BatchJob = BatchJob(tracks: seq<Track>, meta: Dict, art: string, outputName: string, folderPath: string)

  function FolderJob(f: FolderData): (r: BatchJob)
    reads f, f.audioFiles
    ensures r.tracks == Tracks(f.audioFiles) && r.meta == f.metadata && r.art == f.customArtworkPath
    ensures r.outputName == f.outputName && r.folderPath == f.folderPath
  {
    BatchJob(Tracks(f.audioFiles), f.metadata, f.customArtworkPath, f.outputName, f.folderPath)
  }

  function Jobs(fs: seq<FolderData>): (r: seq<BatchJob>)
    reads fs, set i, j | 0 <= i < |fs| && 0 <= j < |fs[i].audioFiles| :: fs[i].audioFiles[j]
    ensures |r| == |fs| && forall i :: 0 <= i < |fs| ==> r[i] == FolderJob(fs[i])
  {
    if fs == [] then [] else [FolderJob(fs[0])] + Jobs(fs[1..])
  }

  /**
   * Where a folder's audiobook goes: `<output_name>.m4b` in the output
   * directory, or in the folder itself when no directory was given.
   */
  function OutputPath(outputDir: string, job: BatchJob): string {
    JoinPath(if outputDir != [] then outputDir else job.folderPath, job.outputName + ".m4b")
  }

  /** The counters and the disk as the loop goes. */
  datatype BatchOutcome = BatchOutcome(successful: nat, failed: nat, files: map<string, Content>)

  /** One folder of the loop: skipped without files, else one assembly run counted by its result. */
  function BatchStep(o: BatchOutcome, job: BatchJob, outputDir: string, copyAudio: bool, tools: Tools): BatchOutcome {
    if job.tracks == [] then o
    else
      var run := PythonRun(o.files, job.tracks, job.meta, job.art, OutputPath(outputDir, job), copyAudio, tools);
      if run.0 then BatchOutcome(o.successful + 1, o.failed, run.1) else BatchOutcome(o.successful, o.failed + 1, run.1)
  }

  /** The folders in order, each run facing its own tools. */
  function BatchRun(files: map<string, Content>, jobs: seq<BatchJob>, outputDir: string, copyAudio: bool,
                    tools: seq<Tools>): BatchOutcome
    requires |tools| == |jobs|
  {
    if jobs == [] then BatchOutcome(0, 0, files)
    else
      var n := |jobs| - 1;
      BatchStep(BatchRun(files, jobs[..n], outputDir, copyAudio, tools[..n]), jobs[n], outputDir, copyAudio, tools[n])
  }

  lemma BatchRunStep(files: map<string, Content>, jobs: seq<BatchJob>, outputDir: string, copyAudio: bool,
                     tools: seq<Tools>, i: nat)
    requires |tools| == |jobs| && i < |jobs|
    ensures BatchRun(files, jobs[..i + 1], outputDir, copyAudio, tools[..i + 1]) ==
      BatchStep(BatchRun(files, jobs[..i], outputDir, copyAudio, tools[..i]), jobs[i], outputDir, copyAudio, tools[i])
  {
    assert jobs[..i + 1][..i] == jobs[..i];
    assert tools[..i + 1][..i] == tools[..i];
  }

  /**
   * One turn of `run_batch`'s loop: a folder without audio files is
   * skipped; otherwise its output path is chosen, the folder is assembled
   * and the run is counted as a success or a failure.
   */
  method RunFolder(disk: Disk, folderData: FolderData, outputDir: string, copyAudio: bool, tools: Tools,
                   successful: nat, failed: nat)
    returns (successful': nat, failed': nat)
    modifies disk
    ensures BatchOutcome(successful', failed', disk.files) ==
      BatchStep(BatchOutcome(successful, failed, old(disk.files)), old(FolderJob(folderData)), outputDir, copyAudio, tools)
  {
    ghost var job := FolderJob(folderData);
    successful', failed' := successful, failed;
    if folderData.audioFiles == [] {
      return;
    }
    var outputPath: string;
    if outputDir != [] {
      outputPath := JoinPath(outputDir, folderData.outputName + ".m4b");
    } else {
      outputPath := JoinPath(folderData.folderPath, folderData.outputName + ".m4b");
    }
    assert outputPath == OutputPath(outputDir, job);
    var success := CreateM4b(disk, folderData, outputPath, copyAudio, tools);
    ghost var run := PythonRun(old(disk.files), job.tracks, job.meta, job.art, outputPath, copyAudio, tools);
    assert run.0 == success && run.1 == disk.files;
    assert BatchStep(BatchOutcome(successful, failed, old(disk.files)), job, outputDir, copyAudio, tools) ==
      if run.0 then BatchOutcome(successful + 1, failed, run.1) else BatchOutcome(successful, failed + 1, run.1);
    if success {
      successful' := successful' + 1;
    } else {
      failed' := failed' + 1;
    }
  }

  /** The `i`-th turn of the loop, stated against the run of the whole list. */
  method BatchTurn(disk: Disk, folderData: FolderData, outputDir: string, copyAudio: bool, tools: seq<Tools>, i: nat,
                   ghost files: map<string, Content>, ghost jobs: seq<BatchJob>, successful: nat, failed: nat)
    returns (successful': nat, failed': nat)
    requires i < |jobs| == |tools| && FolderJob(folderData) == jobs[i]
    requires BatchOutcome(successful, failed, disk.files) == BatchRun(files, jobs[..i], outputDir, copyAudio, tools[..i])
    modifies disk
    ensures BatchOutcome(successful', failed', disk.files) == BatchRun(files, jobs[..i + 1], outputDir, copyAudio, tools[..i + 1])
  {
    BatchRunStep(files, jobs, outputDir, copyAudio, tools, i);
    successful', failed' := RunFolder(disk, folderData, outputDir, copyAudio, tools[i], successful, failed);
  }

  /**
   * `create_batch` with the texts of the output-directory field and the
   * choice of audio mode: with no folders it reports an error and runs
   * nothing (`started` is false); otherwise `run_batch` assembles each
   * folder in turn, skipping those without audio files, and counts the
   * runs that succeeded and those that failed.
   */
  method RunBatch(disk: Disk, folders: seq<FolderData>, outputText: string, copyAudio: bool, tools: seq<Tools>)
    returns (started: bool, successful: nat, failed: nat)
    requires |tools| == |folders|
    modifies disk
    ensures started <==> folders != []
    ensures !started ==> successful == 0 && failed == 0 && disk.files == old(disk.files)
    ensures started ==>
      BatchOutcome(successful, failed, disk.files) == BatchRun(old(disk.files), old(Jobs(folders)), Trim(outputText, Python), copyAudio, tools)
  {
    if folders == [] {
      return false, 0, 0;
    }
    var outputDir := Trim(outputText, Python);
    successful, failed := RunFolders(disk, folders, outputDir, copyAudio, tools);
    started := true;
  }

  /** `run_batch`: the loop over the folders. */
  method RunFolders(disk: Disk, folders: seq<FolderData>, outputDir: string, copyAudio: bool, tools: seq<Tools>)
    returns (successful: nat, failed: nat)
    requires |tools| == |folders|
    modifies disk
    ensures BatchOutcome(successful, failed, disk.files) == BatchRun(old(disk.files), old(Jobs(folders)), outputDir, copyAudio, tools)
  {
    successful, failed := 0, 0;
    ghost var jobs := Jobs(folders);
    var i := 0;
    while i < |folders|
      invariant 0 <= i <= |folders|
      invariant BatchOutcome(successful, failed, disk.files) ==
        BatchRun(old(disk.files), jobs[..i], outputDir, copyAudio, tools[..i])
    {
      assert FolderJob(folders[i]) == jobs[i];
      successful, failed := BatchTurn(disk, folders[i], outputDir, copyAudio, tools, i, old(disk.files), jobs, successful, failed);
      i := i + 1;
    }
    assert jobs[..i] == jobs && tools[..i] == tools;
  }

  /** The number of folders with audio files. */
  function WithFiles(jobs: seq<BatchJob>): (r: nat)
    ensures r <= |jobs|
  {
    if jobs == [] then 0 else WithFiles(jobs[..|jobs| - 1]) + (if jobs[|jobs| - 1].tracks != [] then 1 else 0)
  }

  /** The number of folders with audio files whose tools can write the temporary files and transcode. */
  function Succeeding(jobs: seq<BatchJob>, tools: seq<Tools>): (r: nat)
    requires |tools| == |jobs|
    ensures r <= WithFiles(jobs)
  {
    if jobs == [] then 0
    else
      var n := |jobs| - 1;
      Succeeding(jobs[..n], tools[..n]) + (if jobs[n].tracks != [] && tools[n].canWrite && tools[n].transcodes then 1 else 0)
  }

  /**
   * Every folder with audio files is counted once, as a success or as a
   * failure, folders without files not at all; the successes are exactly
   * the folders whose temporary files could be written and whose
   * transcoder run succeeded.
   */
  lemma {:induction false} BatchCounts(files: map<string, Content>, jobs: seq<BatchJob>, outputDir: string,
                                       copyAudio: bool, tools: seq<Tools>)
    requires |tools| == |jobs|
    ensures var o := BatchRun(files, jobs, outputDir, copyAudio, tools);
      o.successful + o.failed == WithFiles(jobs) && o.successful == Succeeding(jobs, tools)
    decreases |jobs|
  {
    if jobs != [] {
      var n := |jobs| - 1;
      var o := BatchRun(files, jobs[..n], outputDir, copyAudio, tools[..n]);
      BatchCounts(files, jobs[..n], outputDir, copyAudio, tools[..n]);
      var job := jobs[n];
      PythonRunResult(o.files, job.tracks, job.meta, job.art, OutputPath(outputDir, job), copyAudio, tools[n]);
    }
  }

  /** A batch of folders none of which has audio files changes nothing and counts nothing. */
  lemma {:induction false} EmptyFoldersSkipped(files: map<string, Content>, jobs: seq<BatchJob>, outputDir: string,
                                               copyAudio: bool, tools: seq<Tools>)
    requires |tools| == |jobs| && forall i :: 0 <= i < |jobs| ==> jobs[i].tracks == []
    ensures BatchRun(files, jobs, outputDir, copyAudio, tools) == BatchOutcome(0, 0, files)
    decreases |jobs|
  {
    if jobs != [] {
      var n := |jobs| - 1;
      EmptyFoldersSkipped(files, jobs[..n], outputDir, copyAudio, tools[..n]);
    }
  }

  lemma SeparatorFreeSuffix()
    ensures PathSep !in ".m4b"
  {
  }

  /**
   * A folder's audiobook is named `<output_name>.m4b` and sits in the output
   * directory when one was given, in the folder otherwise.
   */
  lemma OutputPlacement(outputDir: string, job: BatchJob)
    requires PathSep !in job.outputName
    ensures AfterLast(OutputPath(outputDir, job), PathSep) == job.outputName + ".m4b"
    ensures DirName(OutputPath(outputDir, job)) == if outputDir != [] then outputDir else job.folderPath
  {
    var dir, name := if outputDir != [] then outputDir else job.folderPath, job.outputName + ".m4b";
    SeparatorFreeSuffix();
    LastNameOfJoin(dir, name);
    var p := JoinPath(dir, name);
    assert p[..|p| - |name| - 1] == dir;
  }
}

=== FILE: py_create.dfy ===
/**
 * The Python tool's `M4BCreator.create_m4b`: refuse a folder without
 * files, write the concat list next to the output, pick a cover, write the
 * metadata file from the folder's tag dict and its files' durations, run
 * the transcoder, and remove the temporary files once it succeeds. Every
 * exception ends the run with `False`.
 *
 * What the run learns from programs it starts is given as `Tools`, as for
 * the Electron back end: whether the output directory accepts files, which
 * files the transcoder can turn into a picture (an audio file's embedded
 * cover, or a chosen image converted to PNG), and whether the final
 * transcoder run succeeds.
 */
module CreatorRun {
  import opened Text
  import opened FfMetadata
  import opened ConcatList
  import opened Chapters
  import opened FfmpegCommand
  import opened Workspace
  import opened PyDict
  import opened CreatorFiles
  import ElectronMetadata
  import ElectronCreate
  import Job

  /** What a run reads of an `AudioFile`. */
  datatype Track = Track(path: string, duration: real, hasCover: bool)

  function Tracks(fs: seq<AudioFile>): (r: seq<Track>)
    reads fs
    ensures |r| == |fs| && forall i :: 0 <= i < |fs| ==> r[i] == Track(fs[i].path, fs[i].duration, fs[i].hasCover)
  {
    if fs == [] then [] else [Track(fs[0].path, fs[0].duration, fs[0].hasCover)] + Tracks(fs[1..])
  }

  function TrackPaths(ts: seq<Track>): (r: seq<string>)
    ensures |r| == |ts| && forall i :: 0 <= i < |ts| ==> r[i] == ts[i].path
  {
    seq(|ts|, i requires 0 <= i < |ts| => ts[i].path)
  }

  function TrackDurations(ts: seq<Track>): (r: seq<real>)
    ensures |r| == |ts| && forall i :: 0 <= i < |ts| ==> r[i] == ts[i].duration
  {
    seq(|ts|, i requires 0 <= i < |ts| => ts[i].duration)
  }

  // ---- The metadata file ----

  /**
   * The value written for a tag: a `date` holding a `T` (a timestamp such
   * as `2011-05-03T00:00:00Z`) keeps what comes before its first `-`; every
   * other value is written as it is.
   */
  function PythonTagValue(key: string, value: string): string {
    if key == "date" && 'T' in value then BeforeFirst(value, '-') else value
  }

  /** The tag line an item of the dict gives: none when its value is empty. */
  function ItemTag(item: (string, string)): seq<(string, string)> {
    if item.1 != [] then [(item.0, PythonTagValue(item.0, item.1))] else []
  }

  /** The global tags: the dict's items in order, those with an empty value skipped. */
  function PythonGlobals(meta: Dict): seq<(string, string)> {
    if meta == [] then [] else PythonGlobals(meta[..|meta| - 1]) + ItemTag(meta[|meta| - 1])
  }

  /** The whole file the run writes for a folder. */
  function PythonMetadataDoc(meta: Dict, ts: seq<Track>): Doc {
    Doc(PythonGlobals(meta), PythonChapters(TrackDurations(ts)))
  }

  lemma ItemStep(meta: Dict, i: nat)
    requires i < |meta|
    ensures PythonGlobals(meta[..i + 1]) == PythonGlobals(meta[..i]) + ItemTag(meta[i])
  {
    assert meta[..i + 1][..i] == meta[..i];
  }

  /** The value as written: the body of `if key == 'date' and 'T' in value`. */
  method WrittenValue(key: string, value: string) returns (written: string)
    ensures written == PythonTagValue(key, value)
  {
    written := value;
    if key == "date" && 'T' in value {
      written := Split(value, '-')[0];
    }
  }

  /** One turn of the loop over `metadata.items()`. */
  method WriteItem(content: string, meta: Dict, i: nat) returns (r: string)
    requires i < |meta|
    requires content == HeadText(PythonGlobals(meta[..i]))
    ensures r == HeadText(PythonGlobals(meta[..i + 1]))
  {
    ItemStep(meta, i);
    var key, value := meta[i].0, meta[i].1;
    if value != [] {
      var written := WrittenValue(key, value);
      assert ItemTag(meta[i]) == [(key, written)];
      AppendTag(PythonGlobals(meta[..i]), key, written);
      r := content + key + "=" + written + "\n";
      assert r == content + TagLine(key, written) + "\n";
    } else {
      assert PythonGlobals(meta[..i]) + ItemTag(meta[i]) == PythonGlobals(meta[..i]);
      r := content;
    }
  }

  /** The header, then one `key=value` line per item with a non-empty value. */
  method WritePythonGlobals(meta: Dict) returns (content: string)
    ensures content == HeadText(PythonGlobals(meta))
  {
    content := ";FFMETADATA1\n";
    assert content == LinesText([Header] + GlobalLines([])) by {
      assert [Header] + GlobalLines([]) == [Header];
      assert [Header][1..] == [];
    }
    assert meta[..0] == [];
    var i := 0;
    while i < |meta|
      invariant 0 <= i <= |meta|
      invariant content == HeadText(PythonGlobals(meta[..i]))
    {
      content := WriteItem(content, meta, i);
      i := i + 1;
    }
    assert meta[..i] == meta;
  }

  /** The chapter of file `index` (counted from 1), given the running total of the durations before it. */
  lemma PythonChapterAtCursor(ds: seq<real>, index: nat, cumulativeTime: real)
    requires 1 <= index <= |ds| && cumulativeTime == Cum(ds, index - 1)
    ensures PythonChapters(ds)[index - 1] ==
      Chapter(TruncMillis(cumulativeTime), TruncMillis(cumulativeTime + ds[index - 1]), "Chapter " + NatToString(index))
    ensures cumulativeTime + ds[index - 1] == Cum(ds, index)
  {
    assert PythonChapters(ds)[index - 1] == PythonChapter(ds, index - 1);
  }

  /** One turn of the chapter loop: the block of file `index` (counted from 1), then the running total moves past it. */
  method WritePythonChapter(head: string, content: string, ds: seq<real>, index: nat, cumulativeTime: real)
    returns (content': string, cumulativeTime': real)
    requires 1 <= index <= |ds|
    requires cumulativeTime == Cum(ds, index - 1)
    requires content == head + BlocksText(PythonChapters(ds), index - 1)
    ensures cumulativeTime' == Cum(ds, index)
    ensures content' == head + BlocksText(PythonChapters(ds), index)
  {
    var chapterTitle := "Chapter " + NatToString(index);
    var startMs, endMs := TruncMillis(cumulativeTime), TruncMillis(cumulativeTime + ds[index - 1]);
    PythonChapterAtCursor(ds, index, cumulativeTime);
    content' := WriteBlock(head, content, PythonChapters(ds), index - 1, startMs, endMs, chapterTitle);
    cumulativeTime' := cumulativeTime + ds[index - 1];
  }

  /** Appends the block of chapter `i` of `cs`, given its fields, after the blocks before it. */
  method WriteBlock(head: string, content: string, cs: seq<Chapter>, i: nat, startMs: int, endMs: int, chapterTitle: string)
    returns (content': string)
    requires i < |cs| && cs[i] == Chapter(startMs, endMs, chapterTitle)
    requires content == head + BlocksText(cs, i)
    ensures content' == head + BlocksText(cs, i + 1)
  {
    content' := AppendChapterBlock(content, startMs, endMs, chapterTitle);
    BlocksStep(head, cs, i, content, content');
  }

  /**
   * The chapter loop: `enumerate(audio_files, start=1)`, a chapter per file
   * from the running total to the running total plus its duration, in
   * milliseconds truncated toward zero, titled `Chapter <index>`.
   */
  method WritePythonChapters(head: string, ds: seq<real>) returns (content: string)
    ensures content == head + BlocksText(PythonChapters(ds), |ds|)
  {
    content := head;
    var cumulativeTime: real := 0.0;
    var index := 1;
    while index <= |ds|
      invariant 1 <= index <= |ds| + 1
      invariant cumulativeTime == Cum(ds, index - 1)
      invariant content == head + BlocksText(PythonChapters(ds), index - 1)
    {
      content, cumulativeTime := WritePythonChapter(head, content, ds, index, cumulativeTime);
      index := index + 1;
    }
  }

  method WritePythonMetadata(meta: Dict, ts: seq<Track>) returns (content: string)
    ensures content == Render(PythonMetadataDoc(meta, ts))
  {
    var head := WritePythonGlobals(meta);
    content := WritePythonChapters(head, TrackDurations(ts));
    RenderIsText(PythonMetadataDoc(meta, ts));
  }

  // ---- The cover ----

  /** The first file from `i` on that was probed as carrying a cover. */
  function FirstWithCover(ts: seq<Track>, i: nat): (r: Option<nat>)
    requires i <= |ts|
    ensures r.Some? ==> i <= r.value < |ts| && ts[r.value].hasCover
    ensures r.Some? ==> forall j :: i <= j < r.value ==> !ts[j].hasCover
    ensures r.None? ==> forall j :: i <= j < |ts| ==> !ts[j].hasCover
    decreases |ts| - i
  {
    if i == |ts| then None
    else if ts[i].hasCover then Some(i)
    else FirstWithCover(ts, i + 1)
  }

  /**
   * The cover step, from the disk before it: a chosen image that exists is
   * converted into `cover.png`; otherwise the first file probed with a
   * cover is the only one tried. Either way `cover_file` names `cover.png`,
   * and the transcoder writes it only when it can make a picture of the
   * source; its exit status is not looked at.
   */
  function PythonCoverStep(files: map<string, Content>, ts: seq<Track>, art: string, outputPath: string, pictures: set<string>)
    : (Option<string>, map<string, Content>)
  {
    var target := TempFile(outputPath, CoverName);
    if art != [] && art in files then
      (Some(target), if art in pictures then files[target := PictureOf(art)] else files)
    else
      match FirstWithCover(ts, 0)
      case Some(k) => (Some(target), if ts[k].path in pictures then files[target := PictureOf(ts[k].path)] else files)
      case None => (None, files)
  }

  method PythonResolveCover(disk: Disk, ts: seq<Track>, art: string, outputPath: string, pictures: set<string>)
    returns (coverFile: Option<string>)
    modifies disk
    ensures (coverFile, disk.files) == PythonCoverStep(old(disk.files), ts, art, outputPath, pictures)
  {
    coverFile := None;
    if art != [] && art in disk.files {
      var target := TempFile(outputPath, CoverName);
      coverFile := Some(target);
      if art in pictures {
        disk.files := disk.files[target := PictureOf(art)];
      }
    } else {
      var i := 0;
      while i < |ts|
        invariant 0 <= i <= |ts|
        invariant FirstWithCover(ts, 0) == FirstWithCover(ts, i)
        invariant coverFile == None && disk.files == old(disk.files)
      {
        if ts[i].hasCover {
          var target := TempFile(outputPath, CoverName);
          coverFile := Some(target);
          if ts[i].path in pictures {
            disk.files := disk.files[target := PictureOf(ts[i].path)];
          }
          break;
        }
        i := i + 1;
      }
    }
  }

  // ---- The whole run ----

  /** The disk once the concat list, the cover and the metadata file are in place. */
  function PythonStaged(files: map<string, Content>, ts: seq<Track>, meta: Dict, art: string, outputPath: string, pictures: set<string>)
    : (Option<string>, map<string, Content>)
  {
    var withList := files[TempFile(outputPath, ConcatName) := Text(PythonConcat(TrackPaths(ts)))];
    var (coverFile, withCover) := PythonCoverStep(withList, ts, art, outputPath, pictures);
    (coverFile, withCover[TempFile(outputPath, MetadataName) := Text(Render(PythonMetadataDoc(meta, ts)))])
  }

  /**
   * The run from the disk before to its result and the disk after: a
   * folder without files and a failed first write change nothing; the
   * temporary files stay when the transcoder fails; otherwise the output is
   * written and the temporary files are removed.
   */
  function PythonRun(files: map<string, Content>, ts: seq<Track>, meta: Dict, art: string, outputPath: string,
                     copyAudio: bool, tools: Tools): (bool, map<string, Content>)
  {
    if ts == [] then (false, files)
    else if !tools.canWrite then (false, files)
    else
      var (coverFile, staged) := PythonStaged(files, ts, meta, art, outputPath, tools.picturesIn);
      if !tools.transcodes then (false, staged)
      else
        var cmd := Arguments(RunInvocation(outputPath, copyAudio, coverFile, staged));
        (true, Cleaned(staged[outputPath := Audiobook(cmd)], outputPath, coverFile))
  }

  /** Writes the concat list, picks the cover and writes the metadata file. */
  method PythonStage(disk: Disk, ts: seq<Track>, meta: Dict, art: string, outputPath: string, pictures: set<string>)
    returns (coverFile: Option<string>)
    modifies disk
    ensures (coverFile, disk.files) == PythonStaged(old(disk.files), ts, meta, art, outputPath, pictures)
  {
    var concatContent := WritePythonConcat(TrackPaths(ts));
    disk.files := disk.files[TempFile(outputPath, ConcatName) := Text(concatContent)];
    coverFile := PythonResolveCover(disk, ts, art, outputPath, pictures);
    var metadataContent := WritePythonMetadata(meta, ts);
    disk.files := disk.files[TempFile(outputPath, MetadataName) := Text(metadataContent)];
  }

  /** `create_m4b(folder_data, output_path, copy_audio)`; `ok` is its return value. */
  method CreateM4b(disk: Disk, folder: FolderData, outputPath: string, copyAudio: bool, tools: Tools)
    returns (ok: bool)
    modifies disk
    ensures (ok, disk.files) == PythonRun(old(disk.files), old(Tracks(folder.audioFiles)), old(folder.metadata),
      old(folder.customArtworkPath), outputPath, copyAudio, tools)
  {
    var tracks, meta, art := Tracks(folder.audioFiles), folder.metadata, folder.customArtworkPath;
    if folder.audioFiles == [] {
      return false;
    }
    if !tools.canWrite {
      return false;
    }
    var coverFile := PythonStage(disk, tracks, meta, art, outputPath, tools.picturesIn);
    var cover := if coverFile.Some? && coverFile.value in disk.files then coverFile else None;
    assert cover == EmbeddedCover(coverFile, disk.files);
    var cmd := BuildArguments(Invocation(TempFile(outputPath, ConcatName), TempFile(outputPath, MetadataName), cover, copyAudio, outputPath));
    if !tools.transcodes {
      return false;
    }
    disk.files := disk.files[outputPath := Audiobook(cmd)];
    Cleanup(disk, outputPath, coverFile);
    ok := true;
  }

  // ---- What the metadata file says ----

  lemma ItemTagValue(item: (string, string), k: string)
    ensures TagValue(ItemTag(item), k) ==
      if item.1 != [] && item.0 == k then Some(PythonTagValue(k, item.1)) else None
  {
    if item.1 != [] {
      assert ItemTag(item)[1..] == [];
    }
  }

  lemma PrefixDistinct(meta: Dict, n: nat)
    requires KeysDistinct(meta) && n <= |meta|
    ensures KeysDistinct(meta[..n])
  {
    assert forall i :: 0 <= i < n ==> meta[..n][i] == meta[i];
  }

  /** `d.get(k)` on one more entry at the end. */
  lemma GetLast(meta: Dict, k: string)
    requires meta != [] && KeysDistinct(meta)
    ensures var init, last := meta[..|meta| - 1], meta[|meta| - 1];
      Get(meta, k) == (if last.0 == k then Some(last.1) else Get(init, k)) &&
      (last.0 == k ==> Get(init, k) == None)
  {
    var init, last := meta[..|meta| - 1], meta[|meta| - 1];
    assert meta == init + [last];
    GetAppend(init, [last], k);
    if last.0 == k {
      GetPresent(init, k);
      assert forall j :: 0 <= j < |init| ==> Keys(init)[j] == init[j].0 == meta[j].0 != k;
    }
  }

  /**
   * What the written file says for each key of the folder's dict: its
   * value when it is non-empty (a timestamp `date` cut at its first `-`),
   * nothing when it is empty, and nothing for a key the dict does not hold.
   */
  lemma {:induction false} PythonTagValues(meta: Dict, k: string)
    requires KeysDistinct(meta)
    ensures TagValue(PythonGlobals(meta), k) ==
      match Get(meta, k)
      case Some(v) => if v != [] then Some(PythonTagValue(k, v)) else None
      case None => None
    decreases |meta|
  {
    if meta != [] {
      var init, last := meta[..|meta| - 1], meta[|meta| - 1];
      PrefixDistinct(meta, |meta| - 1);
      PythonTagValues(init, k);
      GetLast(meta, k);
      assert PythonGlobals(meta) == PythonGlobals(init) + ItemTag(last);
      TagValueAppend(PythonGlobals(init), ItemTag(last), k);
      ItemTagValue(last, k);
    }
  }

  /** Tags the file can carry unchanged: no newline or backslash in a key or a value, no `=` in a key. */
  predicate DictWritable(meta: Dict) {
    forall i :: 0 <= i < |meta| ==> '=' !in meta[i].0 && LineSafe(meta[i].0) && LineSafe(meta[i].1)
  }

  lemma {:induction false} PythonGlobalsWritable(meta: Dict)
    requires DictWritable(meta)
    ensures TagsWritable(PythonGlobals(meta))
    decreases |meta|
  {
    if meta != [] {
      var init, last := meta[..|meta| - 1], meta[|meta| - 1];
      assert DictWritable(init) by {
        assert forall i :: 0 <= i < |init| ==> init[i] == meta[i];
      }
      PythonGlobalsWritable(init);
      if last.1 != [] {
        var v := PythonTagValue(last.0, last.1);
        assert v == last.1[..|v|];
        assert LineSafe(v) by {
          forall j | 0 <= j < |v| ensures v[j] != '\n' && v[j] != '\\' {
            assert v[j] == last.1[j];
          }
        }
        assert ItemTag(last) == [(last.0, v)];
      }
      TagsWritableAppend(PythonGlobals(init), ItemTag(last));
    }
  }

  lemma PythonTitlesWritable(ds: seq<real>)
    ensures TitlesWritable(PythonChapters(ds))
  {
    var cs := PythonChapters(ds);
    forall i | 0 <= i < |cs|
      ensures LineSafe(cs[i].title)
    {
      assert cs[i] == PythonChapter(ds, i);
      ElectronMetadata.ChapterLabelPlain(i + 1);
    }
  }

  /**
   * The file round-trips: the transcoder reads back the dict's non-empty
   * tags in dict order and one chapter per file, as long as no key or
   * value holds a newline or a backslash and no key an `=`.
   */
  lemma PythonMetadataReadsBack(meta: Dict, ts: seq<Track>)
    requires DictWritable(meta)
    ensures Read(Render(PythonMetadataDoc(meta, ts))) == Some(PythonMetadataDoc(meta, ts))
    ensures CountLine(Lines(PythonMetadataDoc(meta, ts)), "[CHAPTER]") == |ts|
  {
    PythonGlobalsWritable(meta);
    PythonTitlesWritable(TrackDurations(ts));
    ReadRender(PythonMetadataDoc(meta, ts));
    MarkerCountIsChapterCount(PythonMetadataDoc(meta, ts));
  }

  /**
   * The two `date` rules agree exactly when the value holds a `T` or no
   * `-`: the Electron back end cuts every date at its first `-`, the Python
   * tool only a timestamp.
   */
  lemma DateRules(value: string)
    ensures PythonTagValue("date", value) == ElectronMetadata.YearOnly(value) <==> ('T' in value || '-' !in value)
  {
    if 'T' !in value && '-' in value {
      var y := ElectronMetadata.YearOnly(value);
      assert '-' !in y;
    }
  }

  lemma PlainDate()
    ensures 'T' !in "2011-05-03"
  {
  }

  /** A plain `2011-05-03` stays whole here and becomes `2011` in the Electron file. */
  lemma DateRuleExample()
    ensures PythonTagValue("date", "2011-05-03") == "2011-05-03"
    ensures ElectronMetadata.YearOnly("2011-05-03") == "2011"
  {
    var day := "2011-05-03";
    assert day == "2011" + ['-'] + "05-03";
    ElectronMetadata.YearOnlyOfDate("2011", "05-03");
    PlainDate();
  }

  // ---- What a run leaves behind ----

  /** The cover step writes nothing but `cover.png`. */
  lemma PythonCoverStepKeeps(files: map<string, Content>, ts: seq<Track>, art: string, outputPath: string,
                             pictures: set<string>, p: string)
    requires p != TempFile(outputPath, CoverName)
    ensures var after := PythonCoverStep(files, ts, art, outputPath, pictures).1;
      (p in after <==> p in files) && (p in files ==> after[p] == files[p])
  {
  }

  /** Staging writes the concat list, the metadata file and `cover.png`, and nothing else. */
  lemma PythonStagedKeeps(files: map<string, Content>, ts: seq<Track>, meta: Dict, art: string, outputPath: string,
                          pictures: set<string>, p: string)
    requires p != TempFile(outputPath, ConcatName) && p != TempFile(outputPath, MetadataName)
    requires p != TempFile(outputPath, CoverName)
    ensures var staged := PythonStaged(files, ts, meta, art, outputPath, pictures).1;
      (p in staged <==> p in files) && (p in files ==> staged[p] == files[p])
  {
    var withList := files[TempFile(outputPath, ConcatName) := Text(PythonConcat(TrackPaths(ts)))];
    PythonCoverStepKeeps(withList, ts, art, outputPath, pictures, p);
  }

  /**
   * What the transcoder is given: the concat list of the folder's paths and
   * the metadata document of its tags and chapters, both in the output's
   * directory.
   */
  lemma PythonStagedInputs(files: map<string, Content>, ts: seq<Track>, meta: Dict, art: string, outputPath: string,
                           pictures: set<string>)
    ensures var staged := PythonStaged(files, ts, meta, art, outputPath, pictures).1;
      staged[TempFile(outputPath, ConcatName)] == Text(PythonConcat(TrackPaths(ts))) &&
      staged[TempFile(outputPath, MetadataName)] == Text(Render(PythonMetadataDoc(meta, ts)))
  {
    var concat := TempFile(outputPath, ConcatName);
    var withList := files[concat := Text(PythonConcat(TrackPaths(ts)))];
    FixedNamesApart();
    TempFilesApart(outputPath, CoverName);
    PythonCoverStepKeeps(withList, ts, art, outputPath, pictures, concat);
  }

  /**
   * The transcoder reads back what the folder holds: the concat demuxer
   * finds the files' paths (slashes normalised) in order, and the metadata
   * reader finds the dict's non-empty tags and one chapter per file.
   */
  lemma PythonStagedInputsReadBack(files: map<string, Content>, ts: seq<Track>, meta: Dict, art: string,
                                   outputPath: string, pictures: set<string>)
    requires forall i :: 0 <= i < |ts| ==> '\n' !in ts[i].path
    requires DictWritable(meta)
    ensures var staged := PythonStaged(files, ts, meta, art, outputPath, pictures).1;
      var list := staged[TempFile(outputPath, ConcatName)];
      var doc := staged[TempFile(outputPath, MetadataName)];
      list.Text? && ParseConcat(list.text) == Some(SlashedPaths(TrackPaths(ts))) &&
      doc.Text? && Read(doc.text) == Some(PythonMetadataDoc(meta, ts))
  {
    PythonStagedInputs(files, ts, meta, art, outputPath, pictures);
    PythonConcatRoundTrip(TrackPaths(ts));
    PythonMetadataReadsBack(meta, ts);
  }

  /**
   * The run's result: `True` exactly when the folder has files, the
   * temporary files can be written and the transcoder succeeds; a folder
   * without files or a failed first write leaves the disk as it was.
   */
  lemma PythonRunResult(files: map<string, Content>, ts: seq<Track>, meta: Dict, art: string, outputPath: string,
                        copyAudio: bool, tools: Tools)
    ensures var (ok, after) := PythonRun(files, ts, meta, art, outputPath, copyAudio, tools);
      (ok <==> ts != [] && tools.canWrite && tools.transcodes) &&
      (ts == [] || !tools.canWrite ==> after == files) &&
      (ts != [] && tools.canWrite && !tools.transcodes ==>
        after == PythonStaged(files, ts, meta, art, outputPath, tools.picturesIn).1)
  {
  }

  /**
   * A successful run leaves the output holding what the transcoder made
   * from the command, removes the concat list, the metadata file and the
   * cover it named, and changes no other file.
   */
  lemma PythonSuccessfulRun(files: map<string, Content>, ts: seq<Track>, meta: Dict, art: string, outputPath: string,
                            copyAudio: bool, tools: Tools)
    requires ts != [] && tools.canWrite && tools.transcodes
    requires outputPath != TempFile(outputPath, ConcatName) && outputPath != TempFile(outputPath, MetadataName)
    requires outputPath != TempFile(outputPath, CoverName)
    ensures var staging := PythonStaged(files, ts, meta, art, outputPath, tools.picturesIn);
      var after := PythonRun(files, ts, meta, art, outputPath, copyAudio, tools).1;
      outputPath in after &&
      after[outputPath] == Audiobook(Arguments(RunInvocation(outputPath, copyAudio, staging.0, staging.1))) &&
      TempFile(outputPath, ConcatName) !in after && TempFile(outputPath, MetadataName) !in after &&
      (staging.0.Some? ==> staging.0.value !in after)
    ensures var after := PythonRun(files, ts, meta, art, outputPath, copyAudio, tools).1;
      forall p ::
        (p != outputPath && p != TempFile(outputPath, ConcatName) && p != TempFile(outputPath, MetadataName) &&
         p != TempFile(outputPath, CoverName)) ==>
        (p in after <==> p in files) && (p in files ==> after[p] == files[p])
  {
    var staging := PythonStaged(files, ts, meta, art, outputPath, tools.picturesIn);
    var cmd := Arguments(RunInvocation(outputPath, copyAudio, staging.0, staging.1));
    var produced := staging.1[outputPath := Audiobook(cmd)];
    var after := PythonRun(files, ts, meta, art, outputPath, copyAudio, tools).1;
    assert after == Cleaned(produced, outputPath, staging.0);
    assert staging.0.Some? ==> staging.0.value == TempFile(outputPath, CoverName);
    CleanedFrame(produced, outputPath, staging.0, outputPath);
    CleanedFrame(produced, outputPath, staging.0, TempFile(outputPath, ConcatName));
    CleanedFrame(produced, outputPath, staging.0, TempFile(outputPath, MetadataName));
    if staging.0.Some? {
      CleanedFrame(produced, outputPath, staging.0, staging.0.value);
    }
    forall p |
        p != outputPath && p != TempFile(outputPath, ConcatName) && p != TempFile(outputPath, MetadataName) &&
        p != TempFile(outputPath, CoverName)
      ensures (p in after <==> p in files) && (p in files ==> after[p] == files[p])
    {
      PythonStagedKeeps(files, ts, meta, art, outputPath, tools.picturesIn, p);
      CleanedFrame(produced, outputPath, staging.0, p);
    }
  }

  // ---- Which cover is embedded ----

  /**
   * The file the cover is made from: the chosen image when it exists, else
   * the first file probed with a cover, else none.
   */
  function CoverSource(files: map<string, Content>, ts: seq<Track>, art: string): Option<string> {
    if art != [] && art in files then Some(art)
    else
      match FirstWithCover(ts, 0)
      case Some(k) => Some(ts[k].path)
      case None => None
  }

  /**
   * The cover the transcoder embeds: `cover.png` whenever there is a source
   * and either the picture could be made or a `cover.png` was already in
   * the output's directory, in which case that older file is embedded.
   * Only one source is ever tried.
   */
  lemma PythonCoverChoice(files: map<string, Content>, ts: seq<Track>, meta: Dict, art: string, outputPath: string,
                          pictures: set<string>)
    requires art != TempFile(outputPath, ConcatName)
    ensures var staging := PythonStaged(files, ts, meta, art, outputPath, pictures);
      var target, source := TempFile(outputPath, CoverName), CoverSource(files, ts, art);
      EmbeddedCover(staging.0, staging.1) ==
        if source.Some? && (source.value in pictures || target in files) then Some(target) else None
    ensures var staged := PythonStaged(files, ts, meta, art, outputPath, pictures).1;
      var target, source := TempFile(outputPath, CoverName), CoverSource(files, ts, art);
      (source.Some? && source.value in pictures ==> staged[target] == PictureOf(source.value)) &&
      (source.Some? && source.value !in pictures && target in files ==> staged[target] == files[target])
  {
    var target, source := TempFile(outputPath, CoverName), CoverSource(files, ts, art);
    var concat, metaFile := TempFile(outputPath, ConcatName), TempFile(outputPath, MetadataName);
    var withList := files[concat := Text(PythonConcat(TrackPaths(ts)))];
    var doc := Text(Render(PythonMetadataDoc(meta, ts)));
    var step := PythonCoverStep(withList, ts, art, outputPath, pictures);
    assert PythonStaged(files, ts, meta, art, outputPath, pictures) == (step.0, step.1[metaFile := doc]);
    FixedNamesApart();
    TempFilesApart(outputPath, CoverName);
    assert art in withList <==> art in files;
    assert step.0 == if source.Some? then Some(target) else None;
    assert step.1 == if source.Some? && source.value in pictures then withList[target := PictureOf(source.value)] else withList;
    UpdateKeeps(files, concat, Text(PythonConcat(TrackPaths(ts))), target);
    UpdateKeeps(step.1, metaFile, doc, target);
  }

  /**
   * When the first file probed with a cover gives no picture, the first
   * file that does give one comes later.
   */
  lemma FallbackOrder(folder: Job.Folder, ts: seq<Track>, pictures: set<string>)
    requires |ts| == |folder.files|
    requires forall i :: 0 <= i < |ts| ==> ts[i].path == folder.files[i].path && ts[i].hasCover == folder.files[i].hasCover
    requires FirstWithCover(ts, 0).Some? && ts[FirstWithCover(ts, 0).value].path !in pictures
    requires ElectronCreate.FirstPicture(folder.files, pictures, 0).Some?
    ensures ElectronCreate.FirstPicture(folder.files, pictures, 0).value > FirstWithCover(ts, 0).value
  {
    var k := ElectronCreate.FirstPicture(folder.files, pictures, 0).value;
    assert ts[k].hasCover && ts[k].path in pictures;
  }

  /**
   * The two fallbacks differ when the first file probed with a cover gives
   * no picture but a later one does: the Electron back end goes on to the
   * later file and embeds its picture, the Python tool stops at the first
   * and, without an older `cover.png`, makes an audiobook without a cover.
   */
  lemma CoverFallbackDiffers(files: map<string, Content>, folder: Job.Folder, ts: seq<Track>, meta: Dict,
                             outputPath: string, pictures: set<string>)
    requires folder.coverArt == []
    requires |ts| == |folder.files|
    requires forall i :: 0 <= i < |ts| ==> ts[i].path == folder.files[i].path && ts[i].hasCover == folder.files[i].hasCover
    requires FirstWithCover(ts, 0).Some? && ts[FirstWithCover(ts, 0).value].path !in pictures
    requires ElectronCreate.FirstPicture(folder.files, pictures, 0).Some?
    requires TempFile(outputPath, CoverName) !in files
    ensures ElectronCreate.FirstPicture(folder.files, pictures, 0).value > FirstWithCover(ts, 0).value
    ensures var python := PythonStaged(files, ts, meta, [], outputPath, pictures);
      EmbeddedCover(python.0, python.1) == None
    ensures var electron := ElectronCreate.Staged(files, folder, outputPath, pictures);
      EmbeddedCover(electron.0, electron.1) == Some(TempFile(outputPath, CoverName))
  {
    FallbackOrder(folder, ts, pictures);
    var first, k := FirstWithCover(ts, 0).value, ElectronCreate.FirstPicture(folder.files, pictures, 0).value;
    FixedNamesApart();
    TempFilesApart(outputPath, CoverName);
    PythonCoverChoice(files, ts, meta, [], outputPath, pictures);
    assert CoverSource(files, ts, []) == Some(ts[first].path);
    ElectronCreate.ExtractedCover(files, folder, outputPath, pictures);
    assert folder.files[k].hasCover;
    assert ElectronCreate.AnyCover(folder.files);
  }

  /**
   * A folder without files: the Python tool refuses it and writes nothing.
   * The Electron back end has no such check: once it can write, it stages an
   * empty concat list for the transcoder and reports whatever the
   * transcoder does with it.
   */
  lemma EmptyFolderDiffers(files: map<string, Content>, folder: Job.Folder, meta: Dict, art: string,
                           outputPath: string, copyAudio: bool, tools: Tools)
    requires folder.files == []
    ensures PythonRun(files, [], meta, art, outputPath, copyAudio, tools) == (false, files)
    ensures tools.canWrite ==>
      ElectronCreate.Staged(files, folder, outputPath, tools.picturesIn).1[TempFile(outputPath, ConcatName)] == Text([])
    ensures ElectronCreate.ElectronRun(files, folder, outputPath, copyAudio, tools).0 ==
      if !tools.canWrite then ElectronCreate.Failed(ElectronCreate.WriteFailed)
      else if tools.transcodes then ElectronCreate.Created
      else ElectronCreate.Failed(ElectronCreate.TranscodeFailed)
  {
    ElectronCreate.StagedInputs(files, folder, outputPath, tools.picturesIn);
    assert Job.Paths(folder.files) == [];
  }
}

=== FILE: py_dict.dfy ===
/**
 * The Python tool keeps a folder's tags in a `dict` from string to string.
 * A `dict` remembers the order in which keys were first assigned: assigning
 * to a key it holds changes the value where it stands, assigning to a new
 * key adds it at the end. Here it is its list of entries in that order,
 * each key at most once.
 */
module PyDict {
  import opened Text

  type Dict = seq<(string, string)>

  predicate KeysDistinct(d: Dict) {
    forall i, j :: 0 <= i < j < |d| ==> d[i].0 != d[j].0
  }

  function Keys(d: Dict): (r: seq<string>)
    ensures |r| == |d|
    ensures forall i :: 0 <= i < |d| ==> r[i] == d[i].0
  {
    if d == [] then [] else [d[0].0] + Keys(d[1..])
  }

  /** `d.get(key)`. */
  function Get(d: Dict, key: string): Option<string> {
    if d == [] then None
    else if d[0].0 == key then Some(d[0].1)
    else Get(d[1..], key)
  }

  /** `d[key] = value`. */
  function Set(d: Dict, key: string, value: string): Dict {
    if d == [] then [(key, value)]
    else if d[0].0 == key then [(key, value)] + d[1..]
    else [d[0]] + Set(d[1..], key, value)
  }

  /** `for key, value in b.items(): d[key] = value`. */
  function SetAll(d: Dict, b: Dict): Dict
    decreases |b|
  {
    if b == [] then d else SetAll(Set(d, b[0].0, b[0].1), b[1..])
  }

  /** A key is found exactly when it is among the keys. */
  lemma {:induction false} GetPresent(d: Dict, key: string)
    ensures Get(d, key).Some? <==> key in Keys(d)
  {
    if d != [] {
      GetPresent(d[1..], key);
      assert Keys(d) == [d[0].0] + Keys(d[1..]);
    }
  }

  /**
   * After `d[key] = value` the key reads back as `value` and every other
   * key reads as before.
   */
  lemma {:induction false} SetGet(d: Dict, key: string, value: string, k: string)
    ensures Get(Set(d, key, value), k) == if k == key then Some(value) else Get(d, k)
  {
    if d != [] && d[0].0 != key {
      SetGet(d[1..], key, value, k);
    }
  }

  /**
   * Assignment keeps the order of the keys: a key already there keeps its
   * place, a new key is added at the end.
   */
  lemma {:induction false} SetKeys(d: Dict, key: string, value: string)
    ensures Keys(Set(d, key, value)) == if key in Keys(d) then Keys(d) else Keys(d) + [key]
  {
    if d != [] {
      assert Keys(d) == [d[0].0] + Keys(d[1..]);
      if d[0].0 == key {
        assert Set(d, key, value)[1..] == d[1..];
      } else {
        SetKeys(d[1..], key, value);
        assert Set(d, key, value)[1..] == Set(d[1..], key, value);
        assert key in Keys(d) <==> key in Keys(d[1..]);
      }
    }
  }

  /** Assignment never makes a key appear twice. */
  lemma SetKeepsDistinct(d: Dict, key: string, value: string)
    requires KeysDistinct(d)
    ensures KeysDistinct(Set(d, key, value))
  {
    var r := Set(d, key, value);
    SetKeys(d, key, value);
    var ks, rs := Keys(d), Keys(r);
    forall i, j | 0 <= i < j < |r|
      ensures r[i].0 != r[j].0
    {
      assert rs[i] == r[i].0 && rs[j] == r[j].0;
      if j < |d| {
        assert ks[i] == d[i].0 && ks[j] == d[j].0;
      } else {
        assert ks[i] == d[i].0 && key !in ks;
      }
    }
  }

  /** Each key of `b` reads as its last value in `b`; every other key reads as before. */
  lemma {:induction false} SetAllGet(d: Dict, b: Dict, k: string)
    ensures Get(SetAll(d, b), k) == if Get(Reversed(b), k).Some? then Get(Reversed(b), k) else Get(d, k)
    decreases |b|
  {
    if b != [] {
      var d' := Set(d, b[0].0, b[0].1);
      SetAllGet(d', b[1..], k);
      SetGet(d, b[0].0, b[0].1, k);
      ReversedCons(b);
      GetAppend(Reversed(b[1..]), [b[0]], k);
    }
  }

  function Reversed(b: Dict): (r: Dict)
    ensures |r| == |b|
  {
    if b == [] then [] else Reversed(b[1..]) + [b[0]]
  }

  lemma ReversedCons(b: Dict)
    requires b != []
    ensures Reversed(b) == Reversed(b[1..]) + [b[0]]
  {
  }

  lemma {:induction false} GetAppend(a: Dict, b: Dict, k: string)
    ensures Get(a + b, k) == if Get(a, k).Some? then Get(a, k) else Get(b, k)
  {
    if a != [] {
      assert (a + b)[1..] == a[1..] + b;
      GetAppend(a[1..], b, k);
    } else {
      assert a + b == b;
    }
  }

  /** With distinct keys in `b`, each of them reads as its value in `b`. */
  lemma {:induction false} GetReversed(b: Dict, k: string)
    requires KeysDistinct(b)
    ensures Get(Reversed(b), k) == Get(b, k)
    decreases |b|
  {
    if b != [] {
      GetReversed(b[1..], k);
      GetAppend(Reversed(b[1..]), [b[0]], k);
      if b[0].0 == k {
        assert forall j :: 0 <= j < |b[1..]| ==> Keys(b[1..])[j] == b[j + 1].0 != k;
        GetPresent(b[1..], k);
      }
    }
  }

  /**
   * Assigning the entries of a dict with distinct keys: those keys read as
   * their new values, every other key as before.
   */
  lemma SetAllOverwrites(d: Dict, b: Dict, k: string)
    requires KeysDistinct(b)
    ensures Get(SetAll(d, b), k) == if Get(b, k).Some? then Get(b, k) else Get(d, k)
  {
    SetAllGet(d, b, k);
    GetReversed(b, k);
  }

  /** Assigning never removes a key nor moves one, and adds only keys of `b`. */
  lemma {:induction false} SetAllKeys(d: Dict, b: Dict)
    ensures |Keys(SetAll(d, b))| >= |Keys(d)| && Keys(SetAll(d, b))[..|Keys(d)|] == Keys(d)
    ensures forall k :: k in Keys(SetAll(d, b)) ==> k in Keys(d) || k in Keys(b)
    decreases |b|
  {
    if b != [] {
      var d' := Set(d, b[0].0, b[0].1);
      SetKeys(d, b[0].0, b[0].1);
      SetAllKeys(d', b[1..]);
      assert Keys(b) == [b[0].0] + Keys(b[1..]);
      assert Keys(d')[..|Keys(d)|] == Keys(d);
    }
  }

  /** Assigning a key the value it already reads as changes nothing. */
  lemma {:induction false} SetSame(d: Dict, key: string, value: string)
    requires Get(d, key) == Some(value)
    ensures Set(d, key, value) == d
  {
    if d[0].0 != key {
      SetSame(d[1..], key, value);
    }
  }

  /** Assigning entries the dict already holds changes nothing. */
  lemma {:induction false} SetAllFixed(d: Dict, b: Dict)
    requires forall i :: 0 <= i < |b| ==> Get(d, b[i].0) == Some(b[i].1)
    ensures SetAll(d, b) == d
    decreases |b|
  {
    if b != [] {
      SetSame(d, b[0].0, b[0].1);
      SetAllFixed(d, b[1..]);
    }
  }

  lemma GetEntry(b: Dict, i: nat)
    requires KeysDistinct(b) && i < |b|
    ensures Get(b, b[i].0) == Some(b[i].1)
  {
    if i > 0 {
      assert b[1..][i - 1] == b[i];
      GetEntry(b[1..], i - 1);
    }
  }

  /** Assigning the same entries twice is assigning them once. */
  lemma SetAllIdempotent(d: Dict, b: Dict)
    requires KeysDistinct(b)
    ensures SetAll(SetAll(d, b), b) == SetAll(d, b)
  {
    forall i | 0 <= i < |b|
      ensures Get(SetAll(d, b), b[i].0) == Some(b[i].1)
    {
      SetAllOverwrites(d, b, b[i].0);
      GetEntry(b, i);
    }
    SetAllFixed(SetAll(d, b), b);
  }
}

=== FILE: py_files.dfy ===
/**
 * The Python tool's file and folder state. An `AudioFile` probes its file
 * once, when it is made, and keeps what the prober found in its fields. A
 * `FolderData` lists the folder's audio files in sorted path order, takes
 * the first file's tags as the folder's tags, and reorders its list in
 * place.
 *
 * The prober is a function from a path to its outcome; the folder is a
 * directory tree given as a value.
 */
module CreatorFiles {
  import opened Text
  import opened FileTree
  import opened PathOrder
  import opened Probe
  import opened PyDict
  import ElectronScan
  import Job

  // ---- AudioFile ----

  /** What an `AudioFile` knows about its file besides the path. */
  datatype FileState = FileState(
    metadata: map<string, string>,
    duration: real,
    hasCover: bool,
    coverStreamIndex: Option<nat>)

  /** The values `__init__` gives the fields before probing. */
  const Unprobed: FileState := FileState(map[], 0.0, false, None)

  /**
   * `extract_metadata`: nothing changes unless the prober succeeded; then the
   * duration and the tags come from `format` when it carries them, and the
   * first cover stream, if there is one, sets the cover flag and its index.
   */
  function Extracted(s: FileState, o: ProbeOutcome): FileState {
    match o
    case ProbeFailed => s
    case Probed(data) =>
      var format := data.format;
      var cover := if data.streams.Some? then FirstCover(data.streams.value) else None;
      FileState(
        if format.Some? && format.value.tags.Some? then format.value.tags.value else s.metadata,
        if format.Some? && format.value.duration.Some? then format.value.duration.value else s.duration,
        if cover.Some? then true else s.hasCover,
        if cover.Some? then cover else s.coverStreamIndex)
  }

  class AudioFile {
    var path: string
    var metadata: map<string, string>
    var duration: real
    var hasCover: bool
    var coverStreamIndex: Option<nat>

    function State(): FileState
      reads this
    {
      FileState(metadata, duration, hasCover, coverStreamIndex)
    }

    /** `AudioFile(path)`: the fields start unprobed, then the file is probed. */
    constructor(path: string, probe: ProbeOutcome)
      ensures this.path == path && State() == Extracted(Unprobed, probe)
    {
      this.path := path;
      metadata := map[];
      duration := 0.0;
      hasCover := false;
      coverStreamIndex := None;
      new;
      ExtractMetadata(probe);
    }

    /** Reads the prober's outcome into the fields; the stream loop stops at the first cover stream. */
    method ExtractMetadata(probe: ProbeOutcome)
      modifies this
      ensures path == old(path) && State() == Extracted(old(State()), probe)
    {
      if probe.Probed? {
        var data := probe.data;
        if data.format.Some? && data.format.value.duration.Some? {
          duration := data.format.value.duration.value;
        }
        if data.format.Some? && data.format.value.tags.Some? {
          metadata := data.format.value.tags.value;
        }
        if data.streams.Some? {
          var streams := data.streams.value;
          var idx := 0;
          while idx < |streams|
            invariant 0 <= idx <= |streams|
            invariant forall j :: 0 <= j < idx ==> !IsCoverStream(streams[j])
            invariant hasCover == old(hasCover) && coverStreamIndex == old(coverStreamIndex)
          {
            if IsCoverStream(streams[idx]) {
              hasCover := true;
              coverStreamIndex := Some(idx);
              break;
            }
            idx := idx + 1;
          }
        }
      }
    }
  }

  /**
   * Both implementations read a probe alike: a freshly probed file has the
   * duration, cover flag and tags the Electron handler reports, a failed
   * probe leaves the starting values, and the cover index is the position
   * of the first cover stream.
   */
  lemma ProbeReadingsAgree(o: ProbeOutcome)
    ensures var s, info := Extracted(Unprobed, o), ElectronFileInfo(o);
      s.duration == info.duration && s.hasCover == info.hasCover && s.metadata == info.tags
    ensures o.ProbeFailed? ==> Extracted(Unprobed, o) == Unprobed
    ensures var s := Extracted(Unprobed, o);
      s.coverStreamIndex == if o.Probed? && o.data.streams.Some? then FirstCover(o.data.streams.value) else None
    ensures var s := Extracted(Unprobed, o);
      s.hasCover <==> (o.Probed? && o.data.streams.Some? &&
        exists i :: 0 <= i < |o.data.streams.value| && IsCoverStream(o.data.streams.value[i]))
  {
  }

  /** The paths of a list of files, in list order. */
  function FilePaths(fs: seq<AudioFile>): (r: seq<string>)
    reads fs
    ensures |r| == |fs| && forall i :: 0 <= i < |fs| ==> r[i] == fs[i].path
  {
    if fs == [] then [] else [fs[0].path] + FilePaths(fs[1..])
  }

  /** Every file holds what probing its path gave, from the starting values. */
  predicate FreshlyProbed(fs: seq<AudioFile>, probe: string -> ProbeOutcome)
    reads fs
  {
    forall j :: 0 <= j < |fs| ==> fs[j].State() == Extracted(Unprobed, probe(fs[j].path))
  }

  // ---- Listing a folder ----

  /** The names `os.walk` reports as files of a directory: every entry that is not a directory. */
  function FileNames(entries: seq<Entry>, i: nat): seq<string>
    requires i <= |entries|
    decreases |entries| - i
  {
    if i == |entries| then []
    else (if entries[i].kind.Directory? then [] else [entries[i].name]) + FileNames(entries, i + 1)
  }

  /**
   * What `os.walk(dir)` yields, top down: the directory with the names of
   * its files, then the same for each subdirectory in listing order. A
   * directory that cannot be listed yields nothing (the walk ignores the
   * error).
   */
  function Walk(dir: string, listing: Listing): seq<(string, seq<string>)>
    decreases listing, if listing.Readable? then |listing.entries| + 1 else 0
  {
    if listing.Unreadable? then []
    else [(dir, FileNames(listing.entries, 0))] + SubWalks(dir, listing, 0)
  }

  function SubWalks(dir: string, listing: Listing, i: nat): seq<(string, seq<string>)>
    requires listing.Readable? && i <= |listing.entries|
    decreases listing, |listing.entries| - i
  {
    if i == |listing.entries| then []
    else
      var e := listing.entries[i];
      (if e.kind.Directory? then Walk(JoinPath(dir, e.name), e.kind.contents) else []) + SubWalks(dir, listing, i + 1)
  }

  /** The paths the recursive branch appends for the files of one directory. */
  function Matching(root: string, names: seq<string>, accepts: string -> bool): seq<string> {
    if names == [] then []
    else (if accepts(names[0]) then [JoinPath(root, names[0])] else []) + Matching(root, names[1..], accepts)
  }

  /** The paths the recursive branch appends over the whole walk. */
  function Gathered(groups: seq<(string, seq<string>)>, accepts: string -> bool): seq<string> {
    if groups == [] then []
    else Matching(groups[0].0, groups[0].1, accepts) + Gathered(groups[1..], accepts)
  }

  /** The non-recursive branch: the regular files listed directly in the folder whose name is accepted. */
  function Listed(dir: string, entries: seq<Entry>, i: nat, accepts: string -> bool): seq<string>
    requires i <= |entries|
    decreases |entries| - i
  {
    if i == |entries| then []
    else
      (if entries[i].kind == RegularFile && accepts(entries[i].name) then [JoinPath(dir, entries[i].name)] else []) +
      Listed(dir, entries, i + 1, accepts)
  }

  /**
   * The paths `load_files` collects before sorting them, or `None` when
   * `os.listdir` raises (a folder that cannot be listed, without
   * `recursive`).
   */
  function Found(folderPath: string, recursive: bool, listing: Listing, accepts: string -> bool): Option<seq<string>> {
    if recursive then Some(Gathered(Walk(folderPath, listing), accepts))
    else if listing.Unreadable? then None
    else Some(Listed(folderPath, listing.entries, 0, accepts))
  }

  /** `Path(folder_path).name`. */
  function FolderName(folderPath: string): string {
    ElectronScan.BaseName(folderPath)
  }

  /** `d.get(key, default)` on the tags the prober returned. */
  function GetOr(tags: map<string, string>, key: string, default: string): string {
    if key in tags then tags[key] else default
  }

  /** The folder's tags taken from its first file's tags. */
  function InitialMetadata(tags: map<string, string>, folderName: string): Dict {
    [("title", GetOr(tags, "album", GetOr(tags, "title", folderName))),
     ("artist", GetOr(tags, "artist", "")),
     ("album", GetOr(tags, "album", "")),
     ("date", GetOr(tags, "date", "")),
     ("genre", GetOr(tags, "genre", ""))]
  }

  // ---- Reordering ----

  function Swapped<T>(s: seq<T>, i: nat, j: nat): seq<T>
    requires i < |s| && j < |s|
  {
    s[i := s[j]][j := s[i]]
  }

  /** `move_file_up(index)`: swap with the previous file when there is one. */
  function MovedUp<T>(s: seq<T>, index: int): seq<T> {
    if 0 < index < |s| then Swapped(s, index - 1, index) else s
  }

  /** `move_file_down(index)`: swap with the next file when there is one. */
  function MovedDown<T>(s: seq<T>, index: int): seq<T> {
    if 0 <= index < |s| - 1 then Swapped(s, index, index + 1) else s
  }

  class FolderData {
    var folderPath: string
    var folderName: string
    var recursive: bool
    var audioFiles: seq<AudioFile>
    var metadata: Dict
    var outputName: string
    var customArtworkPath: string   // empty for `None`

    /** `__init__` up to the call of `load_files`. */
    constructor(folderPath: string, recursive: bool)
      ensures this.folderPath == folderPath && folderName == FolderName(folderPath) && this.recursive == recursive
      ensures audioFiles == [] && metadata == [] && outputName == folderName && customArtworkPath == []
    {
      this.folderPath := folderPath;
      folderName := FolderName(folderPath);
      this.recursive := recursive;
      audioFiles := [];
      metadata := [];
      outputName := FolderName(folderPath);
      customArtworkPath := [];
    }

    /**
     * `load_files`, which `__init__` calls on the empty list: collect the
     * audio files, make an `AudioFile` for each in sorted path order, and
     * take the folder's tags from the first one. `raised` is the exception
     * `os.listdir` throws for a folder it cannot list; nothing changes then.
     */
    method LoadFiles(tree: Listing, probe: string -> ProbeOutcome) returns (raised: bool)
      requires audioFiles == []
      modifies this
      ensures raised <==> Found(folderPath, recursive, tree, IsAudioName).None?
      ensures folderPath == old(folderPath) && folderName == old(folderName) && recursive == old(recursive)
      ensures outputName == old(outputName) && customArtworkPath == old(customArtworkPath)
      ensures raised ==> audioFiles == [] && metadata == old(metadata)
      ensures !raised ==>
        Sorted(FilePaths(audioFiles), CodePoint) &&
        multiset(FilePaths(audioFiles)) == multiset(Found(folderPath, recursive, tree, IsAudioName).value) &&
        (forall j :: 0 <= j < |audioFiles| ==> fresh(audioFiles[j])) && FreshlyProbed(audioFiles, probe)
      ensures !raised ==>
        metadata == if audioFiles != [] then InitialMetadata(audioFiles[0].metadata, folderName) else old(metadata)
    {
      var found := FindFiles(folderPath, recursive, tree, IsAudioName);
      if found.None? {
        return true;
      }
      raised := false;
      var sorted := SortedPaths(found.value);
      AddFiles(sorted, probe);
      TakeFirstTags(probe);
    }

    /** The last step of `load_files`: the folder's tags from the first file, when there is one. */
    method TakeFirstTags(ghost probe: string -> ProbeOutcome)
      modifies this
      ensures folderPath == old(folderPath) && folderName == old(folderName) && recursive == old(recursive)
      ensures outputName == old(outputName) && customArtworkPath == old(customArtworkPath) && audioFiles == old(audioFiles)
      ensures FilePaths(audioFiles) == old(FilePaths(audioFiles))
      ensures FreshlyProbed(audioFiles, probe) == old(FreshlyProbed(audioFiles, probe))
      ensures metadata == if audioFiles != [] then InitialMetadata(audioFiles[0].metadata, folderName) else old(metadata)
    {
      if audioFiles != [] {
        var firstFile := audioFiles[0];
        metadata := InitialMetadata(firstFile.metadata, folderName);
      }
    }

    /** The loop of `load_files` that makes an `AudioFile` per path, in the order given. */
    method AddFiles(paths: seq<string>, probe: string -> ProbeOutcome)
      requires audioFiles == []
      modifies this
      ensures folderPath == old(folderPath) && folderName == old(folderName) && recursive == old(recursive)
      ensures outputName == old(outputName) && customArtworkPath == old(customArtworkPath) && metadata == old(metadata)
      ensures FilePaths(audioFiles) == paths
      ensures (forall j :: 0 <= j < |audioFiles| ==> fresh(audioFiles[j])) && FreshlyProbed(audioFiles, probe)
    {
      var i := 0;
      while i < |paths|
        invariant 0 <= i <= |paths| && |audioFiles| == i
        invariant forall j :: 0 <= j < i ==> audioFiles[j].path == paths[j]
        invariant forall j :: 0 <= j < i ==>
          fresh(audioFiles[j]) && audioFiles[j].State() == Extracted(Unprobed, probe(audioFiles[j].path))
        invariant folderPath == old(folderPath) && folderName == old(folderName) && recursive == old(recursive)
        invariant outputName == old(outputName) && customArtworkPath == old(customArtworkPath) && metadata == old(metadata)
      {
        var audioFile := new AudioFile(paths[i], probe(paths[i]));
        audioFiles := audioFiles + [audioFile];
        i := i + 1;
      }
      assert FilePaths(audioFiles) == paths;
    }

    /** `move_file_up(index)`. */
    method MoveFileUp(index: int)
      modifies this
      ensures audioFiles == MovedUp(old(audioFiles), index)
      ensures folderPath == old(folderPath) && folderName == old(folderName) && recursive == old(recursive)
      ensures metadata == old(metadata) && outputName == old(outputName) && customArtworkPath == old(customArtworkPath)
    {
      if 0 < index < |audioFiles| {
        var previous, current := audioFiles[index - 1], audioFiles[index];
        audioFiles := audioFiles[index := previous][index - 1 := current];
      }
    }

    /** `move_file_down(index)`. */
    method MoveFileDown(index: int)
      modifies this
      ensures audioFiles == MovedDown(old(audioFiles), index)
      ensures folderPath == old(folderPath) && folderName == old(folderName) && recursive == old(recursive)
      ensures metadata == old(metadata) && outputName == old(outputName) && customArtworkPath == old(customArtworkPath)
    {
      if 0 <= index < |audioFiles| - 1 {
        var current, next := audioFiles[index], audioFiles[index + 1];
        audioFiles := audioFiles[index := next][index + 1 := current];
      }
    }
  }

  /** `sorted(file_paths)`, which compares code points. */
  method SortedPaths(paths: seq<string>) returns (sorted: seq<string>)
    ensures Sorted(sorted, CodePoint) && multiset(sorted) == multiset(paths)
  {
    sorted := Sort(paths, CodePoint);
  }

  /**
   * The search of `load_files`: `os.walk` below the folder when recursive,
   * `os.listdir` of the folder otherwise, where an unreadable folder raises.
   */
  method FindFiles(folderPath: string, recursive: bool, tree: Listing, accepts: string -> bool)
    returns (found: Option<seq<string>>)
    ensures found == Found(folderPath, recursive, tree, accepts)
  {
    if recursive {
      var filePaths := CollectWalked(folderPath, tree, accepts);
      found := Some(filePaths);
    } else if tree.Unreadable? {
      found := None;
    } else {
      var filePaths := CollectListed(folderPath, tree.entries, accepts);
      found := Some(filePaths);
    }
  }

  method CollectWalked(folderPath: string, tree: Listing, accepts: string -> bool) returns (filePaths: seq<string>)
    ensures filePaths == Gathered(Walk(folderPath, tree), accepts)
  {
    var groups := Walk(folderPath, tree);
    filePaths := [];
    var g := 0;
    while g < |groups|
      invariant 0 <= g <= |groups|
      invariant filePaths + Gathered(groups[g..], accepts) == Gathered(groups, accepts)
    {
      var (root, files) := groups[g];
      assert groups[g..] == [groups[g]] + groups[g + 1..];
      AppendAssoc(filePaths, Matching(root, files, accepts), Gathered(groups[g + 1..], accepts));
      filePaths := AppendMatching(filePaths, root, files, accepts);
      g := g + 1;
    }
    assert groups[g..] == [];
  }

  /** The inner loop over the files of one directory. */
  method AppendMatching(filePaths: seq<string>, root: string, files: seq<string>, accepts: string -> bool)
    returns (r: seq<string>)
    ensures r == filePaths + Matching(root, files, accepts)
  {
    r := filePaths;
    var k := 0;
    while k < |files|
      invariant 0 <= k <= |files|
      invariant r + Matching(root, files[k..], accepts) == filePaths + Matching(root, files, accepts)
    {
      assert files[k..][1..] == files[k + 1..];
      if accepts(files[k]) {
        r := r + [JoinPath(root, files[k])];
      }
      k := k + 1;
    }
    assert files[k..] == [];
  }

  /** The path an entry of the listing contributes: itself when it is an accepted regular file. */
  function ListedEntry(dir: string, e: Entry, accepts: string -> bool): seq<string> {
    if e.kind == RegularFile && accepts(e.name) then [JoinPath(dir, e.name)] else []
  }

  lemma ListedStep(dir: string, entries: seq<Entry>, i: nat, accepts: string -> bool, prefix: seq<string>)
    requires i < |entries|
    ensures prefix + Listed(dir, entries, i, accepts) ==
      (prefix + ListedEntry(dir, entries[i], accepts)) + Listed(dir, entries, i + 1, accepts)
  {
    var head, rest := ListedEntry(dir, entries[i], accepts), Listed(dir, entries, i + 1, accepts);
    assert Listed(dir, entries, i, accepts) == head + rest;
    AppendAssoc(prefix, head, rest);
  }

  /** The non-recursive branch over `os.listdir`. */
  method CollectListed(folderPath: string, entries: seq<Entry>, accepts: string -> bool) returns (filePaths: seq<string>)
    ensures filePaths == Listed(folderPath, entries, 0, accepts)
  {
    filePaths := [];
    var i := 0;
    while i < |entries|
      invariant 0 <= i <= |entries|
      invariant filePaths + Listed(folderPath, entries, i, accepts) == Listed(folderPath, entries, 0, accepts)
    {
      var filePath := JoinPath(folderPath, entries[i].name);
      ListedStep(folderPath, entries, i, accepts, filePaths);
      ghost var before := filePaths;
      if entries[i].kind == RegularFile && accepts(entries[i].name) {
        filePaths := filePaths + [filePath];
      }
      assert filePaths == before + ListedEntry(folderPath, entries[i], accepts);
      i := i + 1;
    }
  }

  /**
   * `FolderData(folder_path, recursive)`: `null` stands for the exception
   * a folder that cannot be listed raises without `recursive`.
   */
  method OpenFolder(folderPath: string, recursive: bool, tree: Listing, probe: string -> ProbeOutcome)
    returns (folder: FolderData?)
    ensures folder == null <==> !recursive && tree.Unreadable?
    ensures folder != null ==>
      fresh(folder) && folder.folderPath == folderPath && folder.folderName == FolderName(folderPath) &&
      folder.recursive == recursive && folder.outputName == folder.folderName && folder.customArtworkPath == [] &&
      Sorted(FilePaths(folder.audioFiles), CodePoint) &&
      multiset(FilePaths(folder.audioFiles)) == multiset(Found(folderPath, recursive, tree, IsAudioName).value) &&
      (forall i :: 0 <= i < |folder.audioFiles| ==> fresh(folder.audioFiles[i])) && FreshlyProbed(folder.audioFiles, probe) &&
      folder.metadata == if folder.audioFiles == [] then [] else InitialMetadata(folder.audioFiles[0].metadata, folder.folderName)
  {
    folder := new FolderData(folderPath, recursive);
    var raised := folder.LoadFiles(tree, probe);
    if raised {
      folder := null;
    }
  }

  // ---- What loading finds ----

  /** Entry `e` of directory `dir` is a regular file with an accepted name whose path is `p`. */
  predicate Keeps(dir: string, e: Entry, accepts: string -> bool, p: string) {
    e.kind == RegularFile && accepts(e.name) && p == JoinPath(dir, e.name)
  }

  /** The non-recursive branch keeps exactly the accepted regular files listed directly in the folder. */
  lemma {:induction false} ListedIff(dir: string, entries: seq<Entry>, i: nat, accepts: string -> bool, p: string)
    requires i <= |entries|
    ensures p in Listed(dir, entries, i, accepts) <==> exists k :: i <= k < |entries| && Keeps(dir, entries[k], accepts, p)
    decreases |entries| - i
  {
    if i < |entries| {
      ListedIff(dir, entries, i + 1, accepts, p);
      var e := entries[i];
      var head := if e.kind == RegularFile && accepts(e.name) then [JoinPath(dir, e.name)] else [];
      assert Listed(dir, entries, i, accepts) == head + Listed(dir, entries, i + 1, accepts);
      assert p in head <==> Keeps(dir, e, accepts, p);
      if exists k :: i <= k < |entries| && Keeps(dir, entries[k], accepts, p) {
        var k :| i <= k < |entries| && Keeps(dir, entries[k], accepts, p);
        if k > i {
          assert i + 1 <= k < |entries| && Keeps(dir, entries[k], accepts, p);
        }
      }
    }
  }

  predicate NoStatFailure(entries: seq<Entry>) {
    forall i :: 0 <= i < |entries| ==> !entries[i].kind.StatFails?
  }

  /**
   * Without `recursive`, the two implementations find the same files in
   * the same order as long as every `stat` succeeds. (When one fails, the
   * Electron scan abandons the rest of the folder and `os.path.isfile`
   * only skips that entry.)
   */
  lemma {:induction false} ListedMatchesShallowScan(dir: string, entries: seq<Entry>, i: nat, accepts: string -> bool)
    requires i <= |entries| && NoStatFailure(entries)
    ensures Listed(dir, entries, i, accepts) == ElectronScan.ScanFrom(dir, Readable(entries), i, false, accepts)
    decreases |entries| - i
  {
    if i < |entries| {
      ListedMatchesShallowScan(dir, entries, i + 1, accepts);
    }
  }

  lemma {:induction false} MatchingAppend(root: string, a: seq<string>, b: seq<string>, accepts: string -> bool)
    ensures Matching(root, a + b, accepts) == Matching(root, a, accepts) + Matching(root, b, accepts)
  {
    if a != [] {
      assert (a + b)[1..] == a[1..] + b;
      MatchingAppend(root, a[1..], b, accepts);
    } else {
      assert a + b == b;
    }
  }

  lemma {:induction false} GatheredAppend(a: seq<(string, seq<string>)>, b: seq<(string, seq<string>)>, accepts: string -> bool)
    ensures Gathered(a + b, accepts) == Gathered(a, accepts) + Gathered(b, accepts)
  {
    if a != [] {
      assert (a + b)[1..] == a[1..] + b;
      GatheredAppend(a[1..], b, accepts);
    } else {
      assert a + b == b;
    }
  }

  /** The files the non-recursive branch finds are among the top directory's files in the walk. */
  lemma {:induction false} ListedInFileNames(dir: string, entries: seq<Entry>, i: nat, accepts: string -> bool)
    requires i <= |entries|
    ensures forall p :: p in Listed(dir, entries, i, accepts) ==> p in Matching(dir, FileNames(entries, i), accepts)
    decreases |entries| - i
  {
    if i < |entries| {
      ListedInFileNames(dir, entries, i + 1, accepts);
      var e := entries[i];
      var rest := FileNames(entries, i + 1);
      var head := if e.kind == RegularFile && accepts(e.name) then [JoinPath(dir, e.name)] else [];
      assert Listed(dir, entries, i, accepts) == head + Listed(dir, entries, i + 1, accepts);
      if e.kind.Directory? {
        assert FileNames(entries, i) == rest;
      } else {
        var names := FileNames(entries, i);
        assert names == [e.name] + rest;
        assert names[1..] == rest;
        var first := if accepts(e.name) then [JoinPath(dir, e.name)] else [];
        assert Matching(dir, names, accepts) == first + Matching(dir, rest, accepts);
        forall p | p in Listed(dir, entries, i, accepts)
          ensures p in Matching(dir, names, accepts)
        {
          if p in head {
            assert p in first;
          } else {
            assert p in Matching(dir, rest, accepts);
          }
        }
      }
    }
  }

  /** A recursive load finds every file a non-recursive load of the same folder finds. */
  lemma RecursiveFindsShallow(dir: string, entries: seq<Entry>, accepts: string -> bool)
    ensures forall p :: p in Listed(dir, entries, 0, accepts) ==> p in Gathered(Walk(dir, Readable(entries)), accepts)
  {
    var walk := Walk(dir, Readable(entries));
    ListedInFileNames(dir, entries, 0, accepts);
    assert walk[0] == (dir, FileNames(entries, 0)) && walk[1..] == SubWalks(dir, Readable(entries), 0);
  }

  /** A tree with only regular files and directories below readable directories. */
  predicate Plain(listing: Listing)
    decreases listing
  {
    listing.Readable? ==>
      forall i :: 0 <= i < |listing.entries| ==>
        listing.entries[i].kind.RegularFile? ||
        (listing.entries[i].kind.Directory? && Plain(listing.entries[i].kind.contents))
  }

  /**
   * With `recursive`, on a tree of regular files and directories, the walk
   * finds the same files as the Electron scan, though in another order:
   * `os.walk` lists a directory's files before descending, the scan
   * descends where it meets a subdirectory.
   */
  lemma {:induction false} WalkFindsScanned(dir: string, listing: Listing, accepts: string -> bool)
    requires Plain(listing)
    ensures multiset(Gathered(Walk(dir, listing), accepts)) == multiset(ElectronScan.Scanned(dir, listing, true, accepts))
    decreases listing, if listing.Readable? then |listing.entries| + 1 else 0
  {
    if listing.Readable? {
      var walk := Walk(dir, listing);
      var top := (dir, FileNames(listing.entries, 0));
      var subs := SubWalks(dir, listing, 0);
      assert walk == [top] + subs;
      GatheredAppend([top], subs, accepts);
      assert Gathered([top], accepts) == Matching(dir, FileNames(listing.entries, 0), accepts) by {
        assert [top][1..] == [];
      }
      ScanFromSplits(dir, listing, 0, accepts);
    }
  }

  lemma {:induction false} ScanFromSplits(dir: string, listing: Listing, i: nat, accepts: string -> bool)
    requires Plain(listing) && listing.Readable? && i <= |listing.entries|
    ensures multiset(ElectronScan.ScanFrom(dir, listing, i, true, accepts)) ==
      multiset(Matching(dir, FileNames(listing.entries, i), accepts)) + multiset(Gathered(SubWalks(dir, listing, i), accepts))
    decreases listing, |listing.entries| - i
  {
    if i < |listing.entries| {
      var e := listing.entries[i];
      ScanFromSplits(dir, listing, i + 1, accepts);
      if e.kind.RegularFile? {
        FileStep(dir, listing, i, accepts);
      } else {
        WalkFindsScanned(JoinPath(dir, e.name), e.kind.contents, accepts);
        DirectoryStep(dir, listing, i, accepts);
      }
    }
  }

  /** A regular file adds the same path to the scan and to the top directory's group. */
  lemma FileStep(dir: string, listing: Listing, i: nat, accepts: string -> bool)
    requires listing.Readable? && i < |listing.entries| && listing.entries[i].kind.RegularFile?
    requires multiset(ElectronScan.ScanFrom(dir, listing, i + 1, true, accepts)) ==
      multiset(Matching(dir, FileNames(listing.entries, i + 1), accepts)) + multiset(Gathered(SubWalks(dir, listing, i + 1), accepts))
    ensures multiset(ElectronScan.ScanFrom(dir, listing, i, true, accepts)) ==
      multiset(Matching(dir, FileNames(listing.entries, i), accepts)) + multiset(Gathered(SubWalks(dir, listing, i), accepts))
  {
    var e := listing.entries[i];
    var head := if accepts(e.name) then [JoinPath(dir, e.name)] else [];
    var restNames := FileNames(listing.entries, i + 1);
    var scanned, matched := ElectronScan.ScanFrom(dir, listing, i + 1, true, accepts), Matching(dir, restNames, accepts);
    var gathered := Gathered(SubWalks(dir, listing, i + 1), accepts);
    assert ElectronScan.Pushed(dir, e, true, accepts) == head;
    assert ElectronScan.ScanFrom(dir, listing, i, true, accepts) == head + scanned;
    assert FileNames(listing.entries, i) == [e.name] + restNames;
    assert ([e.name] + restNames)[1..] == restNames;
    assert Matching(dir, FileNames(listing.entries, i), accepts) == head + matched;
    assert SubWalks(dir, listing, i) == SubWalks(dir, listing, i + 1);
    calc {
      multiset(head + scanned);
      multiset(head) + multiset(scanned);
      multiset(head) + (multiset(matched) + multiset(gathered));
      (multiset(head) + multiset(matched)) + multiset(gathered);
      multiset(head + matched) + multiset(gathered);
    }
  }

  /** A subdirectory adds its whole scan to the scan and its whole walk to the walk. */
  lemma DirectoryStep(dir: string, listing: Listing, i: nat, accepts: string -> bool)
    requires listing.Readable? && i < |listing.entries| && listing.entries[i].kind.Directory?
    requires var e := listing.entries[i];
      multiset(Gathered(Walk(JoinPath(dir, e.name), e.kind.contents), accepts)) ==
      multiset(ElectronScan.Scanned(JoinPath(dir, e.name), e.kind.contents, true, accepts))
    requires multiset(ElectronScan.ScanFrom(dir, listing, i + 1, true, accepts)) ==
      multiset(Matching(dir, FileNames(listing.entries, i + 1), accepts)) + multiset(Gathered(SubWalks(dir, listing, i + 1), accepts))
    ensures multiset(ElectronScan.ScanFrom(dir, listing, i, true, accepts)) ==
      multiset(Matching(dir, FileNames(listing.entries, i), accepts)) + multiset(Gathered(SubWalks(dir, listing, i), accepts))
  {
    var e := listing.entries[i];
    var sub := JoinPath(dir, e.name);
    var inner := Walk(sub, e.kind.contents);
    var restWalks := SubWalks(dir, listing, i + 1);
    assert ElectronScan.Pushed(dir, e, true, accepts) == ElectronScan.Scanned(sub, e.kind.contents, true, accepts);
    assert ElectronScan.ScanFrom(dir, listing, i, true, accepts) ==
      ElectronScan.Scanned(sub, e.kind.contents, true, accepts) + ElectronScan.ScanFrom(dir, listing, i + 1, true, accepts);
    assert FileNames(listing.entries, i) == FileNames(listing.entries, i + 1);
    assert SubWalks(dir, listing, i) == inner + restWalks;
    GatheredAppend(inner, restWalks, accepts);
  }

  /**
   * The Python load and the Electron handler find the same paths unless a
   * `stat` fails without `recursive`, or the tree holds something other
   * than regular files and directories with `recursive`. Each sorts them in
   * its own collation, so the two lists are equal when no path holds a
   * character above U+FFFF.
   */
  lemma LoadMatchesElectronScan(dir: string, recursive: bool, listing: Listing, accepts: string -> bool,
                                loaded: seq<string>, scanned: seq<string>)
    requires Found(dir, recursive, listing, accepts).Some?
    requires if recursive then Plain(listing) else NoStatFailure(listing.entries)
    requires Sorted(loaded, CodePoint) && multiset(loaded) == multiset(Found(dir, recursive, listing, accepts).value)
    requires Sorted(scanned, CodeUnit) && multiset(scanned) == multiset(ElectronScan.Scanned(dir, listing, recursive, accepts))
    ensures multiset(loaded) == multiset(scanned)
    ensures (forall i :: 0 <= i < |loaded| ==> InBmp(loaded[i])) ==> loaded == scanned
  {
    if recursive {
      WalkFindsScanned(dir, listing, accepts);
    } else {
      ListedMatchesShallowScan(dir, listing.entries, 0, accepts);
    }
    if forall i :: 0 <= i < |loaded| ==> InBmp(loaded[i]) {
      forall i, j | 0 <= i < j < |scanned| ensures LessEq(scanned[i], scanned[j], CodePoint) {
        assert scanned[i] in multiset(loaded) && scanned[j] in multiset(loaded);
        CollationsAgreeInBmp(scanned[i], scanned[j]);
      }
      SortedUnique(loaded, scanned, CodePoint);
    }
  }

  /** Every path the walk finds ends in an accepted name. */
  lemma {:induction false} GatheredAccepted(groups: seq<(string, seq<string>)>, accepts: string -> bool)
    requires forall g :: 0 <= g < |groups| ==> forall k :: 0 <= k < |groups[g].1| ==> PathSep !in groups[g].1[k]
    ensures forall p :: p in Gathered(groups, accepts) ==> accepts(ElectronScan.BaseName(p))
  {
    if groups != [] {
      GatheredAccepted(groups[1..], accepts);
      MatchingAccepted(groups[0].0, groups[0].1, accepts);
    }
  }

  lemma {:induction false} MatchingAccepted(root: string, names: seq<string>, accepts: string -> bool)
    requires forall k :: 0 <= k < |names| ==> PathSep !in names[k]
    ensures forall p :: p in Matching(root, names, accepts) ==> accepts(ElectronScan.BaseName(p))
  {
    if names != [] {
      MatchingAccepted(root, names[1..], accepts);
      LastNameOfJoin(root, names[0]);
    }
  }

  // ---- The folder's tags ----

  /**
   * The folder's title is the first file's `album` tag when it has one
   * (even an empty one), else its `title` tag, else the folder's name; the
   * other four come from the tags of the same name, empty when missing.
   */
  lemma InitialMetadataValues(tags: map<string, string>, folderName: string)
    ensures var d := InitialMetadata(tags, folderName);
      Keys(d) == ["title", "artist", "album", "date", "genre"] && KeysDistinct(d) &&
      Get(d, "title") == Some(if "album" in tags then tags["album"] else if "title" in tags then tags["title"] else folderName) &&
      Get(d, "artist") == Some(GetOr(tags, "artist", "")) &&
      Get(d, "album") == Some(GetOr(tags, "album", "")) &&
      Get(d, "date") == Some(GetOr(tags, "date", "")) &&
      Get(d, "genre") == Some(GetOr(tags, "genre", ""))
  {
    var d := InitialMetadata(tags, folderName);
    InitialMetadataKeys(tags, folderName);
    GetEntry(d, 0);
    GetEntry(d, 1);
    GetEntry(d, 2);
    GetEntry(d, 3);
    GetEntry(d, 4);
  }

  lemma InitialMetadataKeys(tags: map<string, string>, folderName: string)
    ensures var d := InitialMetadata(tags, folderName);
      Keys(d) == ["title", "artist", "album", "date", "genre"] && KeysDistinct(d)
  {
    Job.TagKeysDistinct();
    var d := InitialMetadata(tags, folderName);
    var ks := Keys(d);
    assert ks[0] == "title" && ks[1] == "artist" && ks[2] == "album" && ks[3] == "date" && ks[4] == "genre";
  }

  // ---- Reordering ----

  /** Moving a file up keeps the same files, and moves only the two it swaps. */
  lemma MoveUpPermutes<T>(s: seq<T>, index: int)
    ensures |MovedUp(s, index)| == |s| && multiset(MovedUp(s, index)) == multiset(s)
    ensures 0 < index < |s| ==> MovedUp(s, index)[index - 1] == s[index] && MovedUp(s, index)[index] == s[index - 1]
    ensures forall j :: 0 <= j < |s| && j != index && j != index - 1 ==> MovedUp(s, index)[j] == s[j]
  {
    if 0 < index < |s| {
      SwapPermutes(s, index - 1, index);
    }
  }

  /** Moving a file down keeps the same files, and moves only the two it swaps. */
  lemma MoveDownPermutes<T>(s: seq<T>, index: int)
    ensures |MovedDown(s, index)| == |s| && multiset(MovedDown(s, index)) == multiset(s)
    ensures 0 <= index < |s| - 1 ==> MovedDown(s, index)[index] == s[index + 1] && MovedDown(s, index)[index + 1] == s[index]
    ensures forall j :: 0 <= j < |s| && j != index && j != index + 1 ==> MovedDown(s, index)[j] == s[j]
  {
    if 0 <= index < |s| - 1 {
      SwapPermutes(s, index, index + 1);
    }
  }

  lemma SwapPermutes<T>(s: seq<T>, i: nat, j: nat)
    requires i < j < |s|
    ensures multiset(Swapped(s, i, j)) == multiset(s)
  {
    var t := s[i := s[j]];
    assert multiset(t) == multiset(s) - multiset{s[i]} + multiset{s[j]};
    assert multiset(t[j := s[i]]) == multiset(t) - multiset{t[j]} + multiset{s[i]};
  }

  /** Moving a file up and then down again (or down and then up) restores the list, whatever the index. */
  lemma MoveUpThenDown<T>(s: seq<T>, index: int)
    ensures MovedDown(MovedUp(s, index), index - 1) == s
    ensures MovedUp(MovedDown(s, index), index + 1) == s
  {
  }

  /** Moving file `index` up is moving file `index - 1` down. */
  lemma MoveUpIsMoveDown<T>(s: seq<T>, index: int)
    ensures MovedUp(s, index) == MovedDown(s, index - 1)
  {
  }
}

=== FILE: shell_command.dfy ===
/**
 * The Electron back end does not hand `ffmpeg` an argument vector: it
 * builds one command line, each path between double quotes, and runs it
 * through the shell. This module renders that line from the same options
 * as the vector and reads it back as a shell splits it into arguments:
 * tokens end at unquoted spaces, and a double quote only switches quoting
 * on or off. For paths without a double quote, the arguments the line
 * splits into are exactly the vector.
 */
module ShellCommand {
  import opened FfmpegCommand

  // ---- The command line ----

  /** One word of the line: written as it is, or between double quotes. */
  datatype Word = Bare(text: string) | Quoted(text: string)

  function Show(w: Word): string {
    match w
    case Bare(t) => t
    case Quoted(t) => "\"" + t + "\""
  }

  /** The words, one space apart. */
  function Line(ws: seq<Word>): string {
    if ws == [] then []
    else if |ws| == 1 then Show(ws[0])
    else Show(ws[0]) + " " + Line(ws[1..])
  }

  /** The handler quotes the input paths and the brand; every other value is written bare. */
  function ValueWord(o: Opt, v: string): Word {
    if o == Input || o == Brand then Quoted(v) else Bare(v)
  }

  function OptionWords(ps: Options): seq<Word> {
    match ps
    case Done => []
    case Then(o, v, rest) => [Bare(Flag(o)), ValueWord(o, v)] + OptionWords(rest)
  }

  /** The words of the handler's command line: `ffmpeg`, the options in order, `-y` and the quoted output path. */
  function CommandWords(inv: Invocation): seq<Word> {
    [Bare("ffmpeg")] + OptionWords(CommandOptions(inv)) + [Bare("-y"), Quoted(inv.outputPath)]
  }

  /** The command line the Electron handler runs. */
  function CommandLine(inv: Invocation): string {
    Line(CommandWords(inv))
  }

  // ---- Splitting a line into arguments ----

  /**
   * One argument read from the start of `s`: its text and how many
   * characters it took. It ends at a space outside quotes or at the end;
   * a double quote is dropped and switches quoting.
   */
  function Token(s: string, quoted: bool): (r: (string, nat))
    ensures r.1 <= |s|
    ensures s != [] && (quoted || s[0] != ' ') ==> r.1 >= 1
  {
    if s == [] then ([], 0)
    else if s[0] == '"' then
      var (t, n) := Token(s[1..], !quoted);
      (t, n + 1)
    else if s[0] == ' ' && !quoted then ([], 0)
    else
      var (t, n) := Token(s[1..], quoted);
      ([s[0]] + t, n + 1)
  }

  /** The arguments a line splits into; spaces between them are skipped. */
  function Tokens(s: string): seq<string>
    decreases |s|
  {
    if s == [] then []
    else if s[0] == ' ' then Tokens(s[1..])
    else
      var (t, n) := Token(s, false);
      [t] + Tokens(s[n..])
  }

  // ---- What the line splits into ----

  /** Neither a space nor a double quote. */
  predicate Plain(t: string) {
    ' ' !in t && '"' !in t
  }

  predicate WordOk(w: Word) {
    match w
    case Bare(t) => t != [] && Plain(t)
    case Quoted(t) => '"' !in t
  }

  function Texts(ws: seq<Word>): seq<string> {
    if ws == [] then [] else [ws[0].text] + Texts(ws[1..])
  }

  /** What follows a word: nothing, or a space. */
  predicate Boundary(rest: string) {
    rest == [] || rest[0] == ' '
  }

  lemma {:induction false} BareToken(t: string, rest: string, quoted: bool)
    requires Plain(t) && Boundary(rest) && !quoted
    ensures Token(t + rest, quoted) == (t, |t|)
  {
    if t == [] {
      assert t + rest == rest;
    } else {
      assert (t + rest)[1..] == t[1..] + rest;
      assert t[0] in t;
      assert Plain(t[1..]) by {
        assert forall c :: c in t[1..] ==> c in t;
      }
      BareToken(t[1..], rest, quoted);
      assert [t[0]] + t[1..] == t;
    }
  }

  /** Inside quotes everything up to the closing quote is taken, spaces included. */
  lemma {:induction false} QuotedToken(t: string, rest: string)
    requires '"' !in t && Boundary(rest)
    ensures Token(t + "\"" + rest, true) == (t, |t| + 1)
  {
    if t == [] {
      assert t + "\"" + rest == "\"" + rest;
      assert ("\"" + rest)[1..] == rest;
    } else {
      assert (t + "\"" + rest)[1..] == t[1..] + "\"" + rest;
      QuotedToken(t[1..], rest);
      assert [t[0]] + t[1..] == t;
    }
  }

  /** A well-formed word followed by a boundary is read as its text. */
  lemma WordToken(w: Word, rest: string)
    requires WordOk(w) && Boundary(rest)
    ensures Token(Show(w) + rest, false) == (w.text, |Show(w)|)
    ensures Show(w) != [] && Show(w)[0] != ' '
  {
    match w
    case Bare(t) =>
      BareToken(t, rest, false);
    case Quoted(t) =>
      var s := "\"" + t + "\"" + rest;
      assert s[0] == '"';
      assert s[1..] == t + "\"" + rest by {
        Text.AppendAssoc("\"" + t, "\"", rest);
        Text.AppendAssoc("\"", t, "\"" + rest);
        Text.AppendAssoc(t, "\"", rest);
      }
      QuotedToken(t, rest);
  }

  /** Splitting the rendered words gives back their texts. */
  lemma {:induction false} TokensLine(ws: seq<Word>)
    requires forall i :: 0 <= i < |ws| ==> WordOk(ws[i])
    ensures Tokens(Line(ws)) == Texts(ws)
  {
    if |ws| == 1 {
      WordToken(ws[0], []);
      assert Show(ws[0]) + [] == Show(ws[0]);
      assert Show(ws[0])[|Show(ws[0])|..] == [];
    } else if |ws| > 1 {
      var first, rest := Show(ws[0]), Line(ws[1..]);
      var s := first + " " + rest;
      assert s == first + (" " + rest) by {
        Text.AppendAssoc(first, " ", rest);
      }
      WordToken(ws[0], " " + rest);
      assert s[|first|..] == " " + rest;
      assert (" " + rest)[1..] == rest;
      TokensLine(ws[1..]);
    }
  }

  // ---- The handler's line ----

  /** No double quote in a path. */
  predicate QuoteFree(p: string) {
    '"' !in p
  }

  /** The options' words are well formed: bare values are plain, quoted ones free of quotes. */
  predicate OptionsOk(ps: Options) {
    match ps
    case Done => true
    case Then(o, v, rest) => Flag(o) != [] && Plain(Flag(o)) && WordOk(ValueWord(o, v)) && OptionsOk(rest)
  }

  lemma FlagsPlain(o: Opt)
    ensures Flag(o) != [] && Plain(Flag(o))
  {
    match o
    case Format | Safe | Input | Map | MapMetadata => InputFlagsPlain();
    case Codec | AudioCodecOpt | AudioBitrateOpt | VideoCodec => CodecFlagsPlain();
    case Disposition | Metadata | Brand | MovFlags => TailFlagsPlain();
  }

  lemma InputFlagsPlain()
    ensures Plain("-f") && Plain("-safe") && Plain("-i") && Plain("-map") && Plain("-map_metadata")
  {
  }

  lemma CodecFlagsPlain()
    ensures Plain("-c") && Plain("-c:a") && Plain("-b:a") && Plain("-c:v")
  {
  }

  lemma TailFlagsPlain()
    ensures Plain("-disposition:v:0") && Plain("-metadata") && Plain("-brand") && Plain("-movflags")
  {
  }

  lemma {:induction false} OptionsOkAppend(a: Options, b: Options)
    requires OptionsOk(a) && OptionsOk(b)
    ensures OptionsOk(Append(a, b))
  {
    match a
    case Done =>
    case Then(o, v, rest) => OptionsOkAppend(rest, b);
  }

  lemma {:induction false} OptionWordsOk(ps: Options)
    requires OptionsOk(ps)
    ensures forall i :: 0 <= i < |OptionWords(ps)| ==> WordOk(OptionWords(ps)[i])
    ensures Texts(OptionWords(ps)) == Flatten(ps)
  {
    match ps
    case Done =>
    case Then(o, v, rest) =>
      OptionWordsOk(rest);
      var ws := OptionWords(rest);
      TextsAppend([Bare(Flag(o)), ValueWord(o, v)], ws);
  }

  lemma {:induction false} TextsAppend(a: seq<Word>, b: seq<Word>)
    ensures Texts(a + b) == Texts(a) + Texts(b)
  {
    if a == [] {
      assert a + b == b;
    } else {
      assert (a + b)[1..] == a[1..] + b;
      TextsAppend(a[1..], b);
    }
  }

  /** One option is well formed when its value's word is. */
  lemma ThenOk(o: Opt, v: string, rest: Options)
    requires WordOk(ValueWord(o, v)) && OptionsOk(rest)
    ensures OptionsOk(Then(o, v, rest))
  {
    FlagsPlain(o);
  }

  lemma HeadValuesPlain()
    ensures Plain("concat") && Plain("0")
  {
  }

  lemma TailValuesPlain()
    ensures Plain("media_type=2") && Plain("track=1") && Plain("mp4") && Plain("+faststart") && '"' !in "M4A "
  {
  }

  lemma MapValuesPlain()
    ensures Plain("0:a") && Plain("2:v") && Plain("1") && Plain("copy")
  {
  }

  lemma CodecValuesPlain()
    ensures Plain("aac") && Plain("128k") && Plain("attached_pic")
  {
  }

  lemma HeadOk()
    ensures OptionsOk(HeadOptions)
  {
    HeadValuesPlain();
    ThenOk(Safe, "0", Done);
    ThenOk(Format, "concat", Then(Safe, "0", Done));
  }

  lemma TailOk()
    ensures OptionsOk(TailOptions)
  {
    TailValuesPlain();
    var t4 := Then(MovFlags, "+faststart", Done);
    ThenOk(MovFlags, "+faststart", Done);
    var t3 := Then(Format, "mp4", t4);
    ThenOk(Format, "mp4", t4);
    var t2 := Then(Brand, "M4A ", t3);
    ThenOk(Brand, "M4A ", t3);
    var t1 := Then(Metadata, "track=1", t2);
    ThenOk(Metadata, "track=1", t2);
    ThenOk(Metadata, "media_type=2", t1);
  }

  lemma CoverOptionsOk(copyAudio: bool)
    ensures OptionsOk(CoverOptions(copyAudio))
  {
    MapValuesPlain();
    CodecValuesPlain();
    var pic := Then(Disposition, "attached_pic", Done);
    ThenOk(Disposition, "attached_pic", Done);
    var video := Then(VideoCodec, "copy", pic);
    ThenOk(VideoCodec, "copy", pic);
    var codecs: Options;
    if copyAudio {
      codecs := Then(AudioCodecOpt, "copy", video);
      ThenOk(AudioCodecOpt, "copy", video);
    } else {
      var rate := Then(AudioBitrateOpt, "128k", video);
      ThenOk(AudioBitrateOpt, "128k", video);
      codecs := Then(AudioCodecOpt, "aac", rate);
      ThenOk(AudioCodecOpt, "aac", rate);
    }
    var tags := Then(MapMetadata, "1", codecs);
    ThenOk(MapMetadata, "1", codecs);
    var second := Then(Map, "2:v", tags);
    ThenOk(Map, "2:v", tags);
    ThenOk(Map, "0:a", second);
    assert CoverOptions(copyAudio) == Then(Map, "0:a", second);
  }

  lemma PlainOptionsOk(copyAudio: bool)
    ensures OptionsOk(PlainOptions(copyAudio))
  {
    MapValuesPlain();
    CodecValuesPlain();
    var codecs: Options;
    if copyAudio {
      codecs := Then(Codec, "copy", Done);
      ThenOk(Codec, "copy", Done);
    } else {
      var rate := Then(AudioBitrateOpt, "128k", Done);
      ThenOk(AudioBitrateOpt, "128k", Done);
      codecs := Then(AudioCodecOpt, "aac", rate);
      ThenOk(AudioCodecOpt, "aac", rate);
    }
    ThenOk(MapMetadata, "1", codecs);
    assert PlainOptions(copyAudio) == Then(MapMetadata, "1", codecs);
  }

  lemma InputOptionsOk(inv: Invocation)
    requires QuoteFree(inv.concatFile) && QuoteFree(inv.metadataFile)
    requires inv.cover.Some? ==> QuoteFree(inv.cover.value)
    ensures OptionsOk(InputOptions(inv.concatFile, inv.metadataFile, inv.cover))
  {
    var last := match inv.cover case Some(c) => Then(Input, c, Done) case None => Done;
    if inv.cover.Some? {
      ThenOk(Input, inv.cover.value, Done);
    }
    ThenOk(Input, inv.metadataFile, last);
    ThenOk(Input, inv.concatFile, Then(Input, inv.metadataFile, last));
  }

  /** The whole option list of any well-quoted invocation is well formed. */
  lemma CommandOptionsOk(inv: Invocation)
    requires QuoteFree(inv.concatFile) && QuoteFree(inv.metadataFile)
    requires inv.cover.Some? ==> QuoteFree(inv.cover.value)
    ensures OptionsOk(CommandOptions(inv))
  {
    var inputs := InputOptions(inv.concatFile, inv.metadataFile, inv.cover);
    var mapping := MappingOptions(inv.cover.Some?, inv.copyAudio);
    HeadOk();
    TailOk();
    if inv.cover.Some? { CoverOptionsOk(inv.copyAudio); } else { PlainOptionsOk(inv.copyAudio); }
    InputOptionsOk(inv);
    OptionsOkAppend(mapping, TailOptions);
    OptionsOkAppend(inputs, Append(mapping, TailOptions));
    OptionsOkAppend(HeadOptions, Append(inputs, Append(mapping, TailOptions)));
  }

  predicate AllOk(ws: seq<Word>) {
    forall i :: 0 <= i < |ws| ==> WordOk(ws[i])
  }

  lemma ThreeParts(a: seq<Word>, b: seq<Word>, c: seq<Word>)
    requires AllOk(a) && AllOk(b) && AllOk(c)
    ensures AllOk(a + b + c)
    ensures Texts(a + b + c) == Texts(a) + Texts(b) + Texts(c)
  {
    TextsAppend(a + b, c);
    TextsAppend(a, b);
  }

  lemma EndsOk(out: string)
    requires QuoteFree(out)
    ensures AllOk([Bare("ffmpeg")]) && AllOk([Bare("-y"), Quoted(out)])
    ensures Texts([Bare("ffmpeg")]) == ["ffmpeg"] && Texts([Bare("-y"), Quoted(out)]) == ["-y", out]
  {
    assert Plain("ffmpeg") && Plain("-y");
    assert [Bare("-y"), Quoted(out)][1..] == [Quoted(out)];
    assert Texts([Quoted(out)]) == [out] by {
      assert [Quoted(out)][1..] == [];
    }
  }

  /**
   * For paths without a double quote, the handler's command line splits
   * into exactly the argument vector: the same arguments, in the same order.
   */
  lemma CommandLineArguments(inv: Invocation)
    requires QuoteFree(inv.concatFile) && QuoteFree(inv.metadataFile) && QuoteFree(inv.outputPath)
    requires inv.cover.Some? ==> QuoteFree(inv.cover.value)
    ensures Tokens(CommandLine(inv)) == Arguments(inv)
  {
    var ps := CommandOptions(inv);
    CommandOptionsOk(inv);
    OptionWordsOk(ps);
    EndsOk(inv.outputPath);
    ThreeParts([Bare("ffmpeg")], OptionWords(ps), [Bare("-y"), Quoted(inv.outputPath)]);
    TokensLine(CommandWords(inv));
  }

  /**
   * A double quote inside a path ends the quoting early: the one path
   * `a" "b` reaches the transcoder as the two arguments `a` and `b`.
   */
  lemma QuoteInPathSplits(a: string, b: string)
    requires QuoteFree(a) && QuoteFree(b)
    ensures Tokens(Line([Quoted(a + "\" \"" + b)])) == [a, b]
  {
    var q: string := "\"";
    var sp: string := " ";
    assert "\" \"" == q + sp + q;
    var lhs := q + (a + (q + sp + q) + b) + q;
    var rhs := (q + a + q) + sp + (q + b + q);
    assert lhs == rhs by {
      assert |lhs| == |rhs|;
      forall i | 0 <= i < |lhs| ensures lhs[i] == rhs[i] {
        if i == 0 {
        } else if i <= |a| {
          assert lhs[i] == a[i - 1] && rhs[i] == a[i - 1];
        } else if i <= |a| + 3 {
        } else if i < |lhs| - 1 {
          assert lhs[i] == b[i - |a| - 4] && rhs[i] == b[i - |a| - 4];
        }
      }
    }
    var ws := [Quoted(a), Quoted(b)];
    assert Line(ws) == rhs by {
      assert ws[1..] == [Quoted(b)];
    }
    TokensLine(ws);
    assert Texts(ws) == [a, b] by {
      assert ws[1..] == [Quoted(b)] && [Quoted(b)][1..] == [];
      assert Texts([Quoted(b)]) == [b] + Texts([]);
      assert Texts(ws) == [a] + Texts([Quoted(b)]);
    }
  }
}

=== FILE: text.dfy ===
/**
 * String helpers shared by both implementations of the pipeline: the
 * `split`/`pop`/`trim`/`replace` operations the source applies to paths and
 * tag values, decimal rendering of chapter offsets, and the quote escaping
 * of the concatenation list together with its inverse.
 */
module Text {

  datatype Option<T> = None | Some(value: T)

  lemma AppendAssoc<T>(a: seq<T>, b: seq<T>, d: seq<T>)
    ensures (a + b) + d == a + (b + d)
  {
  }

  /** Whose notion of whitespace: Python's `str.strip()` or JavaScript's `String.prototype.trim()`. */
  datatype Language = Python | JavaScript

  /** Inclusive code-point ranges, tried in order. */
  datatype Ranges = End | Range(lo: int, hi: int, rest: Ranges)

  predicate InRanges(n: int, ranges: Ranges) {
    ranges.Range? && (ranges.lo <= n <= ranges.hi || InRanges(n, ranges.rest))
  }

  /**
   * Whitespace both languages strip: the ASCII controls tab to carriage
   * return, the space, and the Unicode space separators and line and
   * paragraph separators.
   */
  const CommonSpaces: Ranges :=
    Range(0x09, 0x0D, Range(0x20, 0x20, Range(0xA0, 0xA0, Range(0x1680, 0x1680, Range(0x2000, 0x200A,
    Range(0x2028, 0x2029, Range(0x202F, 0x202F, Range(0x205F, 0x205F, Range(0x3000, 0x3000, End)))))))))

  /**
   * Python also strips the separators U+001C..U+001F and U+0085;
   * JavaScript also trims the byte order mark U+FEFF.
   */
  function Spaces(lang: Language): Ranges {
    if lang == Python then Range(0x1C, 0x1F, Range(0x85, 0x85, CommonSpaces)) else Range(0xFEFF, 0xFEFF, CommonSpaces)
  }

  predicate IsWhitespace(c: char, lang: Language) {
    InRanges(c as int, Spaces(lang))
  }

  function TrimStart(s: string, lang: Language): (r: string)
    ensures |r| <= |s| && r == s[|s| - |r|..]
    ensures forall i :: 0 <= i < |s| - |r| ==> IsWhitespace(s[i], lang)
    ensures r == [] || !IsWhitespace(r[0], lang)
  {
    if s != [] && IsWhitespace(s[0], lang) then TrimStart(s[1..], lang) else s
  }

  function TrimEnd(s: string, lang: Language): (r: string)
    ensures |r| <= |s| && r == s[..|r|]
    ensures forall i :: |r| <= i < |s| ==> IsWhitespace(s[i], lang)
    ensures r == [] || !IsWhitespace(r[|r| - 1], lang)
  {
    if s != [] && IsWhitespace(s[|s| - 1], lang) then TrimEnd(s[..|s| - 1], lang) else s
  }

  /** `value.strip()` / `value.trim()`: drop whitespace at both ends. */
  function Trim(s: string, lang: Language): (r: string)
    ensures |r| <= |s|
    ensures r == [] || (!IsWhitespace(r[0], lang) && !IsWhitespace(r[|r| - 1], lang))
  {
    TrimEnd(TrimStart(s, lang), lang)
  }

  /** Where the trimmed text starts in the input. */
  function TrimOffset(s: string, lang: Language): (a: nat)
    ensures a <= |s|
  {
    |s| - |TrimStart(s, lang)|
  }

  /** The trimmed text is the slice `s[a..a + |r|]` of the input, `a` being where it starts. */
  lemma {:induction false} TrimSlice(s: string, lang: Language)
    ensures TrimOffset(s, lang) + |Trim(s, lang)| <= |s|
    ensures Trim(s, lang) == s[TrimOffset(s, lang)..TrimOffset(s, lang) + |Trim(s, lang)|]
  {
    SliceOfSuffix(s, TrimOffset(s, lang), TrimStart(s, lang), Trim(s, lang));
  }

  lemma SliceOfSuffix(s: string, a: nat, m: string, r: string)
    requires a <= |s| && m == s[a..] && |r| <= |m| && r == m[..|r|]
    ensures a + |r| <= |s| && r == s[a..a + |r|]
  {
  }

  /** Every character trimming drops, before and after the slice it keeps, is whitespace. */
  lemma {:induction false} TrimDropsWhitespace(s: string, lang: Language)
    ensures forall i :: 0 <= i < TrimOffset(s, lang) ==> IsWhitespace(s[i], lang)
    ensures forall i :: TrimOffset(s, lang) + |Trim(s, lang)| <= i < |s| ==> IsWhitespace(s[i], lang)
  {
    var m := TrimStart(s, lang);
    var a, r := TrimOffset(s, lang), TrimEnd(m, lang);
    forall i | a + |r| <= i < |s| ensures IsWhitespace(s[i], lang) {
      assert m == s[a..];
      assert s[i] == m[i - a];
    }
  }

  /** Trimming twice is trimming once. */
  lemma {:induction false} TrimIdempotent(s: string, lang: Language)
    ensures Trim(Trim(s, lang), lang) == Trim(s, lang)
  {
    var r := Trim(s, lang);
    assert TrimStart(r, lang) == r;
    assert TrimEnd(r, lang) == r;
  }

  /** Left-trimmed text that is blank after right-trimming was empty already. */
  lemma BlankAfterTrimStart(a: string, lang: Language)
    requires a == [] || !IsWhitespace(a[0], lang)
    requires TrimEnd(a, lang) == []
    ensures a == []
  {
  }

  /** A string is blank (falsy after `strip()` or `trim()`) exactly when every character is whitespace. */
  lemma {:induction false} TrimEmptyIffBlank(s: string, lang: Language)
    ensures Trim(s, lang) == [] <==> forall i :: 0 <= i < |s| ==> IsWhitespace(s[i], lang)
  {
    var a := TrimStart(s, lang);
    if Trim(s, lang) == [] {
      BlankAfterTrimStart(a, lang);
    } else {
      var k := |s| - |a|;
      assert a[0] == s[k];
    }
  }

  /** The no-break space U+00A0 is whitespace to both languages. */
  lemma NoBreakSpaceTrimmedByBoth()
    ensures Trim(['\U{A0}'], Python) == [] && Trim(['\U{A0}'], JavaScript) == []
  {
    WhiteCharTrimmed('\U{A0}', Python);
    WhiteCharTrimmed('\U{A0}', JavaScript);
  }

  /** The next-line control U+0085 is whitespace to Python only. */
  lemma NextLineTrimmedByPythonOnly()
    ensures Trim(['\U{85}'], Python) == [] && Trim(['\U{85}'], JavaScript) == ['\U{85}']
  {
    WhiteCharTrimmed('\U{85}', Python);
    assert !InRanges(0x85, Spaces(JavaScript));
    SolidCharKept('\U{85}', JavaScript);
  }

  /** The byte order mark U+FEFF is whitespace to JavaScript only. */
  lemma ByteOrderMarkTrimmedByJavaScriptOnly()
    ensures Trim(['\U{FEFF}'], JavaScript) == [] && Trim(['\U{FEFF}'], Python) == ['\U{FEFF}']
  {
    WhiteCharTrimmed('\U{FEFF}', JavaScript);
    assert !InRanges(0xFEFF, Spaces(Python));
    SolidCharKept('\U{FEFF}', Python);
  }

  /** A lone whitespace character trims to nothing. */
  lemma WhiteCharTrimmed(c: char, lang: Language)
    requires IsWhitespace(c, lang)
    ensures Trim([c], lang) == []
  {
    assert [c][1..] == [];
  }

  /** A lone non-whitespace character is kept. */
  lemma SolidCharKept(c: char, lang: Language)
    requires !IsWhitespace(c, lang)
    ensures Trim([c], lang) == [c]
  {
  }

  function LowerChar(c: char): char {
    if 'A' <= c <= 'Z' then (c as int - 'A' as int + 'a' as int) as char else c
  }

  /**
   * `toLowerCase()` / `str.lower()` restricted to ASCII letters. Full Unicode
   * lowering can change the length (U+0130 becomes `i` and a combining dot)
   * and turns the Kelvin sign into `k`; as the audio extensions hold neither a
   * `k` nor a combining mark, membership in them is decided alike.
   */
  function ToLower(s: string): (r: string)
    ensures |r| == |s|
  {
    if s == [] then [] else [LowerChar(s[0])] + ToLower(s[1..])
  }

  /** Index of the first occurrence of `c`, or -1. */
  function IndexOf(s: string, c: char): (i: int)
    ensures -1 <= i < |s|
    ensures i == -1 <==> c !in s
    ensures 0 <= i ==> s[i] == c && c !in s[..i]
  {
    if s == [] then -1
    else if s[0] == c then 0
    else
      var j := IndexOf(s[1..], c);
      assert 0 <= j ==> s[..j + 1] == [s[0]] + s[1..][..j];
      if j < 0 then -1 else j + 1
  }

  /** `s.split(c)` for a one-character separator. */
  function Split(s: string, c: char): (parts: seq<string>)
    ensures |parts| >= 1
    decreases |s|
  {
    var i := IndexOf(s, c);
    if i < 0 then [s] else [s[..i]] + Split(s[i + 1..], c)
  }

  /** `parts.join(c)`. */
  function Join(parts: seq<string>, c: char): string {
    if |parts| == 0 then []
    else if |parts| == 1 then parts[0]
    else parts[0] + [c] + Join(parts[1..], c)
  }

  /** The first occurrence of `c` in `p + [c] + rest` is the one right after `p` when `p` has none. */
  lemma {:induction false} IndexOfAfter(p: string, c: char, rest: string)
    requires c !in p
    ensures IndexOf(p + [c] + rest, c) == |p|
  {
    if p != [] {
      IndexOfAfter(p[1..], c, rest);
      assert (p + [c] + rest)[1..] == p[1..] + [c] + rest;
    }
  }

  /** A split at a found separator: the text before it, then the split of the rest. */
  lemma SplitFound(s: string, c: char)
    requires c in s
    ensures var i := IndexOf(s, c);
      0 <= i < |s| && s[i] == c && Split(s, c) == [s[..i]] + Split(s[i + 1..], c)
  {
  }

  /** A text is what comes before a position, the element there, and what comes after. */
  lemma SplitAt<T>(s: seq<T>, i: nat)
    requires i < |s|
    ensures s == s[..i] + [s[i]] + s[i + 1..]
  {
  }

  lemma JoinCons(p: string, rest: seq<string>, c: char)
    requires |rest| >= 1
    ensures Join([p] + rest, c) == p + [c] + Join(rest, c)
  {
    assert ([p] + rest)[1..] == rest;
  }

  /** No part holds the separator. */
  predicate PartsFree(parts: seq<string>, c: char) {
    forall k :: 0 <= k < |parts| ==> c !in parts[k]
  }

  lemma PartsFreeCons(p: string, rest: seq<string>, c: char)
    requires c !in p && PartsFree(rest, c)
    ensures PartsFree([p] + rest, c)
  {
    var parts := [p] + rest;
    forall k | 0 <= k < |parts| ensures c !in parts[k] {
      if k > 0 { assert parts[k] == rest[k - 1]; }
    }
  }

  /** No part of a split contains the separator. */
  lemma {:induction false} SplitPartsFree(s: string, c: char)
    ensures PartsFree(Split(s, c), c)
    decreases |s|
  {
    if c in s {
      SplitFound(s, c);
      var i := IndexOf(s, c);
      var p, t := s[..i], s[i + 1..];
      SplitPartsFree(t, c);
      PartsFreeCons(p, Split(t, c), c);
    } else {
      assert Split(s, c) == [s];
    }
  }

  /** Joining the parts of a split restores the text. */
  lemma {:induction false} JoinSplit(s: string, c: char)
    ensures Join(Split(s, c), c) == s
    decreases |s|
  {
    if c in s {
      SplitFound(s, c);
      var i := IndexOf(s, c);
      var p, t := s[..i], s[i + 1..];
      JoinSplit(t, c);
      var rest := Split(t, c);
      JoinCons(p, rest, c);
      SplitAt(s, i);
    } else {
      assert Split(s, c) == [s];
    }
  }

  /** Splitting what was joined gives the parts back, as long as no part contains the separator. */
  lemma {:induction false} SplitJoin(parts: seq<string>, c: char)
    requires |parts| >= 1
    requires forall k :: 0 <= k < |parts| ==> c !in parts[k]
    ensures Split(Join(parts, c), c) == parts
  {
    if |parts| > 1 {
      var p := parts[0];
      var t := Join(parts[1..], c);
      var s := Join(parts, c);
      assert s == p + [c] + t;
      IndexOfAfter(p, c, t);
      assert s[..|p|] == p;
      assert s[|p| + 1..] == t;
      SplitJoin(parts[1..], c);
      assert parts == [p] + parts[1..];
    } else {
      assert Join(parts, c) == parts[0];
      assert parts == [parts[0]];
    }
  }

  /** `s.split(c)[0]`: the text before the first `c`. */
  function BeforeFirst(s: string, c: char): (r: string)
    ensures c !in r
    ensures |r| <= |s| && r == s[..|r|]
    ensures c !in s ==> r == s
    ensures c in s ==> |r| < |s| && s[|r|] == c
  {
    Split(s, c)[0]
  }

  /** `s.split(c).pop()`: the text after the last `c` (all of `s` when there is none). */
  function AfterLast(s: string, c: char): (r: string)
    ensures c !in r
    ensures |r| <= |s| && r == s[|s| - |r|..]
    ensures c !in s ==> r == s
    ensures c in s ==> |r| < |s| && s[|s| - |r| - 1] == c
  {
    if s == [] then []
    else if s[|s| - 1] == c then
      assert c in s;
      []
    else
      var r := AfterLast(s[..|s| - 1], c);
      AfterLastStep(s, c, r);
      r + [s[|s| - 1]]
  }

  /** A character other than `c` at the end extends the text after the last `c` by itself. */
  lemma AfterLastStep(s: string, c: char, r: string)
    requires s != [] && s[|s| - 1] != c
    requires var init := s[..|s| - 1];
      c !in r && |r| <= |init| && r == init[|init| - |r|..] &&
      (c !in init ==> r == init) &&
      (c in init ==> |r| < |init| && init[|init| - |r| - 1] == c)
    ensures var r' := r + [s[|s| - 1]];
      c !in r' && |r'| <= |s| && r' == s[|s| - |r'|..] &&
      (c !in s ==> r' == s) &&
      (c in s ==> |r'| < |s| && s[|s| - |r'| - 1] == c)
  {
    var init, last := s[..|s| - 1], s[|s| - 1];
    var r' := r + [last];
    assert s == init + [last];
    assert s[|s| - |r'|..] == init[|init| - |r|..] + [last];
    if c in init {
      var k :| 0 <= k < |init| && init[k] == c;
      assert s[k] == c;
      assert s[|s| - |r'| - 1] == init[|init| - |r| - 1];
    } else {
      assert forall k :: 0 <= k < |s| ==> s[k] == if k < |init| then init[k] else last;
    }
  }

  /** `s.replace(/from/g, to)` for single characters. */
  function ReplaceChar(s: string, from: char, to: char): (r: string)
    ensures |r| == |s|
    ensures forall i :: 0 <= i < |s| ==> r[i] == if s[i] == from then to else s[i]
  {
    if s == [] then [] else [if s[0] == from then to else s[0]] + ReplaceChar(s[1..], from, to)
  }

  /** Backslash normalisation of a path: every `\` becomes `/`. */
  function Slashed(path: string): (r: string)
    ensures '\\' !in r
    ensures |r| == |path|
  {
    ReplaceChar(path, '\\', '/')
  }

  const QuoteEscape: string := "'\\''"

  /** `s.replace(/'/g, "'\\''")`: close the quoted string, emit an escaped quote, reopen it. */
  function EscapeQuotes(s: string): (r: string)
    ensures |r| >= |s|
  {
    if s == [] then []
    else (if s[0] == '\'' then QuoteEscape else [s[0]]) + EscapeQuotes(s[1..])
  }

  /** The reading of an escaped body: `'\''` stands for one quote; a lone quote ends the body, so it is rejected. */
  function UnescapeQuotes(s: string): Option<string> {
    if s == [] then Some([])
    else if |s| >= 4 && s[..4] == QuoteEscape then
      match UnescapeQuotes(s[4..])
      case Some(rest) => Some("'" + rest)
      case None => None
    else if s[0] == '\'' then None
    else
      match UnescapeQuotes(s[1..])
      case Some(rest) => Some([s[0]] + rest)
      case None => None
  }

  /** Un-escaping recovers exactly the text that was escaped. */
  lemma {:induction false} UnescapeEscape(s: string)
    ensures UnescapeQuotes(EscapeQuotes(s)) == Some(s)
  {
    if s != [] {
      UnescapeEscape(s[1..]);
      var e := EscapeQuotes(s);
      if s[0] == '\'' {
        assert e == QuoteEscape + EscapeQuotes(s[1..]);
        assert e[..4] == QuoteEscape;
        assert e[4..] == EscapeQuotes(s[1..]);
        assert s == "'" + s[1..];
      } else {
        assert e == [s[0]] + EscapeQuotes(s[1..]);
        assert e[0] == s[0] && QuoteEscape[0] == '\'';
        assert |e| >= 4 ==> e[..4][0] == e[0];
        assert e[1..] == EscapeQuotes(s[1..]);
        assert s == [s[0]] + s[1..];
      }
    }
  }

  /**
   * The shape of an escaped body: every quote in it stands in a `'\''`
   * group, and so does every backslash.
   */
  predicate WellEscaped(r: string) {
    if r == [] then true
    else if |r| >= 4 && r[..4] == QuoteEscape then WellEscaped(r[4..])
    else r[0] != '\'' && r[0] != '\\' && WellEscaped(r[1..])
  }

  /** Escaping a slash-normalised path yields a well-escaped body: no other quote or backslash survives. */
  lemma {:induction false} EscapeWellFormed(s: string)
    requires '\\' !in s
    ensures WellEscaped(EscapeQuotes(s))
  {
    if s != [] {
      EscapeWellFormed(s[1..]);
      var e := EscapeQuotes(s);
      if s[0] == '\'' {
        assert e[..4] == QuoteEscape;
        assert e[4..] == EscapeQuotes(s[1..]);
      } else {
        assert e == [s[0]] + EscapeQuotes(s[1..]);
        assert e[0] == s[0] && QuoteEscape[0] == '\'';
        assert e[1..] == EscapeQuotes(s[1..]);
      }
    }
  }

  function DigitChar(d: nat): char
    requires d < 10
  {
    ('0' as int + d) as char
  }

  function NatToString(n: nat): (r: string)
    ensures |r| >= 1
    ensures forall i :: 0 <= i < |r| ==> '0' <= r[i] <= '9'
    decreases n
  {
    if n < 10 then [DigitChar(n)] else NatToString(n / 10) + [DigitChar(n % 10)]
  }

  /** Decimal text of an integer, as a template literal or an f-string renders it. */
  function IntToString(n: int): (r: string)
    ensures |r| >= 1
  {
    if n < 0 then "-" + NatToString(-n) else NatToString(n)
  }

  function DigitValue(c: char): nat {
    if '0' <= c <= '9' then (c as int - '0' as int) as nat else 0
  }

  /** Reading a decimal numeral back, the way the transcoder reads `START=`/`END=` values. */
  function ParseNat(s: string): nat {
    if s == [] then 0 else 10 * ParseNat(s[..|s| - 1]) + DigitValue(s[|s| - 1])
  }

  function ParseInt(s: string): int {
    if s != [] && s[0] == '-' then 0 - ParseNat(s[1..]) else ParseNat(s)
  }

  lemma DigitRoundTrip(d: nat)
    requires d < 10
    ensures DigitValue(DigitChar(d)) == d
  {
  }

  /** Reading the last digit off a numeral of two or more digits. */
  lemma ParseNatStep(q: string, d: nat)
    requires d < 10
    ensures ParseNat(q + [DigitChar(d)]) == 10 * ParseNat(q) + d
  {
    var r := q + [DigitChar(d)];
    assert r[..|r| - 1] == q && r[|r| - 1] == DigitChar(d);
    DigitRoundTrip(d);
  }

  lemma {:induction false} ParseNatToString(n: nat)
    ensures ParseNat(NatToString(n)) == n
    decreases n
  {
    if n >= 10 {
      var q, d := n / 10, n % 10;
      ParseNatToString(q);
      assert NatToString(n) == NatToString(q) + [DigitChar(d)];
      ParseNatStep(NatToString(q), d);
    } else {
      ParseNatStep([], n);
      assert [] + [DigitChar(n)] == NatToString(n);
    }
  }

  /** Rendered offsets read back as the same integer. */
  lemma IntToStringRoundTrip(n: int)
    ensures ParseInt(IntToString(n)) == n
  {
    var r := IntToString(n);
    if n < 0 {
      ParseNatToString(-n);
      assert r[0] == '-' && r[1..] == NatToString(-n);
    } else {
      ParseNatToString(n);
      assert '0' <= r[0] <= '9';
    }
  }
}

=== FILE: workspace.dfy ===
/**
 * The files an assembly run touches. Both implementations put their
 * temporary files (the concat list, the metadata file, the cover picture)
 * next to the output file, and remove them once the transcoder succeeds.
 *
 * The disk is a map from path to content. Content is abstract where the
 * bytes come from a program outside the model: a decoded base64 payload,
 * a picture the transcoder extracted, the audiobook it produced.
 */
module Workspace {
  import opened Text
  import opened FileTree
  import opened FfmpegCommand

  datatype Content =
    | Text(text: string)               // a text file the tool wrote
    | Decoded(base64: string)          // the bytes of a base64 payload
    | PictureOf(source: string)        // a picture the transcoder took from `source`
    | Audiobook(command: seq<string>)  // what the transcoder wrote when run with `command`
    | Opaque(tag: nat)                 // a file the tool did not write

  /** The disk as the run sees it. */
  class Disk {
    var files: map<string, Content>

    constructor(files: map<string, Content>)
      ensures this.files == files
    {
      this.files := files;
    }
  }

  /** `path.dirname` / `Path.parent`: everything before the last separator, `.` when there is none. */
  function DirName(path: string): (r: string)
    ensures PathSep in path ==>
      |r| < |path| && r == path[..|r|] && path[|r|] == PathSep && PathSep !in path[|r| + 1..]
  {
    if PathSep in path then
      var base := AfterLast(path, PathSep);
      path[..|path| - |base| - 1]
    else "."
  }

  /** A file of the given name in the output file's directory. */
  function TempFile(outputPath: string, name: string): string {
    JoinPath(DirName(outputPath), name)
  }

  /**
   * `path.extname`: the base name from its last dot on, or nothing when it
   * has no dot, its only dot comes first, or it is `..`. A path ending in a
   * separator has an empty base name here, where `path.extname` would skip
   * the trailing separator; a cover image path never ends in one.
   */
  function ExtName(path: string): string {
    var base := AfterLast(path, PathSep);
    match LastDot(base)
    case Some(i) => if i == 0 || base == ".." then [] else base[i..]
    case None => []
  }

  /** The position of the last dot. */
  function LastDot(s: string): (r: Option<nat>)
    ensures r.Some? ==> r.value < |s| && s[r.value] == '.'
    ensures r.Some? ==> '.' !in s[r.value + 1..]
    ensures r.None? ==> '.' !in s
  {
    if s == [] then None
    else if s[|s| - 1] == '.' then Some(|s| - 1)
    else
      var r := LastDot(s[..|s| - 1]);
      assert r.Some? ==> s[r.value + 1..] == s[..|s| - 1][r.value + 1..] + [s[|s| - 1]];
      assert s == s[..|s| - 1] + [s[|s| - 1]];
      r
  }

  /** Two files of the same directory are one file only when their names are equal. */
  lemma TempFilesDistinct(outputPath: string, a: string, b: string)
    requires a != b
    ensures TempFile(outputPath, a) != TempFile(outputPath, b)
  {
    var d := DirName(outputPath);
    assert JoinPath(d, a)[|d| + 1..] == a && JoinPath(d, b)[|d| + 1..] == b;
  }

  // ---- The temporary files of a run ----

  /**
   * What a run learns from the programs it starts: whether the output's
   * directory accepts files, from which inputs the transcoder can make a
   * picture, and whether the final transcoder run succeeds.
   */
  datatype Tools = Tools(canWrite: bool, picturesIn: set<string>, transcodes: bool)

  const ConcatName: string := "concat_list.txt"
  const MetadataName: string := "metadata.txt"
  const CoverName: string := "cover.png"

  lemma FixedNamesApart()
    ensures ConcatName != MetadataName && CoverName != ConcatName && CoverName != MetadataName
  {
    assert |CoverName| != |ConcatName| && |CoverName| != |MetadataName| && |ConcatName| != |MetadataName|;
  }

  lemma CopyNameApart(ext: string)
    ensures "cover" + ext != ConcatName && "cover" + ext != MetadataName
  {
    assert ("cover" + ext)[2] == 'v' && ConcatName[2] == 'n';
    assert ("cover" + ext)[0] == 'c' && MetadataName[0] == 'm';
  }

  /** A cover target (`cover.png` or `cover<ext>`) is never one of the other two temporary files. */
  lemma TempFilesApart(outputPath: string, name: string)
    requires name != ConcatName && name != MetadataName
    ensures TempFile(outputPath, ConcatName) != TempFile(outputPath, MetadataName)
    ensures TempFile(outputPath, name) != TempFile(outputPath, ConcatName)
    ensures TempFile(outputPath, name) != TempFile(outputPath, MetadataName)
  {
    FixedNamesApart();
    TempFilesDistinct(outputPath, ConcatName, MetadataName);
    TempFilesDistinct(outputPath, name, ConcatName);
    TempFilesDistinct(outputPath, name, MetadataName);
  }

  /** `coverFile && fs.existsSync(coverFile)`. */
  function EmbeddedCover(coverFile: Option<string>, staged: map<string, Content>): Option<string> {
    if coverFile.Some? && coverFile.value in staged then coverFile else None
  }

  /** The transcoder command: the cover is an input when `coverFile` is set and the file exists. */
  function RunInvocation(outputPath: string, copyAudio: bool, coverFile: Option<string>, staged: map<string, Content>)
    : Invocation
  {
    Invocation(TempFile(outputPath, ConcatName), TempFile(outputPath, MetadataName),
      EmbeddedCover(coverFile, staged), copyAudio, outputPath)
  }

  /** A map update leaves every other key as it was. */
  lemma UpdateKeeps(files: map<string, Content>, key: string, v: Content, p: string)
    requires p != key
    ensures (p in files[key := v] <==> p in files) && (p in files ==> files[key := v][p] == files[p])
  {
  }

  /** `if (fs.existsSync(path)) fs.unlinkSync(path)`. */
  function Unlinked(files: map<string, Content>, path: string): (r: map<string, Content>)
    ensures forall p :: p in r <==> p in files && p != path
    ensures forall p :: p in r ==> r[p] == files[p]
  {
    if path in files then files - {path} else files
  }

  /** Removing each temporary file that exists. */
  function Cleaned(files: map<string, Content>, outputPath: string, coverFile: Option<string>): map<string, Content> {
    var r := Unlinked(Unlinked(files, TempFile(outputPath, ConcatName)), TempFile(outputPath, MetadataName));
    if coverFile.Some? then Unlinked(r, coverFile.value) else r
  }

  /** The cleanup after a successful run: each temporary file that exists is removed. */
  method Cleanup(disk: Disk, outputPath: string, coverFile: Option<string>)
    modifies disk
    ensures disk.files == Cleaned(old(disk.files), outputPath, coverFile)
  {
    var concatFile := TempFile(outputPath, ConcatName);
    var metadataFile := TempFile(outputPath, MetadataName);
    if concatFile in disk.files {
      disk.files := disk.files - {concatFile};
    }
    assert disk.files == Unlinked(old(disk.files), concatFile);
    if metadataFile in disk.files {
      disk.files := disk.files - {metadataFile};
    }
    assert disk.files == Unlinked(Unlinked(old(disk.files), concatFile), metadataFile);
    if coverFile.Some? && coverFile.value in disk.files {
      disk.files := disk.files - {coverFile.value};
    }
  }

  /** The cleanup removes the temporary files and keeps every other file as it is. */
  lemma CleanedFrame(files: map<string, Content>, outputPath: string, coverFile: Option<string>, p: string)
    ensures var r := Cleaned(files, outputPath, coverFile);
      (p in r <==> (p in files && p != TempFile(outputPath, ConcatName) && p != TempFile(outputPath, MetadataName) &&
                    (coverFile.Some? ==> p != coverFile.value))) &&
      (p in r ==> r[p] == files[p])
  {
  }
}
